=== FILE: README.md ===
# Temporal samples: metric harvesters and a sample authorizer, in Dafny

This project models the parts of Temporal's samples-server repository that move Temporal
Cloud metrics from its Prometheus API into other systems. It also models the sample
authorizer and claim mapper of the extensibility samples.

- **Pull translator** (`promql-to-scrape`). It classifies metric names by suffix
  (`ScrapeMetric`) and lists and partitions them (`ScrapeClient`). It runs one instant query
  per configured metric (`ScrapeQuery`) and renders the answers in the Prometheus text
  exposition format (`ScrapeSerialize`). A five-minute cache serves them on `/metrics`
  (`ScrapeServer`). `GenConfig` generates the configuration and sorts it with `ByMetricName`
  (`ScrapeConfig`).
- **Push harvester `kibble`.** Discovery splits names into buckets and the rest
  (`KibbleClient`). The worker computes a padded, step-aligned range query window, queries
  every histogram quantile and every counter, translates the matrices, and submits once
  (`KibbleWorker`). Submission pages the series by 100 (`KibbleDatadog`). The translator the
  worker calls is the `promql-to-dd-go` one (`DdTranslate`): NaN becomes 0, milliseconds are
  cut to seconds, and `__rollup__` is dropped.
- **Python Datadog script** (`PythonScript`). Names are split into histograms and counters
  by family. The module covers the query texts, the rate and gauge series (NaN dropped, tags
  cut to 200 characters), submission in batches of 200, and the window that slides and
  overlaps from one cycle to the next.
- **TypeScript Datadog and New Relic scripts.** `TsCommon` holds what they share: the name
  filter, the query texts, the series names and the step-aligned window. It also holds the
  JavaScript semantics they run on. `parseFloat` does not read Prometheus's `+Inf` and
  `-Inf`, so infinities become NaN. Strings are UTF-16 code units. A whole number prints
  without `.0`. `DdTsScript` covers the Datadog series. `NrTsScript` covers the New Relic
  metrics and their single payload.
- **Authorizer and claim mapper** (`MyAuthorizer`, `MyClaimMapper`, over the `Authorization`
  types). Everything in `temporal-system` is allowed. Only `UpdateNamespace` can be denied.
  Nil claims on `UpdateNamespace` dereference nil. A token makes the caller a system writer.

Conventions:
- Go maps that are iterated are sequences with unique keys, in the order the runtime visits
  them.
- Sample values are `NaN | PosInf | NegInf | Finite(real)`. In the scripts' JSON, a value is
  the number its text spells (`NaN`, `+Inf`, `-Inf` or a decimal).
- Quantiles are integer percentages.
- The Prometheus and Datadog APIs, the clock and the formatter of `%g` floats are function
  parameters: the answer to the `k`-th call.
- Go's integer `/` truncates toward zero and is written out (`GoArith.GoDiv`).
- Python's `int()` truncates, and JavaScript's `Math.floor` floors.

## Model

| member | source | states |
|---|---|---|
| ScrapeMetric.GetMetricType | cloud/observability/promql-to-scrape/internal/metric.go:5-18 | the type is one of three; histogram iff `_bucket` suffix; "count" iff `_count` or `_sum` and not `_bucket`; gauge otherwise |
| ScrapeMetric.GetMetricTypeDependsOnSuffix | cloud/observability/promql-to-scrape/internal/metric.go:11-18 | two names with the same last seven characters get the same type |
| ScrapeClient.ListMetrics | cloud/observability/promql-to-scrape/internal/client.go:59-84 | a listing error becomes the wrapped error; otherwise the result is the reference partition of the prefixed names by type, in listing order |
| ScrapeClient.PartitionExcludesUnprefixed | cloud/observability/promql-to-scrape/internal/client.go:70-73 | a name without the prefix is in no list |
| ScrapeClient.PartitionPlacesByType | cloud/observability/promql-to-scrape/internal/client.go:74-81 | a prefixed listed name is in a list iff its type is that list's type |
| ScrapeClient.PartitionMultiset | cloud/observability/promql-to-scrape/internal/client.go:67-83 | the three lists together are the prefixed names, as a multiset: nothing lost or duplicated |
| ScrapeClient.PartitionSnoc | cloud/observability/promql-to-scrape/internal/client.go:70-82 | one more listed name is appended to the end of its type's list, or to none when it lacks the prefix; the other lists are unchanged |
| ScrapeClient.PartitionKeepsOrder | cloud/observability/promql-to-scrape/internal/client.go:70-82 | every list is a subsequence of the listing |
| ScrapeClient.QueryMetricsInstant | cloud/observability/promql-to-scrape/internal/client.go:86-101 | fails iff the API call fails, with the wrapped error; warnings are only logged; a non-vector result yields an empty vector and a log line |
| ScrapeClient.WarningsNeverFail | cloud/observability/promql-to-scrape/internal/client.go:93-95 | the result does not depend on the warnings |
| ScrapeQuery.Queries | cloud/observability/promql-to-scrape/internal/query.go:15-16 | one query text per configured metric, in order |
| ScrapeQuery.QueryMetrics | cloud/observability/promql-to-scrape/internal/query.go:11-25 | queries are issued in configuration order; on success every call succeeded and the map is the one built entry by entry; on failure the last call failed, all before succeeded, and the error names that metric |
| ScrapeQuery.BuiltKeys | cloud/observability/promql-to-scrape/internal/query.go:13-21 | the map's keys are exactly the configured names; an empty configuration gives the empty map |
| ScrapeQuery.BuiltLastWins | cloud/observability/promql-to-scrape/internal/query.go:15-21 | for a duplicated name the last entry's answer is kept |
| ScrapeConfig.LessStrictOrder | cloud/observability/promql-to-scrape/internal/config.go:41-43 | `Less` is irreflexive, transitive and asymmetric |
| ScrapeConfig.LexLessTotal | cloud/observability/promql-to-scrape/internal/config.go:41-43 | two different names are ordered one way or the other |
| ScrapeConfig.LexLessAntisymmetric | cloud/observability/promql-to-scrape/internal/config.go:41-43 | names that do not sort before each other are equal |
| ScrapeConfig.Swap | cloud/observability/promql-to-scrape/internal/config.go:45-47 | exchanges elements `i` and `j` and leaves every other element in place |
| ScrapeConfig.SwapTwice | cloud/observability/promql-to-scrape/internal/config.go:45-47 | swapping twice restores the list |
| ScrapeConfig.SwapMultiset | cloud/observability/promql-to-scrape/internal/config.go:45-47 | a swap is a permutation |
| ScrapeSerialize.Escape | cloud/observability/promql-to-scrape/internal/serialize.go:16 | the escaped value is at least as long as the value and at most twice as long, and holds no raw newline |
| ScrapeSerialize.EscapeRoundTrip | cloud/observability/promql-to-scrape/internal/serialize.go:16 | unescaping the escaped label value gives the value back |
| ScrapeSerialize.EscapeNoNewline | cloud/observability/promql-to-scrape/internal/serialize.go:16 | an escaped value has no raw newline |
| ScrapeSerialize.EscapeIdentity | cloud/observability/promql-to-scrape/internal/serialize.go:16 | a value with no backslash, newline or quote is written unchanged |
| ScrapeSerialize.WriteFloat | cloud/observability/promql-to-scrape/internal/serialize.go:94-114 | NaN and the infinities are written as the exposition format's `NaN`, `+Inf` and `-Inf`; a finite value other than 1, 0 and -1 is the `%g` text; a finite value is never written as one of those three words when `%g` never produces them |
| ScrapeSerialize.TrimSuffixes | cloud/observability/promql-to-scrape/internal/serialize.go:116-122 | the result is a prefix of the name |
| ScrapeSerialize.TrimMetricSuffixesShape | cloud/observability/promql-to-scrape/internal/serialize.go:31 | the name is the trimmed name followed by at most one `_bucket`, at most one `_sum` and at most one `_count`, in that order |
| ScrapeSerialize.TrimMetricSuffixesIdentity | cloud/observability/promql-to-scrape/internal/serialize.go:31 | a name with none of the three suffixes is unchanged |
| ScrapeSerialize.WriteLabelsKept | cloud/observability/promql-to-scrape/internal/serialize.go:52-64 | the label loop writes the first separator and the kept labels joined by commas, then `}` |
| ScrapeSerialize.RenderLabelsCases | cloud/observability/promql-to-scrape/internal/serialize.go:48-64 | compared with the exposition format's `{k="v",...}`, the block is the same when the metric has other than one label and kept labels, gets an extra `{` when it has exactly one label, and is `{}` or a lone `}` when no label is kept |
| ScrapeSerialize.RenderLabelsNoNewline | cloud/observability/promql-to-scrape/internal/serialize.go:48-64 | the label block has no newline when the label names have none |
| ScrapeSerialize.SampleLines | cloud/observability/promql-to-scrape/internal/serialize.go:44-77 | one sample line per sample, in order |
| ScrapeSerialize.WriteMetric | cloud/observability/promql-to-scrape/internal/serialize.go:31-77 | one metric's text is its HELP line, its TYPE line and its sample lines, each ended by a newline |
| ScrapeSerialize.SamplesToString | cloud/observability/promql-to-scrape/internal/serialize.go:27-81 | given an order that visits every key of the map exactly once, the built text is the line-joined rendering of the metrics in that order |
| ScrapeSerialize.RenderedLinesAround | cloud/observability/promql-to-scrape/internal/serialize.go:30-77 | the lines are those of the names visited before a position, that name's HELP, TYPE and sample block, then those of the names after it |
| ScrapeSerialize.OneBlockPerKey | cloud/observability/promql-to-scrape/internal/serialize.go:30-42 | there are as many blocks as keys, and each key's HELP, TYPE and sample lines form exactly one block, its name visited nowhere else |
| ScrapeSerialize.RenderedLinesNoNewline | cloud/observability/promql-to-scrape/internal/serialize.go:27-81 | with newline-free names, label names and formatter, no rendered line contains a newline |
| ScrapeSerialize.RenderedLinesCount | cloud/observability/promql-to-scrape/internal/serialize.go:30-77 | two header lines per metric plus one line per sample |
| ScrapeSerialize.RenderedTextLines | cloud/observability/promql-to-scrape/internal/serialize.go:27-81 | a reader splitting the text at newlines gets back exactly the rendered lines, and the text holds exactly that many newlines |
| ScrapeServer.Since | cloud/observability/promql-to-scrape/internal/server.go:48 | `time.Since` is the difference, saturated at the int64 bounds |
| ScrapeServer.Handle | cloud/observability/promql-to-scrape/internal/server.go:45-58 | the cached text is served iff it is less than five minutes old and the write succeeds; stale data gives 500 with the stale reason |
| ScrapeServer.Refresh | cloud/observability/promql-to-scrape/internal/server.go:79-91 | a failed fan-out changes nothing; a successful one stores the rendering and the time |
| ScrapeServer.FreshForFiveMinutes | cloud/observability/promql-to-scrape/internal/server.go:48-49 | after a refresh at `t`, a scrape at `now >= t` gets the new text iff `now - t` is under five minutes |
| ScrapeServer.RunWithoutSuccessKeepsState | cloud/observability/promql-to-scrape/internal/server.go:45-91 | scrapes and failed refreshes never change the state |
| ScrapeServer.ErrorsUntilFirstRefresh | cloud/observability/promql-to-scrape/internal/server.go:45-58 | from the zero time, every scrape fails with the stale reason until the first successful refresh |
| ScrapeServer.NextTick | cloud/observability/promql-to-scrape/internal/server.go:64-69 | the first tick after a time is a whole number of 59-second periods after the ticker's start, at most one period later |
| ScrapeServer.RefreshStarts | cloud/observability/promql-to-scrape/internal/server.go:61-72 | the first call starts at once; each later call starts at the first tick after the previous start, or when the previous call returns if that is later |
| ScrapeServer.ScheduleShape | cloud/observability/promql-to-scrape/internal/server.go:61-72 | calls never overlap; each starts at most 59 s after the previous one returned, on a tick or as that call returns, and never before the first tick of the ticker started when the first call returned |
| ScrapeServer.OnScheduleWhenQuick | cloud/observability/promql-to-scrape/internal/server.go:62-69 | while later calls return within 59 s, call `i` starts `i` periods after the first call returned, offset by its duration |
| ScrapeServer.SlowRefreshRunsNextAtOnce | cloud/observability/promql-to-scrape/internal/server.go:66-70 | after a call of 59 s or more the next call starts as soon as it returns; the ticks missed meanwhile are dropped |
| GenConfig.Entries | cloud/observability/promql-to-scrape/cmd/genconfig/main.go:54-71 | one entry per name, with the counter, gauge or histogram name and query |
| GenConfig.Insert | cloud/observability/promql-to-scrape/cmd/genconfig/main.go:73 | inserting into a sorted list keeps it sorted and adds exactly that entry |
| GenConfig.SortByName | cloud/observability/promql-to-scrape/cmd/genconfig/main.go:73 | the result is sorted by metric name and is a permutation of the input |
| GenConfig.BuildConfig | cloud/observability/promql-to-scrape/cmd/genconfig/main.go:52-73 | the configuration is the sorted list of counter, gauge and histogram entries |
| GenConfig.GenerateConfig | cloud/observability/promql-to-scrape/cmd/genconfig/main.go:44-73 | a listing error is fatal; otherwise the configuration is built from discovery with prefix `temporal_cloud_v0` |
| GenConfig.GeneratedCount | cloud/observability/promql-to-scrape/cmd/genconfig/main.go:54-73 | one entry per discovered name |
| GenConfig.SortedNamesUnique | cloud/observability/promql-to-scrape/cmd/genconfig/main.go:73 | any two sorted permutations list the same names in the same order, so the unstable sort fixes the name order |
| GoArith.GoDiv | cloud/observability/kibble/worker/worker.go:107-113 | Go's truncating division bounds the quotient from both sides for positive divisors |
| KibbleClient.SplitNames | cloud/observability/kibble/prometheus/client.go:67-79 | a name is a bucket iff it is listed, has the prefix and ends in `_bucket`; a count iff it is listed, has the prefix and does not |
| KibbleClient.ListMetrics | cloud/observability/kibble/prometheus/client.go:59-80 | a listing error becomes the wrapped error; otherwise the prefixed names are split into buckets and the rest, in listing order |
| KibbleClient.SplitDisjoint | cloud/observability/kibble/prometheus/client.go:69-78 | no name is in both lists, and every listed name has the prefix |
| KibbleClient.SplitMultiset | cloud/observability/kibble/prometheus/client.go:67-79 | the two lists together are the prefixed names, as a multiset |
| KibbleClient.SplitKeepsOrder | cloud/observability/kibble/prometheus/client.go:69-78 | each list is a subsequence of the listing |
| KibbleClient.QueryMetrics | cloud/observability/kibble/prometheus/client.go:82-97 | fails iff the API call fails, with the wrapped error; warnings are only logged; a non-matrix result is an empty matrix |
| KibbleDatadog.Paginate | cloud/observability/kibble/datadog/client.go:73-86 | page bounds are clamped to the slice, at most a page long, and a full page when the slice allows |
| KibbleDatadog.PagesContiguous | cloud/observability/kibble/datadog/client.go:73-86 | each page starts where the previous one ends |
| KibbleDatadog.EmptyPage | cloud/observability/kibble/datadog/client.go:39-42 | the loop stops at the first page starting at or past the end |
| KibbleDatadog.PageError | cloud/observability/kibble/datadog/client.go:52-64 | a page reports no error iff the call succeeded with an empty error list |
| KibbleDatadog.SubmitMetrics | cloud/observability/kibble/datadog/client.go:33-71 | the pages are the consecutive non-empty pages of at most 100 that together are the series; the result is nil iff every page succeeded, and otherwise one page's error |
| KibbleWorker.QueryWindow | cloud/observability/kibble/worker/worker.go:52-54 | the window is the interval times 1.2, cut to whole seconds |
| KibbleWorker.CalcRange | cloud/observability/kibble/worker/worker.go:106-120 | the range carries the configured step |
| KibbleWorker.CalcRangeBounds | cloud/observability/kibble/worker/worker.go:106-120 | the padded range ends within one step after the minute-aligned end, starts at least one step before the window, and is longer than window plus step |
| KibbleWorker.CalcRangeAligned | cloud/observability/kibble/worker/worker.go:111-113 | both bounds are multiples of the step |
| KibbleWorker.WindowEndOnMinute | cloud/observability/kibble/worker/worker.go:107 | the unpadded end is on the minute and less than a minute before now |
| KibbleWorker.Row | cloud/observability/kibble/worker/worker.go:70-78 | one histogram job per bucket for a quantile, in bucket order |
| KibbleWorker.RatePlan | cloud/observability/kibble/worker/worker.go:84-92 | one rate job per counter, in order |
| KibbleWorker.HistogramPlanOrder | cloud/observability/kibble/worker/worker.go:69-79 | the query at position i times the bucket count plus j is quantile `i` of bucket `j`: quantile-major |
| KibbleWorker.QuantileText | cloud/observability/kibble/worker/worker.go:25 | `%.2f` of a quantile: the integer part, a point, then exactly two digits whose value is the percentage modulo 100 |
| KibbleWorker.QuantileTextExamples | cloud/observability/kibble/worker/worker.go:25 | `%.2f` renders 50, 99 and 100 per cent as 0.50, 0.99 and 1.00 |
| KibbleWorker.PlanParts | cloud/observability/kibble/worker/worker.go:67-92 | the plan is all histogram jobs, then all rate jobs |
| KibbleWorker.QueryJobs | cloud/observability/kibble/worker/worker.go:69-92 | one loop sends its jobs in order and stops at the first failure, returning that error; on success it collects every translation in order |
| KibbleWorker.Cycle | cloud/observability/kibble/worker/worker.go:67-101 | the calls are the plan's prefix; a failed query is the last call and ends the cycle; otherwise the histogram series then the counter series are submitted once, and the submitter's answer is the outcome |
| KibbleWorker.Do | cloud/observability/kibble/worker/worker.go:56-104 | a listing failure panics before any query; otherwise the cycle runs over the plan built from the split names and the configured quantiles, over the computed range |
| KibbleWorker.CollectedIntake | cloud/observability/kibble/worker/worker.go:67-92 | the histogram part holds gauges only and the counter part counts only |
| KibbleWorker.Run | cloud/observability/kibble/worker/worker.go:30-50 | the loop returns iff an interrupt arrives; one cycle is spawned per wake-up plus one; back-offs never outnumber cycles |
| KibbleWorker.RunStopsAtInterrupt | cloud/observability/kibble/worker/worker.go:45-47 | nothing after the first interrupt matters |
| DdTranslate.PercentField | cloud/observability/promql-to-dd-go/worker/utils.go:30 | `%2.0f` of a percentage: its digits, space-padded to two characters |
| DdTranslate.HistogramNameShape | cloud/observability/promql-to-dd-go/worker/utils.go:29-33 | one trailing `_bucket` is replaced by `_P` and the percentage |
| DdTranslate.CountNameShape | cloud/observability/promql-to-dd-go/worker/utils.go:35-39 | one trailing `_count` is replaced by `_rate1m` |
| DdTranslate.PointValue | cloud/observability/promql-to-dd-go/worker/utils.go:56-59 | NaN becomes 0; every other value, infinities included, is kept |
| DdTranslate.Points | cloud/observability/promql-to-dd-go/worker/utils.go:54-66 | one point per sample pair, in order |
| DdTranslate.MatrixToSeries | cloud/observability/promql-to-dd-go/worker/utils.go:41-76 | one series per stream, in matrix order |
| DdTranslate.SeriesShape | cloud/observability/promql-to-dd-go/worker/utils.go:54-73 | each series has the given name and type, and one point per sample, with NaN zeroed and milliseconds truncated to seconds |
| DdTranslate.ResourcesExact | cloud/observability/promql-to-dd-go/worker/utils.go:44-52 | `__rollup__` is never a resource; every other label is exactly one resource; resource types are unique |
| DdTranslate.PromHistogramToDatadogGauge | cloud/observability/promql-to-dd-go/worker/utils.go:29-33 | one gauge series per matrix entry, in order, under the quantile name, with one point per sample and the entry's labels as resources |
| DdTranslate.PromCountToDatadogCount | cloud/observability/promql-to-dd-go/worker/utils.go:35-39 | one count series per matrix entry, in order, under the `_rate1m` name, with one point per sample and the entry's labels as resources |
| DdTranslate.FullyPopulatedCase | cloud/observability/promql-to-dd-go/worker/utils_test.go:25-58 | the "fully populated" table case gives the expected series |
| DdTranslate.NaNCase | cloud/observability/promql-to-dd-go/worker/utils_test.go:59-92 | the NaN table case gives the expected series, NaN read as 0 |
| PythonScript.HistogramNames | cloud/observability/datadog/promql-to-dd.py:243 | a name is a histogram iff it is listed and ends in `_bucket` |
| PythonScript.CounterNames | cloud/observability/datadog/promql-to-dd.py:244-248 | a name is a counter iff it is listed and its family plus `_bucket` is not a histogram |
| PythonScript.FamilyOfBucket | cloud/observability/datadog/promql-to-dd.py:247 | the family of `base_bucket` is `base` |
| PythonScript.HistogramsAndCountersDisjoint | cloud/observability/datadog/promql-to-dd.py:242-248 | no name is both a histogram and a counter |
| PythonScript.CompanionsExcluded | cloud/observability/datadog/promql-to-dd.py:243-248 | the `_sum` and `_count` companions of a listed histogram are not counters |
| PythonScript.CounterWhenNoBucket | cloud/observability/datadog/promql-to-dd.py:243-248 | a listed name whose family has no bucket series is a counter |
| PythonScript.HistogramPromQL | cloud/observability/datadog/promql-to-dd.py:79-81 | the quantile text and the metric name can be read back at fixed offsets of the query |
| PythonScript.CounterPromQL | cloud/observability/datadog/promql-to-dd.py:84-86 | the metric name can be read back between the fixed head and tail of the query |
| PythonScript.CounterPromQLInjective | cloud/observability/datadog/promql-to-dd.py:84-86 | different counters give different queries |
| PythonScript.Points | cloud/observability/datadog/promql-to-dd.py:137-142 | the points are the non-NaN samples, in order |
| PythonScript.Tags | cloud/observability/datadog/promql-to-dd.py:169 | one tag per label, in order |
| PythonScript.RateSeries | cloud/observability/datadog/promql-to-dd.py:127-153 | name plus `_rate1m`, type 2, interval 60, no NaN point, one tag per label other than `__rollup__` |
| PythonScript.GaugeSeries | cloud/observability/datadog/promql-to-dd.py:156-171 | type 3, no interval, no NaN point, one tag per label including `__rollup__` |
| PythonScript.TagBounds | cloud/observability/datadog/promql-to-dd.py:147 | a tag is at most 200 characters, a prefix of `key:value`, and all of it when that fits |
| PythonScript.RollupOnlyInGauges | cloud/observability/datadog/promql-to-dd.py:144-169 | a rollup label appears among the gauge's tags and never among the rate's |
| PythonScript.GaugeName | cloud/observability/datadog/promql-to-dd.py:160 | the gauge of `base_bucket` is named `base_P` and the percentage |
| PythonScript.RateSeriesOf | cloud/observability/datadog/promql-to-dd.py:185-186 | one rate series per result, in order |
| PythonScript.GaugeSeriesOf | cloud/observability/datadog/promql-to-dd.py:201-202 | one gauge series per result, in order |
| PythonScript.RatesBeforeGauges | cloud/observability/datadog/promql-to-dd.py:268-270 | in a cycle's submission no rate series follows a gauge |
| PythonScript.GatherCountersRates | cloud/observability/datadog/promql-to-dd.py:174-188 | every series gathered from counters is a rate |
| PythonScript.GatherHistogramsGauges | cloud/observability/datadog/promql-to-dd.py:191-204 | every series gathered from histograms is a gauge |
| PythonScript.SubmitSeries | cloud/observability/datadog/promql-to-dd.py:106-124 | the batches are consecutive non-empty groups of at most 200 that together are the series; the result is the answers that differ from the empty-errors answer, in batch order |
| PythonScript.BatchPosition | cloud/observability/datadog/promql-to-dd.py:112-113 | series `i` is element `i % 200` of batch `i / 200`, so each series is sent exactly once |
| PythonScript.AlignBounds | cloud/observability/datadog/promql-to-dd.py:261-266 | the aligned window starts at least one and less than two steps earlier, and ends later by at most one step |
| PythonScript.WindowsOverlap | cloud/observability/datadog/promql-to-dd.py:261-278 | the next aligned window starts eleven minutes before the previous aligned end |
| Seqs.Chunks | cloud/observability/datadog/promql-to-dd.py:112-113 | consecutive groups of `n` that flatten back to the input, none empty, all full but the last |
| Text.BeforeLast | cloud/observability/datadog/promql-to-dd.py:247 | `rpartition("_")[0]`: the text before the last underscore, or empty when there is none |
| Text.Take | cloud/observability/datadog/promql-to-dd.py:147 | a prefix of at most `n` characters, the whole string when it fits |
| Text.TrimSuffix | cloud/observability/datadog/promql-to-dd.py:160 | drops one trailing suffix if present, else nothing |
| Text.ShortFraction | cloud/observability/datadog/promql-to-dd.py:81 | the quantile as the script prints it: the integer part, a point, and digits; one digit, worth a tenth of the percentage modulo 100, when the hundredths are 0; otherwise two digits, worth the percentage modulo 100 and not ending in 0 |
| Text.ShortFractionExamples | cloud/observability/datadog/promql-to-dd.py:81 | Python prints the quantiles 0.5, 0.95, 1.0, 0.75, 0.9 and 0.99 as such |
| Text.BeforeFirst | cloud/observability/promql-to-dd-ts/promql-to-dd.ts:151 | `split(sep)[0]`: a prefix with no earlier occurrence, followed by `sep` unless it is the whole string |
| TsCommon.ParseFloat | cloud/observability/promql-to-dd-ts/promql-to-dd.ts:157 | a finite value parses to itself; `NaN`, `+Inf` and `-Inf` all parse to NaN |
| TsCommon.JsFractionAgainstPython | cloud/observability/promql-to-dd-ts/promql-to-dd.ts:175 | JavaScript prints a quantile as Python does, except that a whole number lacks Python's `.0` |
| TsCommon.JsFractionExamples | cloud/observability/promql-to-dd-ts/promql-to-dd.ts:175 | the quantiles print as 0.5, 0.95 and 0.99; 1 and 0 print without a fraction |
| TsCommon.Utf16RoundTrip | cloud/observability/promql-to-dd-ts/promql-to-dd.ts:163 | reading the UTF-16 code units of a text back gives the text |
| TsCommon.CutByPlane | cloud/observability/promql-to-dd-ts/promql-to-dd.ts:163 | `substring(0, n)` keeps `n` characters of a Basic Multilingual Plane text but only `n / 2` of a text of characters above it |
| TsCommon.GetMetricNames | cloud/observability/promql-to-dd-ts/promql-to-dd.ts:63-84 | every count name is listed, has the `temporal_cloud` prefix and ends in `_count`; every histogram name likewise with `_bucket` |
| TsCommon.GetMetricNamesExact | cloud/observability/promql-to-dd-ts/promql-to-dd.ts:63-84 | a name is a count iff it has the prefix and `_count`, a histogram iff the prefix and `_bucket`; never both |
| TsCommon.GetMetricNamesKeepsOrder | cloud/observability/promql-to-dd-ts/promql-to-dd.ts:72-81 | both lists keep listing order |
| TsCommon.NamesOfSuffixed | cloud/observability/promql-to-dd-ts/promql-to-dd.ts:151-191 | for a name with its suffix only at the end, the series name replaces the suffix by `_rate1m` or `_P` and the percentage |
| TsCommon.FirstOccurrenceWins | cloud/observability/promql-to-nr-ts/promql-to-nr.ts:169 | an earlier occurrence of the suffix cuts the name there |
| TsCommon.Align | cloud/observability/promql-to-dd-ts/promql-to-dd.ts:115-124 | both ends of the aligned window are whole seconds on a 60-second step |
| TsCommon.AlignBounds | cloud/observability/promql-to-dd-ts/promql-to-dd.ts:115-124 | the aligned window starts at least one and less than two steps earlier, and ends later by at most one step |
| TsCommon.GeneratedWindowWidth | cloud/observability/promql-to-dd-ts/promql-to-dd.ts:104-111 | the generated window is always 720 seconds long and ends one step after the current minute |
| DdTsScript.Points | cloud/observability/promql-to-dd-ts/promql-to-dd.ts:154-159 | one point per sample with its timestamp; finite values kept; a point is NaN iff its sample is `NaN`, `+Inf` or `-Inf` |
| DdTsScript.Tags | cloud/observability/promql-to-dd-ts/promql-to-dd.ts:160-163 | one tag per label other than `__rollup__`, in order, each the key, a colon and the value cut to 200 UTF-16 code units |
| DdTsScript.ConvertCount | cloud/observability/promql-to-dd-ts/promql-to-dd.ts:143-164 | one rate series per result entry, interval 60, all samples |
| DdTsScript.ConvertHistogram | cloud/observability/promql-to-dd-ts/promql-to-dd.ts:184-204 | one gauge series per result entry, no interval, all samples |
| DdTsScript.TagsExact | cloud/observability/promql-to-dd-ts/promql-to-dd.ts:160-163 | every non-rollup label gives a tag and no tag comes from the rollup label |
| DdTsScript.TagValueBound | cloud/observability/promql-to-dd-ts/promql-to-dd.ts:163 | the key is kept whole and only the value is cut, to 200 code units: a short value is kept whole, a BMP value keeps 200 characters, a value above the BMP keeps 100 |
| DdTsScript.CycleBodyTypes | cloud/observability/promql-to-dd-ts/promql-to-dd.ts:230-253 | the submitted body is all rate series, then all gauge series |
| NrTsScript.CountMetricsOf | cloud/observability/promql-to-nr-ts/promql-to-nr.ts:167-176 | one count metric per sample, in order; a count is NaN iff its sample is `NaN`, `+Inf` or `-Inf` |
| NrTsScript.GaugeMetricsOf | cloud/observability/promql-to-nr-ts/promql-to-nr.ts:201-216 | one gauge metric per sample whose text is not `NaN`, in order; a gauge is NaN iff its sample is an infinity |
| NrTsScript.ConvertCount | cloud/observability/promql-to-nr-ts/promql-to-nr.ts:163-176 | as many metrics as samples, each a count under the `_rate1m` name with a 60000 ms interval |
| NrTsScript.ConvertHistogram | cloud/observability/promql-to-nr-ts/promql-to-nr.ts:196-216 | every metric is a gauge under the quantile name, with no interval and never infinite |
| NrTsScript.ConvertCountSize | cloud/observability/promql-to-nr-ts/promql-to-nr.ts:163-176 | as many count metrics as samples |
| NrTsScript.ConvertCountShape | cloud/observability/promql-to-nr-ts/promql-to-nr.ts:168-175 | every count metric has the count name and a 60000 ms interval |
| NrTsScript.ConvertHistogramNoNaN | cloud/observability/promql-to-nr-ts/promql-to-nr.ts:196-216 | every gauge metric is a gauge of the quantile name, with no interval and never infinite; none is NaN when no sample is infinite |
| NrTsScript.InfinityBecomesNaNGauge | cloud/observability/promql-to-nr-ts/promql-to-nr.ts:203-212 | a `+Inf` or `-Inf` sample passes the `"NaN"` text filter and is posted as a NaN gauge |
| NrTsScript.AttributesExact | cloud/observability/promql-to-nr-ts/promql-to-nr.ts:174 | a label is an attribute iff it is not `__rollup__` |
| NrTsScript.Body | cloud/observability/promql-to-nr-ts/promql-to-nr.ts:273-275 | one payload per post |
| NrTsScript.BodyOrder | cloud/observability/promql-to-nr-ts/promql-to-nr.ts:240-275 | in the payload counts precede gauges; no gauge is NaN unless a quantile query of a listed histogram was answered with an infinite sample, whatever the count queries answer |
| NrTsScript.InfiniteAnswerGivesNaNGauge | cloud/observability/promql-to-nr-ts/promql-to-nr.ts:203-212 | conversely, an infinite sample in the answer to a quantile query of a listed histogram puts a NaN gauge in the payload |
| MyAuthorizer.Authorize | extensibility/authorizer/myAuthorizer.go:40-70 | panics iff nil claims meet `UpdateNamespace` outside `temporal-system`; deny only for `UpdateNamespace` outside `temporal-system` |
| MyAuthorizer.AuthorizeMatchesTable | extensibility/authorizer/myAuthorizer.go:43-69 | with claims, allowed iff in `temporal-system`, not `UpdateNamespace`, a system admin or writer, or a writer of the namespace; denied otherwise |
| MyAuthorizer.NilClaimsAllowed | extensibility/authorizer/myAuthorizer.go:43-52 | without claims every other call is allowed |
| MyAuthorizer.NamespaceWriterDecides | extensibility/authorizer/myAuthorizer.go:59-66 | for a non-admin, `UpdateNamespace` is allowed iff the namespace role has the writer bit; a missing namespace means deny |
| MyClaimMapper.GetClaims | extensibility/authorizer/myClaimMapper.go:37-53 | subject from the certificate on TLS; a token gives system writer and reader of `foo`; no token leaves roles zero and the map nil; TLS without a subject panics |
| MyClaimMapper.TokenNamespaceRoles | extensibility/authorizer/myClaimMapper.go:48-49 | a token holder reads `foo` and has no role elsewhere |
| MyClaimMapper.BranchesIndependent | extensibility/authorizer/myClaimMapper.go:40-50 | the certificate decides only the subject and the token only the roles |
| MyClaimMapper.TokenHolderAllowed | extensibility/authorizer/myClaimMapper.go:44-47 | a token holder is allowed every call |
| MyClaimMapper.NoTokenDecisions | extensibility/authorizer/myClaimMapper.go:44-52 | without a token only `UpdateNamespace` outside `temporal-system` is denied |

## Left out

- I/O, HTTP transport, TLS set-up, flags and environment variables, logging, sleeping, goroutines and promises are not modelled. `errgroup`, `Promise.all` and the ticker are seen only through the order of their results.
- The float formatting of `%g` in `writeFloat` is a parameter.
- Floats are reals: the quantile `0.95` is the integer percentage 95.
  - `quantile*100` in JavaScript and `int(quantile*100)` in Python give the exact percentage for every configured quantile, so rounding error is not modelled.
- KibbleWorker.QueryWindow: the float product `Seconds()*1.2` is modelled as exact `6*i/5` on whole seconds. Float rounding at large intervals is not modelled.
- KibbleWorker.CalcRange: a zero step makes the Go code divide by zero and panic. The model requires a non-zero step and leaves that panic out.
- KibbleWorker.Do: the translator the worker calls (`PromHistogramToDatadogGauge` and `PromCountToDatadogCount` of the worker package) is not part of this model. It is instantiated with the `promql-to-dd-go` translator (`DdTranslate`).
- KibbleWorker.Run: the wake-ups are given as a sequence. Which channel the `select` picks, and the concurrency between a spawned cycle and the next tick, are not modelled.
- KibbleDatadog.SubmitMetrics: of several failing pages `errgroup` returns the first to fail in time. The model only says it is the error of one of them. The JSON marshalling error of the response is not modelled.
- KibbleDatadog.SubmitMetrics: the Datadog client's own retries are not modelled.
- DdTranslate.PercentField: `%2.0f` is modelled for integral percentages only.
- ScrapeMetric.GetMetricType: the counter type is the string "count", as the code has it, and not "counter".
- ScrapeConfig.Len: has no contract beyond being the length.
- The YAML decoding of `LoadConfig` and the YAML marshalling and file writing of the generator are left out.
- ScrapeClient.QueryMetricsInstant: the query time `now - 60s` and the timeouts are not modelled.
- PythonScript.SubmitSeries: `filter(None, group)` would also drop series that are falsy. Series objects are never falsy, so only the `None` padding is modelled.
- PythonScript.SubmitSeries: the tenacity retries of queries and submissions are left out. A call is its final answer.
- PythonScript.AlignBounds and WindowsOverlap: `datetime.now()` is a parameter. Local-time conversion of `fromtimestamp` is left out.
- Seqs.Chunks: the number of chunks (`ceil(n / size)`) is not stated. The element position is stated by `PythonScript.BatchPosition` instead.
- ScrapeServer.RefreshStarts: the call durations are given, and the schedule is not joined to the event sequence `Run` consumes. Ticks and returns at the same instant are taken in that order.
- TsCommon.GeneratedWindowWidth: each query in the TypeScript scripts reads the clock again through `generateQueryWindow()`. The model uses one window per cycle and leaves the clock drift between queries out.
- DdTsScript.CycleBodyTypes: the answer of `submitMetrics` is ignored by the script and is not modelled.
- NrTsScript.Body: the post is taken to succeed. axios rejects a non-2xx answer. The rejection reaches `main().catch`, which logs and ends the process with exit code 1. The status of a successful post is only logged.
- Failed requests and failed `zod` parses in both TypeScript scripts are not modelled. Such a failure rejects the Prometheus label or query request, or the post. In the New Relic script, `main().catch` then logs it and ends the process with exit code 1. In the Datadog script the handler logs it and then calls `server.close`, but no `server` is declared in that file. The handler therefore throws before its `process.exit(1)`, and the process ends through the unhandled rejection. The model's queries and posts always answer.
- GenConfig.SortByName: the model sorts by insertion and is stable. Go's `sort.Sort` is not stable, so entries with equal metric names may come out in a different order. The sorted-and-permutation contract holds for both.
- MyClaimMapper.GetClaims: the claim-mapper constructor's configuration argument is unused and left out.
- The `authorization` package of the Temporal server is not part of this model. Its role constants (worker 1, reader 2, writer 4, admin 8) are restated.

=== FILE: authorization.dfy ===
/** The parts of Temporal's `authorization` package the sample authorizer and claim mapper
    use: roles as bit sets, the claims of a caller, the target of a call, and a decision.
    The package itself is not part of this model; the role constants are Temporal's. */
module Authorization {
  import opened Wrappers

  /** `authorization.Role`, a bit set. */
  type Role = bv32

  const RoleUndefined: Role := 0
  const RoleWorker: Role := 1
  const RoleReader: Role := 2
  const RoleWriter: Role := 4
  const RoleAdmin: Role := 8

  /** `authorization.Claims`. `namespaces` is `None` for a nil map; reading a nil map, or a
      missing key, gives `RoleUndefined`. */
  datatype Claims = Claims(subject: string, system: Role, namespaces: Option<map<string, Role>>)

  function NamespaceRole(c: Claims, ns: string): Role
  {
    match c.namespaces
    case None => RoleUndefined
    case Some(m) => if ns in m then m[ns] else RoleUndefined
  }

  /** `authorization.CallTarget`. */
  datatype CallTarget = CallTarget(apiName: string, ns: string)

  datatype Decision = Allow | Deny
}

=== FILE: dd_translate.dfy ===
/** Translation of a Prometheus range result into Datadog metric series
    (promql-to-dd-go/worker/utils.go); the push-mode harvester uses the same translation. */
module DdTranslate {
  import opened Text
  import opened Seqs
  import opened PromModel
  import opened GoArith

  /** Datadog's metric intake types (`datadogV2.MetricIntakeType`). */
  const IntakeCount: nat := 1
  const IntakeGauge: nat := 3

  /** A `datadogV2.MetricResource`: its type is the label name, its name the label value. */
  datatype Resource = Resource(kind: string, name: string)

  /** A `datadogV2.MetricPoint`: seconds since the epoch and a value. */
  datatype Point = Point(timestamp: int, value: SampleValue)

  /** A `datadogV2.MetricSeries`. */
  datatype Series = Series(metric: string, intake: nat, points: seq<Point>, resources: seq<Resource>)

  /** Go `fmt.Sprintf("%2.0f", p)` for an integral percentage: the decimal digits,
      space-padded on the left to two characters. */
  function PercentField(percent: nat): (r: string)
    ensures 10 <= percent ==> r == NatToString(percent)
    ensures percent < 10 ==> r == [' ', DigitChar(percent)]
  {
    PadLeft(NatToString(percent), 2)
  }

  /** `PromHistogramToDatadogGauge`'s series name for a quantile of `percent` per cent. */
  function HistogramName(name: string, percent: nat): string
  {
    TrimSuffix(name, "_bucket") + "_P" + PercentField(percent)
  }

  /** `PromCountToDatadogCount`'s series name. */
  function CountName(name: string): string
  {
    TrimSuffix(name, "_count") + "_rate1m"
  }

  /** The histogram name keeps what precedes `_bucket` and ends in `_P` and the percentage;
      a name without `_bucket` is kept whole. */
  lemma HistogramNameShape(base: string, percent: nat)
    requires 10 <= percent
    ensures HistogramName(base + "_bucket", percent) == base + "_P" + NatToString(percent)
    ensures !HasSuffix(base, "_bucket") ==> HistogramName(base, percent) == base + "_P" + NatToString(percent)
  {
    AppendedSuffix(base, "_bucket");
  }

  /** The counter name replaces one trailing `_count` by `_rate1m`. */
  lemma CountNameShape(base: string)
    ensures CountName(base + "_count") == base + "_rate1m"
    ensures !HasSuffix(base, "_count") ==> CountName(base) == base + "_rate1m"
  {
    AppendedSuffix(base, "_count");
  }

  /** `model.Time.Unix()`: milliseconds to seconds, truncating toward zero. */
  function UnixSeconds(ms: int): int
  {
    GoDiv(ms, 1000)
  }

  /** NaN becomes 0; every other value, the infinities included, passes through. */
  function PointValue(v: SampleValue): (r: SampleValue)
    ensures v.NaN? ==> r == Finite(0.0)
    ensures !v.NaN? ==> r == v
  {
    if v.NaN? then Finite(0.0) else v
  }

  function ToPoint(p: SamplePair): Point
  {
    Point(UnixSeconds(p.timestampMs), PointValue(p.value))
  }

  function Points(values: seq<SamplePair>): (r: seq<Point>)
    ensures |r| == |values|
    ensures forall k :: 0 <= k < |values| ==> r[k] == ToPoint(values[k])
  {
    if values == [] then [] else [ToPoint(values[0])] + Points(values[1..])
  }

  function ToResource(l: Label): Resource
  {
    Resource(l.name, l.value)
  }

  /** The resources of a stream: one per label other than `__rollup__`, in label order. */
  function Resources(ls: LabelSet): (r: seq<Resource>)
  {
    var kept := Filter(ls, NotRollup());
    seq(|kept|, k requires 0 <= k < |kept| => ToResource(kept[k]))
  }

  function StreamToSeries(name: string, intake: nat, stream: SampleStream): Series
  {
    Series(name, intake, Points(stream.values), Resources(stream.metric))
  }

  /** `matrixToSeries`: one series per stream, in matrix order. */
  function MatrixToSeries(name: string, intake: nat, matrix: Matrix): (r: seq<Series>)
    ensures |r| == |matrix|
    ensures forall i :: 0 <= i < |matrix| ==> r[i] == StreamToSeries(name, intake, matrix[i])
  {
    if matrix == [] then [] else [StreamToSeries(name, intake, matrix[0])] + MatrixToSeries(name, intake, matrix[1..])
  }

  /** One gauge series per stream under the quantile's name, each with one point per sample
      and the stream's resources. */
  function PromHistogramToDatadogGauge(name: string, percent: nat, matrix: Matrix): (r: seq<Series>)
    ensures |r| == |matrix|
    ensures forall i :: 0 <= i < |r| ==>
      && r[i].metric == HistogramName(name, percent) && r[i].intake == IntakeGauge
      && |r[i].points| == |matrix[i].values| && r[i].resources == Resources(matrix[i].metric)
  {
    MatrixToSeries(HistogramName(name, percent), IntakeGauge, matrix)
  }

  /** One count series per stream under the rate's name, each with one point per sample
      and the stream's resources. */
  function PromCountToDatadogCount(name: string, matrix: Matrix): (r: seq<Series>)
    ensures |r| == |matrix|
    ensures forall i :: 0 <= i < |r| ==>
      && r[i].metric == CountName(name) && r[i].intake == IntakeCount
      && |r[i].points| == |matrix[i].values| && r[i].resources == Resources(matrix[i].metric)
  {
    MatrixToSeries(CountName(name), IntakeCount, matrix)
  }

  /** The series of one stream: the given name and type, its points in value order with NaN
      zeroed and milliseconds cut to seconds. */
  lemma SeriesShape(name: string, intake: nat, matrix: Matrix, i: nat, k: nat)
    requires i < |matrix| && k < |matrix[i].values|
    ensures var s := MatrixToSeries(name, intake, matrix)[i];
      && s.metric == name && s.intake == intake
      && |s.points| == |matrix[i].values|
      && s.points[k].timestamp == GoDiv(matrix[i].values[k].timestampMs, 1000)
      && (matrix[i].values[k].value.NaN? ==> s.points[k].value == Finite(0.0))
      && (!matrix[i].values[k].value.NaN? ==> s.points[k].value == matrix[i].values[k].value)
  {
  }

  /** `__rollup__` never becomes a resource, and every other label becomes exactly one,
      carrying its value. */
  lemma {:induction false} ResourcesExact(ls: LabelSet)
    requires UniqueNames(ls)
    ensures forall r :: r in Resources(ls) ==> r.kind != RollupLabel
    ensures forall l :: l in ls && l.name != RollupLabel ==> Resource(l.name, l.value) in Resources(ls)
    ensures forall r :: r in Resources(ls) ==> Label(r.kind, r.name) in ls
    ensures forall a, b :: 0 <= a < b < |Resources(ls)| ==> Resources(ls)[a].kind != Resources(ls)[b].kind
  {
    var kept := Filter(ls, NotRollup());
    var res := Resources(ls);
    forall l | l in ls && l.name != RollupLabel
      ensures Resource(l.name, l.value) in res
    {
      var i :| 0 <= i < |ls| && ls[i] == l;
      assert NotRollup()(ls[i]);
      var k :| 0 <= k < |kept| && kept[k] == l;
      assert res[k] == Resource(l.name, l.value);
    }
    FilterSubsequence(ls, NotRollup());
    SubsequenceUnique(kept, ls);
  }

  /** A subsequence of a list with unique names has unique names. */
  lemma {:induction false} SubsequenceUnique(a: LabelSet, b: LabelSet)
    requires SubsequenceOf(a, b) && UniqueNames(b)
    ensures UniqueNames(a)
    decreases |b|
  {
    if a != [] && b != [] {
      assert UniqueNames(b[1..]) by {
        forall i, j | 0 <= i < j < |b[1..]|
          ensures b[1..][i].name != b[1..][j].name
        {
          assert b[1..][i] == b[i + 1] && b[1..][j] == b[j + 1];
        }
      }
      if a[0] == b[0] {
        SubsequenceUnique(a[1..], b[1..]);
        SubsequenceMembers(a[1..], b[1..]);
        forall j | 0 < j < |a|
          ensures a[0].name != a[j].name
        {
          assert a[j] == a[1..][j - 1];
          assert a[j] in b[1..];
          var m :| 0 <= m < |b[1..]| && b[1..][m] == a[j];
          assert b[m + 1] == a[j];
        }
        forall i, j | 0 <= i < j < |a|
          ensures a[i].name != a[j].name
        {
          if i > 0 {
            assert a[i] == a[1..][i - 1] && a[j] == a[1..][j - 1];
          }
        }
      } else {
        SubsequenceUnique(a, b[1..]);
      }
    }
  }

  lemma {:induction false} SubsequenceMembers<T>(a: seq<T>, b: seq<T>)
    requires SubsequenceOf(a, b)
    ensures forall i :: 0 <= i < |a| ==> a[i] in b
    decreases |b|
  {
    if a != [] && b != [] {
      if a[0] == b[0] {
        SubsequenceMembers(a[1..], b[1..]);
        assert forall i :: 0 < i < |a| ==> a[i] == a[1..][i - 1];
      } else {
        SubsequenceMembers(a, b[1..]);
      }
    }
  }

  // ---------------------------------------------------------------- the table test

  const TestMetric: LabelSet :=
    [Label("operation", "StartWorkflowExecution"), Label("namespace", "disneyland")]

  /** 10 November 2009 23:00:00 UTC in seconds, which the table test uses as a millisecond
      timestamp. */
  const TestTime: int := 1_257_894_000

  const Populated: seq<SamplePair> := [SamplePair(TestTime, Finite(1.0)), SamplePair(TestTime, Finite(2.0))]
  const WithNaN: seq<SamplePair> := [SamplePair(TestTime, NaN), SamplePair(TestTime, Finite(2.0))]
  const TestResourcesWanted: seq<Resource> :=
    [Resource("operation", "StartWorkflowExecution"), Resource("namespace", "disneyland")]

  /** The "fully populated" case: `latency_bucket` at the 95th percentile. */
  lemma FullyPopulatedCase()
    ensures PromHistogramToDatadogGauge("latency_bucket", 95, [SampleStream(TestMetric, Populated)])
         == [Series("latency_P95", IntakeGauge,
              [Point(1_257_894, Finite(1.0)), Point(1_257_894, Finite(2.0))], TestResourcesWanted)]
  {
    HistogramNameShape("latency", 95);
    assert NatToString(95) == "95";
    var name := HistogramName("latency_bucket", 95);
    assert name == "latency_P95";
    TestResources();
    var ps := Points(Populated);
    assert ps == [Point(1_257_894, Finite(1.0)), Point(1_257_894, Finite(2.0))];
    SingleStream(name, IntakeGauge, SampleStream(TestMetric, Populated));
  }

  /** The "contains NaN values" case: `latency` at the 50th percentile, the NaN read as 0. */
  lemma NaNCase()
    ensures PromHistogramToDatadogGauge("latency", 50, [SampleStream(TestMetric, WithNaN)])
         == [Series("latency_P50", IntakeGauge,
              [Point(1_257_894, Finite(0.0)), Point(1_257_894, Finite(2.0))], TestResourcesWanted)]
  {
    var name := HistogramName("latency", 50);
    LatencyP50();
    TestResources();
    var ps := Points(WithNaN);
    assert ps == [Point(1_257_894, Finite(0.0)), Point(1_257_894, Finite(2.0))];
    SingleStream(name, IntakeGauge, SampleStream(TestMetric, WithNaN));
  }

  lemma LatencyP50()
    ensures HistogramName("latency", 50) == "latency_P50"
  {
    assert "latency"[|"latency"| - 7..] == "latency";
    HistogramNameShape("latency", 50);
    assert NatToString(50) == "50";
  }

  lemma TestResources()
    ensures Resources(TestMetric) == TestResourcesWanted
  {
    assert Filter(TestMetric, NotRollup()) == TestMetric;
  }

  lemma SingleStream(name: string, intake: nat, stream: SampleStream)
    ensures MatrixToSeries(name, intake, [stream])
         == [Series(name, intake, Points(stream.values), Resources(stream.metric))]
  {
  }
}

=== FILE: genconfig.dfy ===
/** The configuration generator of the pull-mode translator
    (promql-to-scrape/cmd/genconfig/main.go): one configured metric per discovered name,
    with a query chosen by the name's type, sorted by metric name. */
module GenConfig {
  import opened Wrappers
  import opened ScrapeConfig
  import opened ScrapeClient

  /** The prefix discovery is run with. */
  const DiscoveryPrefix: string := "temporal_cloud_v0"

  const FatalListing: string := "Failed to pull metric names: "

  /** A counter is exported as its one-minute rate. */
  function CounterEntry(c: string): Metric
  {
    Metric(c + ":rate1m", "rate(" + c + "[1m])")
  }

  /** A gauge is exported under its own name, queried as itself. */
  function GaugeEntry(g: string): Metric
  {
    Metric(g, g)
  }

  /** A histogram is exported as its 99th percentile over one minute. */
  function HistogramEntry(h: string): Metric
  {
    Metric(h + ":histogram_quantile_p99_1m",
      "histogram_quantile(0.99, sum(rate(" + h + "[1m])) by (le, operation, temporal_namespace))")
  }

  /** The entry of each name under `kind` (0 counters, 1 gauges, 2 histograms), in order. */
  function Entries(names: seq<string>, kind: nat): (ms: seq<Metric>)
    requires kind < 3
    ensures |ms| == |names|
    ensures forall i :: 0 <= i < |names| ==>
      ms[i] == (if kind == 0 then CounterEntry(names[i])
                else if kind == 1 then GaugeEntry(names[i])
                else HistogramEntry(names[i]))
  {
    if names == [] then []
    else Entries(names[..|names| - 1], kind) + [Entry(names[|names| - 1], kind)]
  }

  function Entry(name: string, kind: nat): Metric
    requires kind < 3
  {
    if kind == 0 then CounterEntry(name)
    else if kind == 1 then GaugeEntry(name)
    else HistogramEntry(name)
  }

  /** The unsorted list: counters, then gauges, then histograms. */
  function Generated(d: Discovered): seq<Metric>
  {
    Entries(d.counts, 0) + Entries(d.gauges, 1) + Entries(d.histograms, 2)
  }

  /** Non-decreasing by metric name: no later entry sorts before an earlier one. */
  predicate SortedByName(ms: seq<Metric>)
  {
    forall i, j :: 0 <= i < j < |ms| ==> !LexLess(ms[j].metricName, ms[i].metricName)
  }

  /** `x` sorts no later than every element of `s`. */
  predicate AtMostAll(x: Metric, s: seq<Metric>)
  {
    forall k :: 0 <= k < |s| ==> !LexLess(s[k].metricName, x.metricName)
  }

  /** Inserts `x` into a sorted list before the first element that does not sort before it. */
  function Insert(x: Metric, s: seq<Metric>): (r: seq<Metric>)
    requires SortedByName(s)
    ensures SortedByName(r)
    ensures multiset(r) == multiset(s) + multiset{x}
  {
    if s == [] then [x]
    else if !LexLess(s[0].metricName, x.metricName) then
      InsertFront(x, s);
      [x] + s
    else
      var t := Insert(x, s[1..]);
      assert s == [s[0]] + s[1..];
      InsertBehind(s[0], x, s[1..], t);
      [s[0]] + t
  }

  lemma InsertFront(x: Metric, s: seq<Metric>)
    requires SortedByName(s) && s != [] && !LexLess(s[0].metricName, x.metricName)
    ensures SortedByName([x] + s)
  {
    forall k | 0 <= k < |s|
      ensures !LexLess(s[k].metricName, x.metricName)
    {
      if k > 0 {
        LexLeqTransitive(x.metricName, s[0].metricName, s[k].metricName);
      }
    }
  }

  /** `head`, which sorts before `x` and no later than the rest of a sorted list, stays in
      front when `x` is inserted into the rest. */
  lemma InsertBehind(head: Metric, x: Metric, rest: seq<Metric>, t: seq<Metric>)
    requires SortedByName([head] + rest)
    requires LexLess(head.metricName, x.metricName)
    requires SortedByName(t) && multiset(t) == multiset(rest) + multiset{x}
    ensures SortedByName([head] + t)
  {
    LexLessAsymmetric(head.metricName, x.metricName);
    forall k | 0 <= k < |t|
      ensures !LexLess(t[k].metricName, head.metricName)
    {
      assert t[k] in multiset(t);
      if t[k] != x {
        assert t[k] in multiset(rest);
        var j :| 0 <= j < |rest| && rest[j] == t[k];
        assert ([head] + rest)[0] == head;
        assert ([head] + rest)[j + 1] == t[k];
      }
    }
    var r := [head] + t;
    assert forall i, j :: 0 < i < j < |r| ==> r[i] == t[i - 1] && r[j] == t[j - 1];
  }

  /** Sorts by metric name. Go's `sort.Sort` is not stable, so for entries with equal names
      the program may pick another order; the names come out the same (see `SortedNamesUnique`). */
  function SortByName(ms: seq<Metric>): (r: seq<Metric>)
    ensures SortedByName(r)
    ensures multiset(r) == multiset(ms)
    ensures |r| == |ms|
  {
    if ms == [] then []
    else
      var t := SortByName(ms[1..]);
      assert ms == [ms[0]] + ms[1..];
      var r := Insert(ms[0], t);
      assert |r| == |multiset(r)|;
      r
  }

  /** One of the program's three loops: appends the entry of each name under `kind`. */
  method AppendEntries(metrics: seq<Metric>, names: seq<string>, kind: nat) returns (r: seq<Metric>)
    requires kind < 3
    ensures r == metrics + Entries(names, kind)
  {
    r := metrics;
    var i := 0;
    while i < |names|
      invariant 0 <= i <= |names|
      invariant r == metrics + Entries(names[..i], kind)
    {
      assert names[..i + 1][..i] == names[..i];
      r := r + [Entry(names[i], kind)];
      i := i + 1;
    }
    assert names[..i] == names;
  }

  /** Builds the configuration from the discovered names: the three loops appending one entry
      per name, then the sort. */
  method BuildConfig(d: Discovered) returns (conf: Config)
    ensures conf.metrics == SortByName(Generated(d))
  {
    var counters := AppendEntries([], d.counts, 0);
    assert counters == Entries(d.counts, 0);
    var withGauges := AppendEntries(counters, d.gauges, 1);
    var metrics := AppendEntries(withGauges, d.histograms, 2);
    assert metrics == Generated(d);
    return Config(SortByName(metrics));
  }

  /** The whole generator: discovery with the fixed prefix, then the configuration. A
      discovery failure ends the program with a fatal log line. */
  method GenerateConfig(listing: Wrappers.Result<seq<string>, string>) returns (r: Result<Config, string>)
    ensures listing.Failure? ==> r == Failure(FatalListing + (ListingErrorPrefix + listing.error))
    ensures listing.Success? ==>
      r == Success(Config(SortByName(Generated(Partition(listing.value, DiscoveryPrefix)))))
  {
    var discovered := ListMetrics(listing, DiscoveryPrefix);
    if discovered.Failure? {
      return Failure(FatalListing + discovered.error);
    }
    var conf := BuildConfig(discovered.value);
    return Success(conf);
  }

  /** One entry per discovered name. */
  lemma GeneratedCount(d: Discovered)
    ensures |SortByName(Generated(d))| == |d.counts| + |d.gauges| + |d.histograms|
  {
  }

  /** Two sorted lists holding the same entries list the same names in the same order, so
      the sort's lack of stability only reorders entries with equal names. */
  lemma {:induction false} SortedNamesUnique(a: seq<Metric>, b: seq<Metric>)
    requires SortedByName(a) && SortedByName(b)
    requires multiset(a) == multiset(b)
    ensures |a| == |b|
    ensures forall i :: 0 <= i < |a| ==> a[i].metricName == b[i].metricName
    decreases |a|
  {
    assert |a| == |multiset(a)| == |multiset(b)| == |b|;
    if a != [] {
      assert a[0] in multiset(b);
      var ka :| 0 <= ka < |b| && b[ka] == a[0];
      LeastNameRun(a, b, ka);
      var a' := a[1..];
      var b' := RemoveAt(b, ka);
      assert a == [a[0]] + a';
      SortedNamesUnique(a', b');
      NamesAfterRemoval(a, a', b, ka, b');
    }
  }

  /** Matching names survive putting back the removed entry: `a` minus its head and `b`
      minus index `ka` list the same names, and `b` holds the head's name up to `ka`. */
  lemma NamesAfterRemoval(a: seq<Metric>, a': seq<Metric>, b: seq<Metric>, ka: nat, b': seq<Metric>)
    requires |a| == |b| && ka < |b| && a' == a[1..] && |b'| == |b| - 1
    requires forall i :: 0 <= i < ka ==> b'[i] == b[i]
    requires forall i :: ka <= i < |b'| ==> b'[i] == b[i + 1]
    requires forall i :: 0 <= i < |a'| ==> a'[i].metricName == b'[i].metricName
    requires forall i :: 0 <= i <= ka ==> b[i].metricName == a[0].metricName
    ensures forall i :: 0 <= i < |a| ==> a[i].metricName == b[i].metricName
  {
    forall i | 0 < i < |a|
      ensures a[i].metricName == b[i].metricName
    {
      assert a[i] == a'[i - 1];
      var j := i - 1;
      if j < ka {
        assert b'[j] == b[j];
      } else {
        assert b'[j] == b[j + 1];
      }
    }
  }

  /** A sorted list holding the same entries as sorted `a` has the least name, `a[0]`'s, at
      every index up to any place it holds `a[0]`. */
  lemma LeastNameRun(a: seq<Metric>, b: seq<Metric>, ka: nat)
    requires SortedByName(a) && SortedByName(b)
    requires multiset(a) == multiset(b)
    requires a != [] && ka < |b| && b[ka] == a[0]
    ensures forall i :: 0 <= i <= ka ==> b[i].metricName == a[0].metricName
  {
    var n := a[0].metricName;
    assert b[0] in multiset(a);
    var kb :| 0 <= kb < |a| && a[kb] == b[0];
    if 0 < ka {
      assert !LexLess(b[ka].metricName, b[0].metricName);
    }
    if 0 < kb {
      assert !LexLess(a[kb].metricName, a[0].metricName);
    }
    LexLessIrreflexive(n);
    LexLessAntisymmetric(n, b[0].metricName);
    forall i | 0 <= i <= ka
      ensures b[i].metricName == n
    {
      if 0 < i < ka {
        assert !LexLess(b[i].metricName, b[0].metricName);
        assert !LexLess(b[ka].metricName, b[i].metricName);
        LexLessAntisymmetric(b[i].metricName, n);
      }
    }
  }

  /** `b` without its entry at index `k`; still sorted when `b` is. */
  function RemoveAt(b: seq<Metric>, k: nat): (r: seq<Metric>)
    requires k < |b|
    ensures |r| == |b| - 1
    ensures forall i :: 0 <= i < k ==> r[i] == b[i]
    ensures forall i :: k <= i < |r| ==> r[i] == b[i + 1]
    ensures multiset(r) == multiset(b) - multiset{b[k]}
    ensures SortedByName(b) ==> SortedByName(r)
  {
    var r := b[..k] + b[k + 1..];
    assert b == b[..k] + [b[k]] + b[k + 1..];
    RemoveAtSorted(b, k, r);
    r
  }

  lemma RemoveAtSorted(b: seq<Metric>, k: nat, r: seq<Metric>)
    requires k < |b| && r == b[..k] + b[k + 1..]
    ensures SortedByName(b) ==> SortedByName(r)
  {
    if SortedByName(b) {
      forall i, j | 0 <= i < j < |r|
        ensures !LexLess(r[j].metricName, r[i].metricName)
      {
        var i' := if i < k then i else i + 1;
        var j' := if j < k then j else j + 1;
        assert r[i] == b[i'] && r[j] == b[j'];
      }
    }
  }
}

=== FILE: go_arith.dfy ===
/** Go's integer division on `int64`, which truncates toward zero (Dafny's `/` on `int` is
    Euclidean). All values the programs divide are far inside the int64 range. */
module GoArith {

  function GoDiv(a: int, b: int): (q: int)
    requires b != 0
    ensures a >= 0 && b > 0 ==> q == a / b
    ensures b > 0 ==> (a >= 0 ==> q * b <= a < q * b + b) && (a < 0 ==> q * b - b < a <= q * b)
  {
    if a >= 0 then a / b
    else if b > 0 then -((-a) / b)
    else (-a) / (-b)
  }
}

=== FILE: kibble_client.dfy ===
/** The Prometheus client of the push-mode harvester (kibble/prometheus/client.go): discovery
    split into histogram buckets and everything else, and the result policy of one range
    query. */
module KibbleClient {
  import opened Wrappers
  import opened Text
  import opened Seqs
  import opened PromModel

  /** The two name lists `ListMetrics` returns, in its return order. */
  datatype Split = Split(buckets: seq<string>, counts: seq<string>)

  const ListingErrorPrefix: string := "failed to fetch Prometheus metric names: "
  const QueryErrorPrefix: string := "failed to query Prometheus: "

  function BucketTest(prefix: string): string -> bool
  {
    (v: string) => HasPrefix(v, prefix) && HasSuffix(v, "_bucket")
  }

  /** Every prefixed name that is not a bucket: `_sum`, `_count` and plain gauges alike. */
  function CountTest(prefix: string): string -> bool
  {
    (v: string) => HasPrefix(v, prefix) && !HasSuffix(v, "_bucket")
  }

  function PrefixTest(prefix: string): string -> bool
  {
    (v: string) => HasPrefix(v, prefix)
  }

  /** The reference split, each list in input order. */
  function SplitNames(values: seq<string>, prefix: string): (r: Split)
    ensures forall v :: v in r.buckets <==> v in values && HasPrefix(v, prefix) && HasSuffix(v, "_bucket")
    ensures forall v :: v in r.counts <==> v in values && HasPrefix(v, prefix) && !HasSuffix(v, "_bucket")
  {
    FilterMembers(values, BucketTest(prefix));
    FilterMembers(values, CountTest(prefix));
    Split(Filter(values, BucketTest(prefix)), Filter(values, CountTest(prefix)))
  }

  /** Lists the values of the `__name__` label (`listing`, or the error the API call gave)
      and splits those starting with `prefix` by the `_bucket` suffix. */
  method ListMetrics(listing: Result<seq<string>, string>, prefix: string)
    returns (r: Result<Split, string>)
    ensures listing.Failure? ==> r == Failure(ListingErrorPrefix + listing.error)
    ensures listing.Success? ==> r == Success(SplitNames(listing.value, prefix))
  {
    if listing.Failure? {
      return Failure(ListingErrorPrefix + listing.error);
    }
    var values := listing.value;
    var buckets: seq<string> := [];
    var counts: seq<string> := [];
    var i := 0;
    while i < |values|
      invariant 0 <= i <= |values|
      invariant buckets == Filter(values[..i], BucketTest(prefix))
      invariant counts == Filter(values[..i], CountTest(prefix))
    {
      var v := values[i];
      assert values[..i + 1] == values[..i] + [v];
      FilterSnoc(values[..i], v, BucketTest(prefix));
      FilterSnoc(values[..i], v, CountTest(prefix));
      if HasPrefix(v, prefix) {
        if HasSuffix(v, "_bucket") {
          buckets := buckets + [v];
        } else {
          counts := counts + [v];
        }
      }
      i := i + 1;
    }
    assert values[..i] == values;
    return Success(Split(buckets, counts));
  }

  /** No name is both a bucket and a count, and only prefixed names are listed. */
  lemma SplitDisjoint(values: seq<string>, prefix: string)
    ensures var s := SplitNames(values, prefix);
      && (forall v :: v in s.buckets ==> v !in s.counts)
      && (forall v :: v in s.buckets || v in s.counts ==> HasPrefix(v, prefix))
  {
  }

  /** Together the lists hold every prefixed name, as often as it is listed. */
  lemma SplitMultiset(values: seq<string>, prefix: string)
    ensures var s := SplitNames(values, prefix);
      multiset(s.buckets) + multiset(s.counts) == multiset(Filter(values, PrefixTest(prefix)))
  {
    FilterSplit2(values, PrefixTest(prefix), BucketTest(prefix), CountTest(prefix));
  }

  /** Each list keeps the input order. */
  lemma SplitKeepsOrder(values: seq<string>, prefix: string)
    ensures var s := SplitNames(values, prefix);
      SubsequenceOf(s.buckets, values) && SubsequenceOf(s.counts, values)
  {
    FilterSubsequence(values, BucketTest(prefix));
    FilterSubsequence(values, CountTest(prefix));
  }

  /** One range query: an API error becomes an error; warnings are logged only; a result
      that is not a matrix is logged and read as the empty matrix. */
  function QueryMetrics(resp: ApiResponse): (o: Logged<Matrix>)
    ensures o.result.Failure? <==> resp.ApiError?
    ensures resp.ApiError? ==> o.result.error == QueryErrorPrefix + resp.cause && o.log == []
    ensures resp.ApiResult? && resp.value.MatrixValue? ==> o.result == Success(resp.value.matrix)
    ensures resp.ApiResult? && !resp.value.MatrixValue? ==> o.result == Success([])
    ensures resp.ApiResult? ==>
      && (WarningsLogged(resp.warnings) in o.log <==> |resp.warnings| > 0)
      && (UnexpectedTypeLogged in o.log <==> !resp.value.MatrixValue?)
  {
    match resp
    case ApiError(cause) => Logged(Failure(QueryErrorPrefix + cause), [])
    case ApiResult(value, warnings) =>
      var warned := if |warnings| > 0 then [WarningsLogged(warnings)] else [];
      if value.MatrixValue? then Logged(Success(value.matrix), warned)
      else Logged(Success([]), warned + [UnexpectedTypeLogged])
  }
}

=== FILE: kibble_datadog.dfy ===
/** The Datadog submitter of the push-mode harvester (kibble/datadog/client.go): the series
    are cut into pages of 100, every page is sent, and the submission succeeds only if every
    page does. The pages are sent concurrently; the model sends them one after another and
    keeps every outcome. */
module KibbleDatadog {
  import opened Wrappers
  import opened Seqs
  import opened DdTranslate

  const PageSize: nat := 100

  const SubmitErrorPrefix: string := "failed to submit metrics: "

  /** `paginate`: the bounds of page `pageNum` of a slice of `n` elements. */
  function Paginate(pageNum: nat, pageSize: nat, n: nat): (r: (nat, nat))
    ensures r.0 <= r.1 <= n
    ensures r.1 - r.0 <= pageSize
    ensures pageNum * pageSize <= n ==> r.0 == pageNum * pageSize
    ensures n <= pageNum * pageSize ==> r.0 == r.1 == n
    ensures r.0 + pageSize <= n ==> r.1 == r.0 + pageSize
    ensures n < r.0 + pageSize ==> r.1 == n
  {
    var start := if pageNum * pageSize > n then n else pageNum * pageSize;
    var end := if start + pageSize > n then n else start + pageSize;
    (start, end)
  }

  /** Each page starts where the previous one ended. */
  lemma PagesContiguous(pageNum: nat, pageSize: nat, n: nat)
    ensures Paginate(pageNum + 1, pageSize, n).0 == Paginate(pageNum, pageSize, n).1
  {
    assert (pageNum + 1) * pageSize == pageNum * pageSize + pageSize;
  }

  /** A page is empty exactly when it starts at or past the end. */
  lemma EmptyPage(pageNum: nat, n: nat)
    ensures var (start, end) := Paginate(pageNum, PageSize, n);
      start == end <==> pageNum * PageSize >= n
  {
  }

  /** A non-empty page `pageNum` means the next page starts no further than one page past
      the end, and strictly later than this one. */
  lemma PageNumStep(pageNum: nat, n: nat)
    requires Paginate(pageNum, PageSize, n).0 < Paginate(pageNum, PageSize, n).1
    ensures (pageNum + 1) * PageSize <= n + PageSize
    ensures pageNum * PageSize < n
    ensures Paginate(pageNum, PageSize, n).0 < Paginate(pageNum + 1, PageSize, n).0
  {
    PagesContiguous(pageNum, PageSize, n);
  }

  /** What the Datadog API answers to one page: a transport error, or a response whose
      `errors` list may be empty; `rendered` is the response as indented JSON. */
  datatype PageAnswer = TransportError(cause: string) | Answered(errors: seq<string>, rendered: string)

  /** The error one page's goroutine returns, if any. */
  function PageError(answer: PageAnswer): (e: Option<string>)
    ensures e.None? <==> answer.Answered? && |answer.errors| == 0
  {
    match answer
    case TransportError(cause) => Some(SubmitErrorPrefix + cause)
    case Answered(errors, rendered) => if |errors| > 0 then Some(SubmitErrorPrefix + rendered) else None
  }

  /** The elements of page `p`. */
  function Page(series: seq<Series>, p: nat): seq<Series>
  {
    var (start, end) := Paginate(p, PageSize, |series|);
    series[start..end]
  }

  function CeilDiv(n: nat, d: nat): nat
    requires d > 0
  {
    (n + d - 1) / d
  }

  /** The first failing page's error, if any, for the pages sent so far. */
  predicate ErrorOfPages(err: Option<string>, pages: seq<seq<Series>>, send: (nat, seq<Series>) -> PageAnswer)
  {
    && (err.None? <==> forall p :: 0 <= p < |pages| ==> PageError(send(p, pages[p])).None?)
    && (err.Some? ==> exists p :: 0 <= p < |pages| && PageError(send(p, pages[p])) == err)
  }

  /** Sending one more page keeps the first error, or takes the new page's. */
  lemma ErrorOfPagesStep(err: Option<string>, pages: seq<seq<Series>>, paged: seq<Series>,
                         send: (nat, seq<Series>) -> PageAnswer)
    requires ErrorOfPages(err, pages, send)
    ensures var e := PageError(send(|pages|, paged));
      ErrorOfPages(if err.None? && e.Some? then e else err, pages + [paged], send)
  {
    var next := pages + [paged];
    assert forall p :: 0 <= p < |pages| ==> next[p] == pages[p];
    assert next[|pages|] == paged;
  }

  /** Appending page `|pages|` keeps every page the one `Page` describes, and non-empty. */
  lemma PagesSnoc(series: seq<Series>, pages: seq<seq<Series>>, paged: seq<Series>)
    requires forall p :: 0 <= p < |pages| ==> pages[p] == Page(series, p) && 0 < |pages[p]| <= PageSize
    requires paged == Page(series, |pages|) && 0 < |paged| <= PageSize
    ensures var next := pages + [paged];
      forall p :: 0 <= p < |next| ==> next[p] == Page(series, p) && 0 < |next[p]| <= PageSize
  {
    var next := pages + [paged];
    assert forall p :: 0 <= p < |pages| ==> next[p] == pages[p];
    assert next[|pages|] == paged;
  }

  /** `SubmitMetrics`. `send(p, page)` is the API's answer to page `p`. Gives the error (or
      `None` for nil) and the pages sent, in page order. */
  method SubmitMetrics(series: seq<Series>, send: (nat, seq<Series>) -> PageAnswer)
    returns (err: Option<string>, pages: seq<seq<Series>>)
    ensures |pages| == CeilDiv(|series|, PageSize)
    ensures Flatten(pages) == series
    ensures forall p :: 0 <= p < |pages| ==> pages[p] == Page(series, p)
    ensures forall p :: 0 <= p < |pages| ==> 0 < |pages[p]| <= PageSize
    ensures err.None? <==> forall p :: 0 <= p < |pages| ==> PageError(send(p, pages[p])).None?
    ensures err.Some? ==> exists p :: 0 <= p < |pages| && PageError(send(p, pages[p])) == err
  {
    var n := |series|;
    var pageNum := 0;
    pages := [];
    err := None;
    while true
      invariant |pages| == pageNum
      invariant pageNum * PageSize <= n + PageSize
      invariant pageNum > 0 ==> (pageNum - 1) * PageSize < n
      invariant Flatten(pages) == series[..Paginate(pageNum, PageSize, n).0]
      invariant forall p :: 0 <= p < |pages| ==> pages[p] == Page(series, p) && 0 < |pages[p]| <= PageSize
      invariant ErrorOfPages(err, pages, send)
      decreases n - Paginate(pageNum, PageSize, n).0
    {
      var (start, end) := Paginate(pageNum, PageSize, n);
      if start == end {
        break;
      }
      var paged := series[start..end];
      var e := PageError(send(pageNum, paged));
      PagesContiguous(pageNum, PageSize, n);
      PageNumStep(pageNum, n);
      FlattenSnoc(pages, paged);
      assert series[..end] == series[..start] + paged;
      ErrorOfPagesStep(err, pages, paged, send);
      if err.None? && e.Some? {
        err := e;
      }
      assert paged == Page(series, pageNum) && 0 < |paged| <= PageSize;
      PagesSnoc(series, pages, paged);
      pages := pages + [paged];
      pageNum := pageNum + 1;
    }
    assert Paginate(pageNum, PageSize, n).0 == n;
    assert series[..n] == series;
  }
}

=== FILE: kibble_worker.dfy ===
/** The cycle of the push-mode harvester (kibble/worker/worker.go): the query window, the
    padded range, the order of the range queries, the abort-on-error policy and the hand-over
    to the Datadog submitter; and the event loop around it. */
module KibbleWorker {
  import opened Wrappers
  import opened Text
  import opened PromModel
  import opened GoArith
  import opened DdTranslate
  import KibbleClient

  /** The defaults the command line gives the worker. */
  const DefaultPrefix: string := "temporal_cloud_v0"
  const DefaultStepSeconds: nat := 60
  const DefaultIntervalSeconds: nat := 600
  const DefaultPercents: seq<nat> := [50, 90, 95, 99]

  /** Seconds the worker sleeps after a failed cycle. */
  const RetrySeconds: nat := 3

  datatype WorkerConfig = WorkerConfig(prefix: string, percents: seq<nat>, intervalSeconds: nat, stepSeconds: int)

  // ---------------------------------------------------------------- window

  /** `QueryWindow` in seconds: the interval stretched by 20 per cent, cut to whole seconds.
      The program multiplies by the float 1.2; on integers this is `interval * 6 / 5`. */
  function QueryWindow(intervalSeconds: nat): (w: nat)
    ensures 5 * w <= 6 * intervalSeconds < 5 * w + 5
  {
    intervalSeconds * 6 / 5
  }

  /** `promapi.Range` with whole-second bounds. */
  datatype Range = Range(start: int, end: int, step: int)

  /** The end of the window before padding: the current time cut to a whole minute. */
  function WindowEnd(nowSeconds: int): int
  {
    GoDiv(nowSeconds, 60) * 60
  }

  /** `calcRange` at `nowSeconds`: the window ends on the minute and is `window` long; then
      the start moves one step further back and the end one step further on, both onto
      multiples of the step. */
  function CalcRange(nowSeconds: int, window: nat, step: int): (r: Range)
    requires step != 0
    ensures r.step == step
  {
    var end0 := WindowEnd(nowSeconds);
    var start0 := end0 - window;
    Range((GoDiv(start0, step) - 1) * step, (GoDiv(end0, step) + 1) * step, step)
  }

  /** For times past the Unix epoch with a window that starts after it, the padded range
      covers the window with at least one step to spare on each side, and ends no more
      than one step after the window. */
  lemma CalcRangeBounds(nowSeconds: int, window: nat, step: int)
    requires step > 0
    requires WindowEnd(nowSeconds) - window >= 0
    ensures var end0 := WindowEnd(nowSeconds);
      var start0 := end0 - window;
      var r := CalcRange(nowSeconds, window, step);
      && end0 < r.end <= end0 + step
      && r.start <= start0 - step
      && r.end - r.start > window + step
  {
    var end0 := WindowEnd(nowSeconds);
    var start0 := end0 - window;
    var qe := GoDiv(end0, step);
    var qs := GoDiv(start0, step);
    assert qe * step <= end0 < qe * step + step;
    assert qs * step <= start0;
    assert (qe + 1) * step == qe * step + step;
    assert (qs - 1) * step == qs * step - step;
  }

  /** Both padded bounds are whole multiples of the step. */
  lemma CalcRangeAligned(nowSeconds: int, window: nat, step: int)
    requires step > 0
    ensures CalcRange(nowSeconds, window, step).start % step == 0
    ensures CalcRange(nowSeconds, window, step).end % step == 0
  {
    var end0 := WindowEnd(nowSeconds);
    MultipleMod(GoDiv(end0 - window, step) - 1, step);
    MultipleMod(GoDiv(end0, step) + 1, step);
  }

  lemma MultipleMod(q: int, d: int)
    requires d > 0
    ensures (q * d) % d == 0
  {
    var m := q * d;
    var t := m / d;
    var r := m % d;
    assert m == t * d + r;
    assert (q - t) * d == r by { Distribute(q, t, d); }
    MulSign(q - t, d);
  }

  /** A nonzero multiple of a positive number is at least that number away from zero. */
  lemma MulSign(a: int, d: int)
    requires d > 0
    ensures a >= 1 ==> a * d >= d
    ensures a <= -1 ==> a * d <= -d
  {
    if a >= 1 {
      MulAtLeast(a, d);
    } else if a <= -1 {
      MulAtLeast(-a, d);
      Negate(-a, d);
    }
  }

  lemma Distribute(a: int, b: int, d: int)
    ensures (a - b) * d == a * d - b * d
  {
  }

  /** A positive multiple of a positive number is at least that number. */
  lemma MulAtLeast(a: int, d: int)
    requires a >= 1 && d > 0
    ensures a * d >= d
  {
    assert a * d == (a - 1) * d + d;
    assert (a - 1) * d >= 0;
  }

  lemma Negate(a: int, d: int)
    ensures (-a) * d == -(a * d)
  {
  }

  /** The window's end lies on the minute and at most a minute before `nowSeconds`. */
  lemma WindowEndOnMinute(nowSeconds: int)
    requires nowSeconds >= 0
    ensures WindowEnd(nowSeconds) % 60 == 0
    ensures nowSeconds - 60 < WindowEnd(nowSeconds) <= nowSeconds
  {
  }

  // ---------------------------------------------------------------- plan

  /** One range query of a cycle. */
  datatype Job = HistogramJob(percent: nat, bucket: string) | RateJob(counter: string)

  /** The histogram queries of one quantile, one per bucket, in bucket order. */
  function Row(percent: nat, buckets: seq<string>): (r: seq<Job>)
    ensures |r| == |buckets|
    ensures forall j :: 0 <= j < |buckets| ==> r[j] == HistogramJob(percent, buckets[j])
  {
    if buckets == [] then [] else [HistogramJob(percent, buckets[0])] + Row(percent, buckets[1..])
  }

  /** The histogram queries, quantile-major. */
  function HistogramPlan(percents: seq<nat>, buckets: seq<string>): seq<Job>
  {
    if percents == [] then [] else Row(percents[0], buckets) + HistogramPlan(percents[1..], buckets)
  }

  function RatePlan(counters: seq<string>): (r: seq<Job>)
    ensures |r| == |counters|
    ensures forall k :: 0 <= k < |counters| ==> r[k] == RateJob(counters[k])
  {
    if counters == [] then [] else [RateJob(counters[0])] + RatePlan(counters[1..])
  }

  /** Every query of one cycle, in the order they are sent. */
  function Plan(percents: seq<nat>, split: KibbleClient.Split): seq<Job>
  {
    HistogramPlan(percents, split.buckets) + RatePlan(split.counts)
  }

  /** For each quantile, every bucket: query `i * |buckets| + j` is quantile `i` of bucket
      `j`. */
  lemma HistogramPlanOrder(percents: seq<nat>, buckets: seq<string>, i: nat, j: nat)
    requires i < |percents| && j < |buckets|
    ensures |HistogramPlan(percents, buckets)| == |percents| * |buckets|
    ensures i * |buckets| + j < |HistogramPlan(percents, buckets)|
    ensures HistogramPlan(percents, buckets)[i * |buckets| + j] == HistogramJob(percents[i], buckets[j])
  {
    HistogramPlanLength(percents, buckets);
    HistogramPlanCell(percents, buckets, i, j);
    RowStartProduct(i, |buckets|);
  }

  /** Where row `i` of a grid with rows of length `b` starts, counted without multiplying. */
  function RowStart(i: nat, b: nat): nat
  {
    if i == 0 then 0 else RowStart(i - 1, b) + b
  }

  lemma {:induction false} RowStartProduct(i: nat, b: nat)
    ensures RowStart(i, b) == i * b
  {
    if i > 0 {
      RowStartProduct(i - 1, b);
      MulSucc(i - 1, b);
    }
  }

  lemma {:induction false} HistogramPlanCell(percents: seq<nat>, buckets: seq<string>, i: nat, j: nat)
    requires i < |percents| && j < |buckets|
    ensures RowStart(i, |buckets|) + j < |HistogramPlan(percents, buckets)|
    ensures HistogramPlan(percents, buckets)[RowStart(i, |buckets|) + j] == HistogramJob(percents[i], buckets[j])
  {
    var row := Row(percents[0], buckets);
    var rest := HistogramPlan(percents[1..], buckets);
    assert HistogramPlan(percents, buckets) == row + rest;
    if i == 0 {
      assert (row + rest)[j] == row[j];
    } else {
      HistogramPlanCell(percents[1..], buckets, i - 1, j);
      var x := RowStart(i - 1, |buckets|) + j;
      assert (row + rest)[|buckets| + x] == rest[x];
    }
  }

  lemma MulSucc(a: nat, b: nat)
    ensures (a + 1) * b == a * b + b
  {
  }

  lemma {:induction false} HistogramPlanLength(percents: seq<nat>, buckets: seq<string>)
    ensures |HistogramPlan(percents, buckets)| == |percents| * |buckets|
  {
    if percents != [] {
      HistogramPlanLength(percents[1..], buckets);
      MulSucc(|percents| - 1, |buckets|);
    }
  }

  /** `%.2f` of a quantile given in per cent: the integer part, a point and two digits. */
  function QuantileText(percent: nat): (r: string)
    ensures |r| == |NatToString(percent / 100)| + 3 && HasPrefix(r, NatToString(percent / 100) + ".")
    ensures IsDigits(r[|r| - 2..]) && DigitsValue(r[|r| - 2..]) == percent % 100
  {
    var frac := percent % 100;
    DigitsValueOfDigits(frac / 10, frac % 10);
    var digits := [DigitChar(frac / 10), DigitChar(frac % 10)];
    var r := NatToString(percent / 100) + "." + digits;
    assert r[|r| - 2..] == digits;
    r
  }

  lemma QuantileTextExamples()
    ensures QuantileText(50) == "0.50" && QuantileText(99) == "0.99" && QuantileText(100) == "1.00"
  {
    assert NatToString(0) == "0";
    assert NatToString(1) == "1";
  }

  /** The pieces of the two query templates around their arguments. */
  const QuantileOpen: string := "histogram_quantile("
  const QuantileRate: string := ", sum(rate("
  const RangeGroup: string := "[1m])) by "
  const GroupLabels: string := "(temporal_namespace,operation,le))"
  const RateOpen: string := "rate("
  const RateClose: string := "[1m])"

  /** The PromQL text of a job. */
  function PromQL(job: Job): string
  {
    match job
    case HistogramJob(percent, bucket) =>
      QuantileOpen + QuantileText(percent) + QuantileRate + bucket + RangeGroup + GroupLabels
    case RateJob(counter) => RateOpen + counter + RateClose
  }

  /** One call as the Prometheus API sees it. */
  datatype RangeQuery = RangeQuery(promql: string, range: Range)

  /** `issued` is the calls for jobs `lo`, `lo + 1`, ... of the plan, in order. */
  predicate Sent(issued: seq<RangeQuery>, plan: seq<Job>, range: Range, lo: nat)
  {
    && lo + |issued| <= |plan|
    && forall k :: 0 <= k < |issued| ==> issued[k] == RangeQuery(PromQL(plan[lo + k]), range)
  }

  /** The series a job's matrix becomes. */
  function Translate(job: Job, matrix: Matrix): seq<Series>
  {
    match job
    case HistogramJob(percent, bucket) => PromHistogramToDatadogGauge(bucket, percent, matrix)
    case RateJob(counter) => PromCountToDatadogCount(counter, matrix)
  }

  // ---------------------------------------------------------------- cycle

  /** The Prometheus API: the answer to the `k`-th call of the cycle. */
  type Api = (nat, RangeQuery) -> ApiResponse

  function Answer(plan: seq<Job>, api: Api, range: Range, k: nat): Logged<Matrix>
    requires k < |plan|
  {
    KibbleClient.QueryMetrics(api(k, RangeQuery(PromQL(plan[k]), range)))
  }

  /** Calls `lo` to `hi - 1` all succeed. */
  predicate AllOk(plan: seq<Job>, api: Api, range: Range, lo: nat, hi: nat)
    requires lo <= hi <= |plan|
  {
    forall k :: lo <= k < hi ==> Answer(plan, api, range, k).result.Success?
  }

  /** The series of jobs `lo` to `hi - 1`, in job order. */
  function Collected(plan: seq<Job>, api: Api, range: Range, lo: nat, hi: nat): seq<Series>
    requires lo <= hi <= |plan| && AllOk(plan, api, range, lo, hi)
    decreases hi - lo
  {
    if hi == lo then []
    else Collected(plan, api, range, lo, hi - 1) + Translate(plan[hi - 1], Answer(plan, api, range, hi - 1).result.value)
  }

  /** How a cycle ends. */
  datatype Outcome =
    | Panicked(reason: string)
    | QueryFailed(error: string)
    | Submitted(series: seq<Series>, submitError: Option<string>)

  /** One more call, for the next job of the plan. */
  lemma SentSnoc(issued: seq<RangeQuery>, plan: seq<Job>, range: Range, lo: nat)
    requires Sent(issued, plan, range, lo) && lo + |issued| < |plan|
    ensures Sent(issued + [RangeQuery(PromQL(plan[lo + |issued|]), range)], plan, range, lo)
  {
  }

  /** One more successful call extends the collected series by that job's translation. */
  lemma CollectedStep(plan: seq<Job>, api: Api, range: Range, lo: nat, k: nat)
    requires lo <= k < |plan| && AllOk(plan, api, range, lo, k)
    requires Answer(plan, api, range, k).result.Success?
    ensures AllOk(plan, api, range, lo, k + 1)
    ensures Collected(plan, api, range, lo, k + 1)
         == Collected(plan, api, range, lo, k) + Translate(plan[k], Answer(plan, api, range, k).result.value)
  {
  }

  /** One of the two query loops of `do`: jobs `lo` to `hi - 1` in order, stopping at the
      first error. `issued` is the calls made. */
  method QueryJobs(plan: seq<Job>, api: Api, range: Range, lo: nat, hi: nat)
    returns (r: Result<seq<Series>, string>, issued: seq<RangeQuery>)
    requires lo <= hi <= |plan|
    ensures |issued| <= hi - lo
    ensures Sent(issued, plan, range, lo)
    ensures r.Success? ==>
      && |issued| == hi - lo
      && AllOk(plan, api, range, lo, hi)
      && r.value == Collected(plan, api, range, lo, hi)
    ensures r.Failure? ==>
      var last := lo + |issued| - 1;
      && 1 <= |issued|
      && AllOk(plan, api, range, lo, last)
      && Answer(plan, api, range, last).result.Failure?
      && r.error == Answer(plan, api, range, last).result.error
  {
    var series: seq<Series> := [];
    issued := [];
    var k := lo;
    while k < hi
      invariant lo <= k <= hi
      invariant |issued| == k - lo && Sent(issued, plan, range, lo)
      invariant AllOk(plan, api, range, lo, k)
      invariant series == Collected(plan, api, range, lo, k)
    {
      var query := RangeQuery(PromQL(plan[k]), range);
      SentSnoc(issued, plan, range, lo);
      issued := issued + [query];
      var answer := KibbleClient.QueryMetrics(api(k, query));
      assert answer == Answer(plan, api, range, k);
      if answer.result.Failure? {
        return Failure(answer.result.error), issued;
      }
      CollectedStep(plan, api, range, lo, k);
      series := series + Translate(plan[k], answer.result.value);
      k := k + 1;
    }
    return Success(series), issued;
  }

  /** What a cycle over `plan`, whose first `h` jobs are the histogram jobs, ends with: the
      calls it made are the plan's first jobs in order; a failed query is the last call, all
      calls before it succeeded, and its error is the outcome; a submission follows only
      when every call succeeded, and sends the histogram series then the counter series. */
  predicate CycleDone(plan: seq<Job>, h: nat, api: Api, range: Range, submit: seq<Series> -> Option<string>,
                      outcome: Outcome, issued: seq<RangeQuery>)
    requires h <= |plan|
  {
    && !outcome.Panicked?
    && Sent(issued, plan, range, 0)
    && (outcome.QueryFailed? ==>
          && 1 <= |issued|
          && AllOk(plan, api, range, 0, |issued| - 1)
          && Answer(plan, api, range, |issued| - 1).result.Failure?
          && outcome.error == Answer(plan, api, range, |issued| - 1).result.error)
    && (outcome.Submitted? ==>
          && |issued| == |plan|
          && AllOk(plan, api, range, 0, |plan|)
          && outcome.series == Collected(plan, api, range, 0, h) + Collected(plan, api, range, h, |plan|)
          && outcome.submitError == submit(outcome.series))
  }

  /** The query-and-submit part of `do` for a plan whose first `h` jobs are the histogram
      jobs: the histogram loop, the counter loop, then one submission of the histogram
      series followed by the counter series. */
  method Cycle(plan: seq<Job>, h: nat, api: Api, range: Range, submit: seq<Series> -> Option<string>)
    returns (outcome: Outcome, issued: seq<RangeQuery>)
    requires h <= |plan|
    ensures CycleDone(plan, h, api, range, submit, outcome, issued)
  {
    var histograms, first := QueryJobs(plan, api, range, 0, h);
    if histograms.Failure? {
      return QueryFailed(histograms.error), first;
    }
    var counters, second := QueryJobs(plan, api, range, h, |plan|);
    issued := first + second;
    SentAppend(first, second, plan, range);
    if counters.Failure? {
      AllOkJoin(plan, api, range, 0, h, h + |second| - 1);
      return QueryFailed(counters.error), issued;
    }
    AllOkJoin(plan, api, range, 0, h, |plan|);
    var series := histograms.value + counters.value;
    return Submitted(series, submit(series)), issued;
  }

  /** `do`: compute the range, discover the names, and run the cycle over the plan. A
      discovery failure panics before any query is sent. */
  method Do(w: WorkerConfig, nowSeconds: int, listing: Result<seq<string>, string>, api: Api,
            submit: seq<Series> -> Option<string>)
    returns (outcome: Outcome, issued: seq<RangeQuery>)
    requires w.stepSeconds != 0
    ensures listing.Failure? <==> outcome.Panicked?
    ensures outcome.Panicked? ==> outcome.reason == KibbleClient.ListingErrorPrefix + listing.error && issued == []
    ensures listing.Success? ==>
      var split := KibbleClient.SplitNames(listing.value, w.prefix);
      && |HistogramPlan(w.percents, split.buckets)| <= |Plan(w.percents, split)|
      && CycleDone(Plan(w.percents, split), |HistogramPlan(w.percents, split.buckets)|, api,
                   CalcRange(nowSeconds, QueryWindow(w.intervalSeconds), w.stepSeconds), submit, outcome, issued)
  {
    var range := CalcRange(nowSeconds, QueryWindow(w.intervalSeconds), w.stepSeconds);
    var discovered := KibbleClient.ListMetrics(listing, w.prefix);
    if discovered.Failure? {
      return Panicked(discovered.error), [];
    }
    var split := discovered.value;
    var plan := Plan(w.percents, split);
    outcome, issued := Cycle(plan, |HistogramPlan(w.percents, split.buckets)|, api, range, submit);
  }

  lemma AllOkJoin(plan: seq<Job>, api: Api, range: Range, a: nat, b: nat, c: nat)
    requires a <= b <= c <= |plan|
    requires AllOk(plan, api, range, a, b) && AllOk(plan, api, range, b, c)
    ensures AllOk(plan, api, range, a, c)
    ensures AllOk(plan, api, range, a, b) && AllOk(plan, api, range, b, c)
  {
  }

  lemma SentAppend(first: seq<RangeQuery>, second: seq<RangeQuery>, plan: seq<Job>, range: Range)
    requires Sent(first, plan, range, 0) && Sent(second, plan, range, |first|)
    ensures Sent(first + second, plan, range, 0)
  {
    var all := first + second;
    forall k | 0 <= k < |all|
      ensures all[k] == RangeQuery(PromQL(plan[k]), range)
    {
      if k >= |first| {
        assert all[k] == second[k - |first|];
      }
    }
  }

  /** What a job's translation is made of: gauges for a histogram job, counts for a rate
      job. */
  lemma TranslateIntake(job: Job, matrix: Matrix)
    ensures forall i :: 0 <= i < |Translate(job, matrix)| ==>
      Translate(job, matrix)[i].intake == (if job.HistogramJob? then IntakeGauge else IntakeCount)
  {
  }

  /** The histogram part of the submission holds gauges only, the counter part counts only. */
  lemma {:induction false} CollectedIntake(plan: seq<Job>, api: Api, range: Range, lo: nat, hi: nat, gauges: bool)
    requires lo <= hi <= |plan| && AllOk(plan, api, range, lo, hi)
    requires forall k :: lo <= k < hi ==> plan[k].HistogramJob? == gauges
    ensures forall i :: 0 <= i < |Collected(plan, api, range, lo, hi)| ==>
      Collected(plan, api, range, lo, hi)[i].intake == (if gauges then IntakeGauge else IntakeCount)
    decreases hi - lo
  {
    if hi > lo {
      CollectedIntake(plan, api, range, lo, hi - 1, gauges);
      var front := Collected(plan, api, range, lo, hi - 1);
      var t := Translate(plan[hi - 1], Answer(plan, api, range, hi - 1).result.value);
      TranslateIntake(plan[hi - 1], Answer(plan, api, range, hi - 1).result.value);
      var intake := if gauges then IntakeGauge else IntakeCount;
      assert plan[hi - 1].HistogramJob? == gauges;
      assert forall i :: 0 <= i < |t| ==> t[i].intake == intake;
      assert forall i :: 0 <= i < |front| ==> front[i].intake == intake;
      assert Collected(plan, api, range, lo, hi) == front + t;
      IntakeAppend(front, t, intake);
    }
  }

  lemma IntakeAppend(front: seq<Series>, t: seq<Series>, intake: nat)
    requires forall i :: 0 <= i < |front| ==> front[i].intake == intake
    requires forall i :: 0 <= i < |t| ==> t[i].intake == intake
    ensures forall i :: 0 <= i < |front + t| ==> (front + t)[i].intake == intake
  {
    var all := front + t;
    forall i | 0 <= i < |all|
      ensures all[i].intake == intake
    {
      if i < |front| {
        assert all[i] == front[i];
      } else {
        assert all[i] == t[i - |front|];
      }
    }
  }

  /** The plan's first part is histogram jobs only, the rest rate jobs only. */
  lemma PlanParts(percents: seq<nat>, split: KibbleClient.Split)
    ensures var plan := Plan(percents, split);
      var h := |HistogramPlan(percents, split.buckets)|;
      && (forall k :: 0 <= k < h ==> plan[k].HistogramJob?)
      && (forall k :: h <= k < |plan| ==> plan[k].RateJob?)
  {
    HistogramPlanJobs(percents, split.buckets);
  }

  lemma {:induction false} HistogramPlanJobs(percents: seq<nat>, buckets: seq<string>)
    ensures forall k :: 0 <= k < |HistogramPlan(percents, buckets)| ==> HistogramPlan(percents, buckets)[k].HistogramJob?
  {
    if percents != [] {
      HistogramPlanJobs(percents[1..], buckets);
      var row := Row(percents[0], buckets);
      var rest := HistogramPlan(percents[1..], buckets);
      assert forall k :: 0 <= k < |rest| ==> (row + rest)[|row| + k] == rest[k];
    }
  }

  // ---------------------------------------------------------------- run loop

  /** What wakes the run loop after it has spawned a cycle. */
  datatype WakeUp = CycleFailed | Ticked | Interrupted

  /** What `Run` did: cycles spawned, error back-offs slept, and whether it returned. */
  datatype RunTrace = RunTrace(spawned: nat, backoffs: nat, returned: bool)

  /** `Run` facing the wake-ups in the order the select statement takes them. */
  function Run(wakes: seq<WakeUp>): (r: RunTrace)
    ensures r.returned <==> Interrupted in wakes
    ensures 1 <= r.spawned <= |wakes| + 1
    ensures r.backoffs < r.spawned
    ensures (forall i :: 0 <= i < |wakes| ==> wakes[i] != Interrupted) ==> r.spawned == |wakes| + 1
  {
    if wakes == [] then RunTrace(1, 0, false)
    else if wakes[0] == Interrupted then RunTrace(1, 0, true)
    else
      var rest := Run(wakes[1..]);
      RunTrace(rest.spawned + 1, rest.backoffs + (if wakes[0] == CycleFailed then 1 else 0), rest.returned)
  }

  /** Everything after the first interrupt is ignored: the loop has returned. */
  lemma {:induction false} RunStopsAtInterrupt(before: seq<WakeUp>, after: seq<WakeUp>)
    requires Interrupted !in before
    ensures Run(before + [Interrupted] + after) == RunTrace(|before| + 1, Run(before).backoffs, true)
  {
    if before != [] {
      assert (before + [Interrupted] + after)[1..] == before[1..] + [Interrupted] + after;
      RunStopsAtInterrupt(before[1..], after);
    } else {
      assert (before + [Interrupted] + after)[0] == Interrupted;
    }
  }
}

=== FILE: my_authorizer.dfy ===
/** The sample authorizer (extensibility/authorizer/myAuthorizer.go): everything in
    `temporal-system` is allowed, system admins and writers may do anything, and only
    `UpdateNamespace` is ever denied. */
module MyAuthorizer {
  import opened Wrappers
  import opened Authorization

  const SystemNamespace: string := "temporal-system"
  const UpdateNamespace: string := "UpdateNamespace"

  /** What one call gives: a decision (the error is always nil), or the nil-pointer panic
      when `UpdateNamespace` reaches the role checks without claims. */
  datatype Outcome = Decided(decision: Decision) | NilClaimsPanic

  /** `Authorize`. `claims` is `None` when the claim mapper was not invoked. */
  function Authorize(claims: Option<Claims>, target: CallTarget): (o: Outcome)
    ensures o == NilClaimsPanic <==> target.ns != SystemNamespace && claims.None? && target.apiName == UpdateNamespace
    ensures o == Decided(Deny) ==> target.apiName == UpdateNamespace && target.ns != SystemNamespace
  {
    if target.ns == SystemNamespace then Decided(Allow)
    else if claims.None? && target.apiName != UpdateNamespace then Decided(Allow)
    else if claims.None? then NilClaimsPanic
    else if claims.value.system & (RoleAdmin | RoleWriter) != 0 then Decided(Allow)
    else if target.apiName == UpdateNamespace then
      if NamespaceRole(claims.value, target.ns) & RoleWriter != 0 then Decided(Allow) else Decided(Deny)
    else Decided(Allow)
  }

  /** The reference table: a call is allowed when it is in `temporal-system`, is not
      `UpdateNamespace`, or comes from a system admin or writer or a writer of the target
      namespace. */
  predicate Allowed(claims: Claims, target: CallTarget)
  {
    || target.ns == SystemNamespace
    || target.apiName != UpdateNamespace
    || claims.system & RoleAdmin != 0
    || claims.system & RoleWriter != 0
    || NamespaceRole(claims, target.ns) & RoleWriter != 0
  }

  /** With claims the authorizer never panics, and allows exactly the calls of the table. */
  lemma AuthorizeMatchesTable(claims: Claims, target: CallTarget)
    ensures Authorize(Some(claims), target) == (if Allowed(claims, target) then Decided(Allow) else Decided(Deny))
  {
    AdminOrWriter(claims.system);
  }

  /** Testing the union of two bits is testing each. */
  lemma AdminOrWriter(r: Role)
    ensures r & (RoleAdmin | RoleWriter) != 0 <==> r & RoleAdmin != 0 || r & RoleWriter != 0
  {
  }

  /** Without claims every call but `UpdateNamespace` outside `temporal-system` is allowed. */
  lemma NilClaimsAllowed(target: CallTarget)
    requires target.ns == SystemNamespace || target.apiName != UpdateNamespace
    ensures Authorize(None, target) == Decided(Allow)
  {
  }

  /** A namespace reader may not update it; a namespace writer may. */
  lemma NamespaceWriterDecides(claims: Claims, ns: string)
    requires ns != SystemNamespace && claims.system & (RoleAdmin | RoleWriter) == 0
    ensures Authorize(Some(claims), CallTarget(UpdateNamespace, ns)).decision == Allow
        <==> NamespaceRole(claims, ns) & RoleWriter != 0
  {
  }
}

=== FILE: my_claim_mapper.dfy ===
/** The sample claim mapper (extensibility/authorizer/myClaimMapper.go): the subject comes
    from the client certificate, the roles from the presence of a token. */
module MyClaimMapper {
  import opened Wrappers
  import opened Authorization
  import MyAuthorizer

  /** `authorization.AuthInfo`: whether the call came over TLS, the certificate subject's
      common name (`None` for a nil subject) and the bearer token. */
  datatype AuthInfo = AuthInfo(tlsConnection: bool, tlsSubject: Option<string>, authToken: string)

  /** What `GetClaims` gives: claims (the error is always nil), or the nil-pointer panic of
      reading the subject of a TLS connection that has none. */
  datatype Mapping = Mapped(claims: Claims) | NilSubjectPanic

  const TokenNamespace: string := "foo"

  /** The subject: the certificate's common name on a TLS connection, empty otherwise. */
  function Subject(info: AuthInfo): string
    requires info.tlsConnection ==> info.tlsSubject.Some?
  {
    if info.tlsConnection then info.tlsSubject.value else ""
  }

  /** `GetClaims`. */
  function GetClaims(info: AuthInfo): (r: Mapping)
    ensures r.NilSubjectPanic? <==> info.tlsConnection && info.tlsSubject.None?
    ensures r.Mapped? ==> r.claims.subject == Subject(info)
    ensures r.Mapped? && info.authToken != "" ==>
      r.claims.system == RoleWriter && r.claims.namespaces == Some(map[TokenNamespace := RoleReader])
    ensures r.Mapped? && info.authToken == "" ==> r.claims.system == RoleUndefined && r.claims.namespaces.None?
  {
    if info.tlsConnection && info.tlsSubject.None? then NilSubjectPanic
    else
      var subject := if info.tlsConnection then info.tlsSubject.value else "";
      if info.authToken != "" then Mapped(Claims(subject, RoleWriter, Some(map[TokenNamespace := RoleReader])))
      else Mapped(Claims(subject, RoleUndefined, None))
  }

  /** The token holder reads `foo` and nothing else: every other namespace has no role. */
  lemma TokenNamespaceRoles(info: AuthInfo, ns: string)
    requires info.authToken != "" && GetClaims(info).Mapped?
    ensures NamespaceRole(GetClaims(info).claims, ns) == if ns == TokenNamespace then RoleReader else RoleUndefined
  {
  }

  /** The certificate only decides the subject and the token only decides the roles. */
  lemma BranchesIndependent(a: AuthInfo, b: AuthInfo)
    requires GetClaims(a).Mapped? && GetClaims(b).Mapped?
    ensures a.tlsConnection == b.tlsConnection && a.tlsSubject == b.tlsSubject ==>
      GetClaims(a).claims.subject == GetClaims(b).claims.subject
    ensures (a.authToken == "") == (b.authToken == "") ==>
      GetClaims(a).claims.system == GetClaims(b).claims.system
      && GetClaims(a).claims.namespaces == GetClaims(b).claims.namespaces
  {
  }

  /** With a token the caller is a system writer, so every call is allowed. */
  lemma TokenHolderAllowed(info: AuthInfo, target: CallTarget)
    requires info.authToken != "" && GetClaims(info).Mapped?
    ensures MyAuthorizer.Authorize(Some(GetClaims(info).claims), target) == MyAuthorizer.Decided(Allow)
  {
    MyAuthorizer.AuthorizeMatchesTable(GetClaims(info).claims, target);
  }

  /** Without a token only `UpdateNamespace` outside `temporal-system` is denied; the
      certificate makes no difference. */
  lemma NoTokenDecisions(info: AuthInfo, target: CallTarget)
    requires info.authToken == "" && GetClaims(info).Mapped?
    ensures MyAuthorizer.Authorize(Some(GetClaims(info).claims), target) == MyAuthorizer.Decided(Deny)
        <==> target.apiName == MyAuthorizer.UpdateNamespace && target.ns != MyAuthorizer.SystemNamespace
  {
    MyAuthorizer.AuthorizeMatchesTable(GetClaims(info).claims, target);
  }
}

=== FILE: prom_model.dfy ===
/** The Prometheus data the pipelines read: sample values, label sets, instant vectors and
    range matrices, and the answer of one HTTP API call. */
module PromModel {
  import opened Wrappers

  /** A float64 sample value with the IEEE special values made explicit. Negative zero is
      `Finite(0.0)`: every comparison the programs make treats it as zero. */
  datatype SampleValue = NaN | PosInf | NegInf | Finite(x: real)

  datatype Label = Label(name: string, value: string)

  /** A Go `model.Metric` (a map from label name to value). The sequence is the order in
      which one `range` over the map visits it; the names are unique. */
  type LabelSet = seq<Label>

  predicate UniqueNames(ls: LabelSet)
  {
    forall i, j :: 0 <= i < j < |ls| ==> ls[i].name != ls[j].name
  }

  /** One element of an instant vector (`model.Sample`): labels, value and a millisecond
      timestamp. */
  datatype Sample = Sample(metric: LabelSet, value: SampleValue, timestampMs: int)

  /** One point of a range result (`model.SamplePair`), timestamp in milliseconds. */
  datatype SamplePair = SamplePair(timestampMs: int, value: SampleValue)

  /** One row of a range result (`model.SampleStream`). */
  datatype SampleStream = SampleStream(metric: LabelSet, values: seq<SamplePair>)

  /** Temporal Cloud's label that is always true; every translation leaves it out somewhere. */
  const RollupLabel: string := "__rollup__"

  function NotRollup(): Label -> bool
  {
    (l: Label) => l.name != RollupLabel
  }

  type Vector = seq<Sample>

  type Matrix = seq<SampleStream>

  /** The dynamic type of a query result (`model.Value`). */
  datatype QueryValue =
    | VectorValue(vector: Vector)
    | MatrixValue(matrix: Matrix)
    | ScalarValue(scalar: SampleValue)
    | StringValue(text: string)

  /** What one call of the Prometheus HTTP API gives back: an error (transport failure,
      timeout, or an error reported by the server), or a result with its warnings. */
  datatype ApiResponse =
    | ApiError(cause: string)
    | ApiResult(value: QueryValue, warnings: seq<string>)

  /** What a client writes to its log while handling a response. */
  datatype LogLine = WarningsLogged(warnings: seq<string>) | UnexpectedTypeLogged

  /** What a client call returns, with the lines it logs on the way. */
  datatype Logged<T> = Logged(result: Result<T, string>, log: seq<LogLine>)

  /** One `[timestamp, "value"]` pair of a range result as the scripts read the JSON:
      seconds as a JSON number, and the number the value's text spells. Prometheus writes
      `NaN`, `+Inf` and `-Inf` for the special values, so `value` is `NaN` exactly when the
      text is `NaN`. Each script reads the text with its own parser: Python's `float` gets
      the spelled number, JavaScript's `parseFloat` does not (`TsCommon.ParseFloat`). */
  datatype JsonSample = JsonSample(timestamp: real, value: SampleValue)

  /** One element of `data.result` as the scripts read it. */
  datatype RangeResult = RangeResult(metric: LabelSet, values: seq<JsonSample>)
}

=== FILE: scrape_client.dfy ===
/** The Prometheus client of the pull-mode translator
    (promql-to-scrape/internal/client.go): discovery of metric names split by type, and the
    result policy of one instant query. */
module ScrapeClient {
  import opened Wrappers
  import opened Text
  import opened Seqs
  import opened PromModel
  import opened ScrapeMetric

  /** The three name lists `ListMetrics` returns, in its return order. */
  datatype Discovered = Discovered(counts: seq<string>, gauges: seq<string>, histograms: seq<string>)

  const ListingErrorPrefix: string := "failed to fetch Prometheus metric names: "
  const QueryErrorPrefix: string := "failed to query Temporal Cloud: "

  /** The test a name passes to land in the list of type `t`. */
  function TypeTest(prefix: string, t: string): string -> bool
  {
    (v: string) => HasPrefix(v, prefix) && GetMetricType(v) == t
  }

  function PrefixTest(prefix: string): string -> bool
  {
    (v: string) => HasPrefix(v, prefix)
  }

  /** The reference partition: each list is the prefixed names of one type, in input order. */
  function Partition(values: seq<string>, prefix: string): Discovered
  {
    Discovered(
      Filter(values, TypeTest(prefix, MetricTypeCounter)),
      Filter(values, TypeTest(prefix, MetricTypeGauge)),
      Filter(values, TypeTest(prefix, MetricTypeHistogram)))
  }

  /** Lists the values of the `__name__` label (`listing`, or the error the API call gave)
      and splits those starting with `prefix` by `GetMetricType`. */
  method ListMetrics(listing: Result<seq<string>, string>, prefix: string)
    returns (r: Result<Discovered, string>)
    ensures listing.Failure? ==> r == Failure(ListingErrorPrefix + listing.error)
    ensures listing.Success? ==> r == Success(Partition(listing.value, prefix))
  {
    if listing.Failure? {
      return Failure(ListingErrorPrefix + listing.error);
    }
    var values := listing.value;
    var counts: seq<string> := [];
    var gauges: seq<string> := [];
    var histograms: seq<string> := [];
    var i := 0;
    while i < |values|
      invariant 0 <= i <= |values|
      invariant Discovered(counts, gauges, histograms) == Partition(values[..i], prefix)
    {
      var v := values[i];
      assert values[..i + 1] == values[..i] + [v];
      PartitionSnoc(values[..i], v, prefix);
      if HasPrefix(v, prefix) {
        var t := GetMetricType(v);
        if t == MetricTypeHistogram {
          histograms := histograms + [v];
        } else if t == MetricTypeCounter {
          counts := counts + [v];
        } else {
          gauges := gauges + [v];
        }
      }
      i := i + 1;
    }
    assert values[..i] == values;
    return Success(Discovered(counts, gauges, histograms));
  }

  /** One more listed name lands at the end of the list of its type, or nowhere when it
      lacks the prefix. */
  lemma PartitionSnoc(values: seq<string>, v: string, prefix: string)
    ensures var d := Partition(values, prefix);
      var next := Partition(values + [v], prefix);
      if !HasPrefix(v, prefix) then next == d
      else if GetMetricType(v) == MetricTypeHistogram then next == d.(histograms := d.histograms + [v])
      else if GetMetricType(v) == MetricTypeCounter then next == d.(counts := d.counts + [v])
      else next == d.(gauges := d.gauges + [v])
  {
    FilterSnoc(values, v, TypeTest(prefix, MetricTypeCounter));
    FilterSnoc(values, v, TypeTest(prefix, MetricTypeGauge));
    FilterSnoc(values, v, TypeTest(prefix, MetricTypeHistogram));
    MetricTypesDistinct();
  }

  /** A name without the prefix is in none of the lists. */
  lemma PartitionExcludesUnprefixed(values: seq<string>, prefix: string, v: string)
    requires !HasPrefix(v, prefix)
    ensures var d := Partition(values, prefix);
      v !in d.counts && v !in d.gauges && v !in d.histograms
  {
  }

  /** A listed name with the prefix is in exactly the list its type names. */
  lemma PartitionPlacesByType(values: seq<string>, prefix: string, v: string)
    requires v in values && HasPrefix(v, prefix)
    ensures var d := Partition(values, prefix);
      && (v in d.counts <==> GetMetricType(v) == MetricTypeCounter)
      && (v in d.gauges <==> GetMetricType(v) == MetricTypeGauge)
      && (v in d.histograms <==> GetMetricType(v) == MetricTypeHistogram)
  {
    MetricTypesDistinct();
  }

  /** Nothing is lost and nothing duplicated: the three lists together hold the prefixed
      names, each as often as it is listed. */
  lemma PartitionMultiset(values: seq<string>, prefix: string)
    ensures var d := Partition(values, prefix);
      multiset(d.counts) + multiset(d.gauges) + multiset(d.histograms)
        == multiset(Filter(values, PrefixTest(prefix)))
  {
    MetricTypesDistinct();
    FilterSplit3(values, PrefixTest(prefix),
      TypeTest(prefix, MetricTypeCounter),
      TypeTest(prefix, MetricTypeGauge),
      TypeTest(prefix, MetricTypeHistogram));
  }

  /** Each list keeps the input order of the names it holds. */
  lemma PartitionKeepsOrder(values: seq<string>, prefix: string)
    ensures var d := Partition(values, prefix);
      && SubsequenceOf(d.counts, values)
      && SubsequenceOf(d.gauges, values)
      && SubsequenceOf(d.histograms, values)
  {
    FilterSubsequence(values, TypeTest(prefix, MetricTypeCounter));
    FilterSubsequence(values, TypeTest(prefix, MetricTypeGauge));
    FilterSubsequence(values, TypeTest(prefix, MetricTypeHistogram));
  }

  /** One instant query: an API error becomes an error; warnings are logged only; a result
      that is not a vector is logged and read as the empty vector (a nil `model.Vector`). */
  function QueryMetricsInstant(resp: ApiResponse): (o: Logged<Vector>)
    ensures o.result.Failure? <==> resp.ApiError?
    ensures resp.ApiError? ==> o.result.error == QueryErrorPrefix + resp.cause && o.log == []
    ensures resp.ApiResult? && resp.value.VectorValue? ==> o.result == Success(resp.value.vector)
    ensures resp.ApiResult? && !resp.value.VectorValue? ==> o.result == Success([])
    ensures resp.ApiResult? ==>
      && (WarningsLogged(resp.warnings) in o.log <==> |resp.warnings| > 0)
      && (UnexpectedTypeLogged in o.log <==> !resp.value.VectorValue?)
  {
    match resp
    case ApiError(cause) => Logged(Failure(QueryErrorPrefix + cause), [])
    case ApiResult(value, warnings) =>
      var warned := if |warnings| > 0 then [WarningsLogged(warnings)] else [];
      if value.VectorValue? then Logged(Success(value.vector), warned)
      else Logged(Success([]), warned + [UnexpectedTypeLogged])
  }

  /** Warnings never change what the query returns. */
  lemma WarningsNeverFail(value: QueryValue, w1: seq<string>, w2: seq<string>)
    ensures QueryMetricsInstant(ApiResult(value, w1)).result
         == QueryMetricsInstant(ApiResult(value, w2)).result
  {
  }
}

=== FILE: scrape_config.dfy ===
/** The configuration of the pull-mode translator (promql-to-scrape/internal/config.go):
    the metric list and the `sort.Interface` that orders it by metric name. */
module ScrapeConfig {

  /** One exported metric: the name it is served under and the PromQL query behind it. */
  datatype Metric = Metric(metricName: string, query: string)

  datatype Config = Config(metrics: seq<Metric>)

  /** Go's `<` on strings: byte-wise lexicographic order. UTF-8 preserves code-point order,
      so comparing characters gives the same answer. */
  predicate LexLess(a: string, b: string)
  {
    if b == [] then false
    else if a == [] then true
    else if a[0] != b[0] then a[0] < b[0]
    else LexLess(a[1..], b[1..])
  }

  lemma {:induction false} LexLessIrreflexive(a: string)
    ensures !LexLess(a, a)
  {
    if a != [] {
      LexLessIrreflexive(a[1..]);
    }
  }

  lemma {:induction false} LexLessAsymmetric(a: string, b: string)
    requires LexLess(a, b)
    ensures !LexLess(b, a)
  {
    if a != [] && b != [] && a[0] == b[0] {
      LexLessAsymmetric(a[1..], b[1..]);
    }
  }

  lemma {:induction false} LexLessTransitive(a: string, b: string, c: string)
    requires LexLess(a, b) && LexLess(b, c)
    ensures LexLess(a, c)
  {
    if a != [] && a[0] == b[0] && b[0] == c[0] {
      LexLessTransitive(a[1..], b[1..], c[1..]);
    }
  }

  /** Two different names are always ordered one way or the other. */
  lemma {:induction false} LexLessTotal(a: string, b: string)
    requires a != b
    ensures LexLess(a, b) || LexLess(b, a)
  {
    if a != [] && b != [] && a[0] == b[0] {
      assert a == [a[0]] + a[1..] && b == [b[0]] + b[1..];
      LexLessTotal(a[1..], b[1..]);
    }
  }

  /** Names that do not sort before each other are equal. */
  lemma LexLessAntisymmetric(a: string, b: string)
    requires !LexLess(a, b) && !LexLess(b, a)
    ensures a == b
  {
    if a != b {
      LexLessTotal(a, b);
    }
  }

  /** "Sorts no later than" is transitive. */
  lemma LexLeqTransitive(a: string, b: string, c: string)
    requires !LexLess(b, a) && !LexLess(c, b)
    ensures !LexLess(c, a)
  {
    if LexLess(c, a) {
      if a == b {
      } else {
        LexLessTotal(a, b);
        LexLessTransitive(c, a, b);
      }
    }
  }

  /** `ByMetricName.Len`. */
  function Len(m: seq<Metric>): nat
  {
    |m|
  }

  /** `ByMetricName.Less`: element `i` sorts before element `j`. */
  predicate Less(m: seq<Metric>, i: nat, j: nat)
    requires i < |m| && j < |m|
  {
    LexLess(m[i].metricName, m[j].metricName)
  }

  /** `Less` is a strict order on the elements: no element sorts before itself, and
      sorting before is transitive. */
  lemma LessStrictOrder(m: seq<Metric>, i: nat, j: nat, k: nat)
    requires i < |m| && j < |m| && k < |m|
    ensures !Less(m, i, i)
    ensures Less(m, i, j) && Less(m, j, k) ==> Less(m, i, k)
    ensures Less(m, i, j) ==> !Less(m, j, i)
  {
    LexLessIrreflexive(m[i].metricName);
    if Less(m, i, j) {
      LexLessAsymmetric(m[i].metricName, m[j].metricName);
      if Less(m, j, k) {
        LexLessTransitive(m[i].metricName, m[j].metricName, m[k].metricName);
      }
    }
  }

  /** `ByMetricName.Swap`: exchanges elements `i` and `j`. */
  function Swap(m: seq<Metric>, i: nat, j: nat): (r: seq<Metric>)
    requires i < |m| && j < |m|
    ensures Len(r) == Len(m)
    ensures r[i] == m[j] && r[j] == m[i]
    ensures forall k :: 0 <= k < |m| && k != i && k != j ==> r[k] == m[k]
  {
    m[i := m[j]][j := m[i]]
  }

  /** Swapping twice restores the list. */
  lemma SwapTwice(m: seq<Metric>, i: nat, j: nat)
    requires i < |m| && j < |m|
    ensures Swap(Swap(m, i, j), i, j) == m
  {
    var r := Swap(Swap(m, i, j), i, j);
    assert forall k :: 0 <= k < |m| ==> r[k] == m[k];
  }

  /** A swap only reorders: the metrics as a multiset are unchanged. */
  lemma SwapMultiset(m: seq<Metric>, i: nat, j: nat)
    requires i < |m| && j < |m|
    ensures multiset(Swap(m, i, j)) == multiset(m)
  {
    if i != j {
      var a := m[i := m[j]];
      assert multiset(a) == multiset(m) - multiset{m[i]} + multiset{m[j]};
      assert multiset(a[j := m[i]]) == multiset(a) - multiset{a[j]} + multiset{m[i]};
    }
  }
}

=== FILE: scrape_metric.dfy ===
/** Metric-type classification of the pull-mode translator
    (promql-to-scrape/internal/metric.go). */
module ScrapeMetric {
  import opened Text

  const MetricTypeHistogram: string := "histogram"
  /** The counter constant is the string "count", not "counter". */
  const MetricTypeCounter: string := "count"
  const MetricTypeGauge: string := "gauge"

  /** Classifies a metric name by its suffix: `_bucket` first, then `_count` or `_sum`,
      everything else a gauge. */
  function GetMetricType(v: string): (t: string)
    ensures t == MetricTypeHistogram || t == MetricTypeCounter || t == MetricTypeGauge
    ensures t == MetricTypeHistogram <==> HasSuffix(v, "_bucket")
    ensures t == MetricTypeCounter <==>
      !HasSuffix(v, "_bucket") && (HasSuffix(v, "_count") || HasSuffix(v, "_sum"))
    ensures t == MetricTypeGauge <==>
      !HasSuffix(v, "_bucket") && !HasSuffix(v, "_count") && !HasSuffix(v, "_sum")
  {
    if HasSuffix(v, "_bucket") then MetricTypeHistogram
    else if HasSuffix(v, "_count") || HasSuffix(v, "_sum") then MetricTypeCounter
    else MetricTypeGauge
  }

  /** A suffix check on `p + x` only looks at `x` when the suffix is no longer than `x`. */
  lemma SuffixOfTail(p: string, x: string, suffix: string)
    requires |suffix| <= |x|
    ensures HasSuffix(p + x, suffix) <==> HasSuffix(x, suffix)
  {
    assert (p + x)[|p + x| - |suffix|..] == x[|x| - |suffix|..];
  }

  /** The classification depends on the last seven characters of the name only: two names
      that share a tail of at least seven characters (the length of `_bucket`) have the
      same type. */
  lemma GetMetricTypeDependsOnSuffix(p: string, q: string, x: string)
    requires |x| >= 7
    ensures GetMetricType(p + x) == GetMetricType(q + x)
  {
    SuffixOfTail(p, x, "_bucket");
    SuffixOfTail(q, x, "_bucket");
    SuffixOfTail(p, x, "_count");
    SuffixOfTail(q, x, "_count");
    SuffixOfTail(p, x, "_sum");
    SuffixOfTail(q, x, "_sum");
  }

  /** The three type names are pairwise distinct, so the classification is a partition. */
  lemma MetricTypesDistinct()
    ensures MetricTypeHistogram != MetricTypeCounter
    ensures MetricTypeHistogram != MetricTypeGauge
    ensures MetricTypeCounter != MetricTypeGauge
  {
    assert MetricTypeHistogram[0] == 'h';
    assert MetricTypeCounter[0] == 'c';
    assert MetricTypeGauge[0] == 'g';
  }
}

=== FILE: scrape_query.dfy ===
/** The query fan-out of the pull-mode translator (promql-to-scrape/internal/query.go): one
    instant query per configured metric, in configuration order, collected into a map from
    metric name to samples. */
module ScrapeQuery {
  import opened Wrappers
  import opened PromModel
  import opened ScrapeClient
  import opened ScrapeConfig
  import opened ScrapeSerialize

  /** The Prometheus API as the fan-out sees it: the answer to the `n`-th call, which sends
      the given PromQL text. */
  type Api = (nat, string) -> ApiResponse

  /** The queries of `metrics`, in order. */
  function Queries(metrics: seq<Metric>): (qs: seq<string>)
    ensures |qs| == |metrics|
    ensures forall k :: 0 <= k < |metrics| ==> qs[k] == metrics[k].query
  {
    if metrics == [] then [] else [metrics[0].query] + Queries(metrics[1..])
  }

  /** What the client makes of the `k`-th call. */
  function Answer(metrics: seq<Metric>, api: Api, k: nat): Logged<Vector>
    requires k < |metrics|
  {
    QueryMetricsInstant(api(k, metrics[k].query))
  }

  predicate AllSucceed(metrics: seq<Metric>, api: Api, n: nat)
    requires n <= |metrics|
  {
    forall k :: 0 <= k < n ==> Answer(metrics, api, k).result.Success?
  }

  /** The map after the first `n` entries were stored one after another, each overwriting any
      earlier entry of the same name. */
  function Built(metrics: seq<Metric>, api: Api, n: nat): Data
    requires n <= |metrics| && AllSucceed(metrics, api, n)
  {
    if n == 0 then map[]
    else Built(metrics, api, n - 1)[metrics[n - 1].metricName := Answer(metrics, api, n - 1).result.value]
  }

  function QueryErrorMessage(metricName: string, cause: string): string
  {
    "failed to query for " + metricName + ": " + cause
  }

  /** Queries every configured metric in order. `issued` is the PromQL text of every call
      made, in order. The first failing call ends the run with an error naming its metric and
      no map; otherwise the result is the map of all answers. */
  method QueryMetrics(conf: Config, api: Api) returns (r: Result<Data, string>, issued: seq<string>)
    ensures |issued| <= |conf.metrics|
    ensures issued == Queries(conf.metrics[..|issued|])
    ensures r.Success? ==>
      && |issued| == |conf.metrics|
      && AllSucceed(conf.metrics, api, |conf.metrics|)
      && r.value == Built(conf.metrics, api, |conf.metrics|)
    ensures r.Failure? ==>
      && 1 <= |issued|
      && AllSucceed(conf.metrics, api, |issued| - 1)
      && Answer(conf.metrics, api, |issued| - 1).result.Failure?
      && r.error == QueryErrorMessage(conf.metrics[|issued| - 1].metricName,
                                      Answer(conf.metrics, api, |issued| - 1).result.error)
  {
    var metrics := conf.metrics;
    var queried: Data := map[];
    issued := [];
    var i := 0;
    while i < |metrics|
      invariant 0 <= i <= |metrics|
      invariant issued == Queries(metrics[..i])
      invariant AllSucceed(metrics, api, i)
      invariant queried == Built(metrics, api, i)
    {
      var metric := metrics[i];
      QueriesSnoc(metrics, i);
      issued := issued + [metric.query];
      var answer := QueryMetricsInstant(api(i, metric.query));
      if answer.result.Failure? {
        return Failure(QueryErrorMessage(metric.metricName, answer.result.error)), issued;
      }
      BuiltStep(metrics, api, i);
      queried := queried[metric.metricName := answer.result.value];
      i := i + 1;
    }
    assert metrics[..i] == metrics;
    return Success(queried), issued;
  }

  /** One more successful call extends the run: the map gets that call's answer. */
  lemma BuiltStep(metrics: seq<Metric>, api: Api, i: nat)
    requires i < |metrics| && AllSucceed(metrics, api, i)
    requires Answer(metrics, api, i).result.Success?
    ensures AllSucceed(metrics, api, i + 1)
    ensures Built(metrics, api, i + 1) == Built(metrics, api, i)[metrics[i].metricName := Answer(metrics, api, i).result.value]
  {
  }

  lemma QueriesSnoc(metrics: seq<Metric>, i: nat)
    requires i < |metrics|
    ensures Queries(metrics[..i + 1]) == Queries(metrics[..i]) + [metrics[i].query]
  {
    var a := Queries(metrics[..i + 1]);
    var b := Queries(metrics[..i]) + [metrics[i].query];
    assert forall k :: 0 <= k < |a| ==> a[k] == b[k];
  }

  /** The names of the first `n` entries. */
  function Names(metrics: seq<Metric>, n: nat): set<string>
    requires n <= |metrics|
  {
    set k | 0 <= k < n :: metrics[k].metricName
  }

  /** The keys of the collected map are exactly the configured names; an empty configuration
      gives the empty map. */
  lemma {:induction false} BuiltKeys(metrics: seq<Metric>, api: Api, n: nat)
    requires n <= |metrics| && AllSucceed(metrics, api, n)
    ensures Built(metrics, api, n).Keys == Names(metrics, n)
    ensures n == 0 ==> Built(metrics, api, n) == map[]
  {
    if n > 0 {
      BuiltKeys(metrics, api, n - 1);
      assert Names(metrics, n) == Names(metrics, n - 1) + {metrics[n - 1].metricName};
    }
  }

  /** For duplicated names the later entry wins: a name maps to the answer of its last
      entry. */
  lemma {:induction false} BuiltLastWins(metrics: seq<Metric>, api: Api, n: nat, k: nat)
    requires n <= |metrics| && AllSucceed(metrics, api, n)
    requires k < n
    requires forall j :: k < j < n ==> metrics[j].metricName != metrics[k].metricName
    ensures metrics[k].metricName in Built(metrics, api, n)
    ensures Built(metrics, api, n)[metrics[k].metricName] == Answer(metrics, api, k).result.value
  {
    if k < n - 1 {
      BuiltLastWins(metrics, api, n - 1, k);
    }
  }
}

=== FILE: scrape_serialize.dfy ===
/** Rendering of queried samples in the Prometheus text exposition format
    (promql-to-scrape/internal/serialize.go). */
module ScrapeSerialize {
  import opened Wrappers
  import opened Text
  import opened Seqs
  import opened PromModel
  import opened ScrapeMetric

  // ---------------------------------------------------------------- escaping

  predicate NeedsEscape(c: char)
  {
    c == '\\' || c == '\n' || c == '"'
  }

  function EscapeChar(c: char): string
  {
    if c == '\\' then "\\\\"
    else if c == '\n' then "\\n"
    else if c == '"' then "\\\""
    else [c]
  }

  /** One left-to-right pass replacing a backslash by two, a newline by `\n` and a double
      quote by `\"`. */
  function Escape(v: string): (r: string)
    ensures |v| <= |r| <= 2 * |v|
    ensures NoNewline(r)
  {
    if v == [] then [] else EscapeChar(v[0]) + Escape(v[1..])
  }

  /** Reads an escaped label value back: a backslash followed by `n` is a newline, a
      backslash followed by any other character is that character. */
  function Unescape(s: string): string
  {
    if s == [] then []
    else if s[0] == '\\' && |s| >= 2 then [if s[1] == 'n' then '\n' else s[1]] + Unescape(s[2..])
    else [s[0]] + Unescape(s[1..])
  }

  lemma UnescapeEscapedChar(c: char, rest: string)
    ensures Unescape(EscapeChar(c) + rest) == [c] + Unescape(rest)
  {
    var s := EscapeChar(c) + rest;
    if NeedsEscape(c) {
      assert s[2..] == rest;
    } else {
      assert s[1..] == rest;
    }
  }

  /** Escaping loses nothing: the reader gets back the original label value. */
  lemma {:induction false} EscapeRoundTrip(v: string)
    ensures Unescape(Escape(v)) == v
  {
    if v != [] {
      UnescapeEscapedChar(v[0], Escape(v[1..]));
      EscapeRoundTrip(v[1..]);
      assert v == [v[0]] + v[1..];
    }
  }

  /** An escaped value never contains a raw newline, so it cannot break a sample line. */
  lemma {:induction false} EscapeNoNewline(v: string)
    ensures NoNewline(Escape(v))
  {
    if v != [] {
      EscapeNoNewline(v[1..]);
    }
  }

  /** A value with nothing to escape is written unchanged. */
  lemma {:induction false} EscapeIdentity(v: string)
    requires forall i :: 0 <= i < |v| ==> !NeedsEscape(v[i])
    ensures Escape(v) == v
  {
    if v != [] {
      EscapeIdentity(v[1..]);
      assert v == [v[0]] + v[1..];
    }
  }

  // ---------------------------------------------------------------- values

  /** How the exposition format reads the three special spellings; any other text is a
      number, or nothing. */
  function SpecialValue(s: string): Option<SampleValue>
  {
    if s == "NaN" then Some(NaN)
    else if s == "+Inf" then Some(PosInf)
    else if s == "-Inf" then Some(NegInf)
    else None
  }

  /** `writeFloat`: literal spellings for 1, 0, -1 and the three special values; every
      other finite value goes to the general shortest-representation formatter `formatG`
      (Go `strconv.AppendFloat(f, 'g', -1, 64)`), which this model leaves abstract. */
  function WriteFloat(v: SampleValue, formatG: real -> string): (r: string)
    ensures !v.Finite? ==> SpecialValue(r) == Some(v)
    ensures v.Finite? && v.x != 1.0 && v.x != 0.0 && v.x != -1.0 ==> r == formatG(v.x)
    ensures v.Finite? && (forall x :: SpecialValue(formatG(x)).None?) ==> SpecialValue(r).None?
  {
    match v
    case NaN => "NaN"
    case PosInf => "+Inf"
    case NegInf => "-Inf"
    case Finite(x) =>
      if x == 1.0 then "1"
      else if x == 0.0 then "0"
      else if x == -1.0 then "-1"
      else formatG(x)
  }

  /** The literal cases are a shortcut only: with a formatter that spells 1, 0 and -1 the
      way Go's shortest `g` format does, every finite value is written exactly as the
      general path would write it. */
  lemma WriteFloatAgreesWithGeneralPath(formatG: real -> string, x: real)
    requires formatG(1.0) == "1" && formatG(0.0) == "0" && formatG(-1.0) == "-1"
    ensures WriteFloat(Finite(x), formatG) == formatG(x)
  {
  }

  // ---------------------------------------------------------------- names

  /** `trimSuffixes`: removes each suffix of the list at most once, in list order. */
  function TrimSuffixes(s: string, suffixes: seq<string>): (r: string)
    ensures HasPrefix(s, r)
    decreases |suffixes|
  {
    if suffixes == [] then s
    else
      var t := TrimSuffix(s, suffixes[0]);
      var r := TrimSuffixes(t, suffixes[1..]);
      assert s[..|t|] == t;
      assert s[..|r|] == t[..|r|];
      r
  }

  const MetricSuffixes: seq<string> := ["_count", "_sum", "_bucket"]

  function TrimMetricSuffixes(name: string): string
  {
    TrimSuffixes(name, MetricSuffixes)
  }

  /** The trimmed name is the name with at most one `_bucket`, then at most one `_sum`,
      then at most one `_count` cut off its end, in that order. */
  lemma TrimMetricSuffixesShape(name: string) returns (b: string, m: string, c: string)
    ensures b in ["", "_bucket"] && m in ["", "_sum"] && c in ["", "_count"]
    ensures name == TrimMetricSuffixes(name) + b + m + c
  {
    var s1 := TrimSuffix(name, "_count");
    var s2 := TrimSuffix(s1, "_sum");
    var s3 := TrimSuffix(s2, "_bucket");
    assert TrimMetricSuffixes(name) == s3 by {
      assert MetricSuffixes[1..][1..][1..] == [];
    }
    c := if HasSuffix(name, "_count") then "_count" else "";
    m := if HasSuffix(s1, "_sum") then "_sum" else "";
    b := if HasSuffix(s2, "_bucket") then "_bucket" else "";
    assert name == s1 + c;
    assert s1 == s2 + m;
    assert s2 == s3 + b;
  }

  /** A name with none of the three suffixes is left unchanged. */
  lemma TrimMetricSuffixesIdentity(name: string)
    requires !HasSuffix(name, "_count") && !HasSuffix(name, "_sum") && !HasSuffix(name, "_bucket")
    ensures TrimMetricSuffixes(name) == name
  {
    assert MetricSuffixes[1..][1..][1..] == [];
  }

  // ---------------------------------------------------------------- labels

  /** The labels never written: the metric name, the rollup marker and the internal
      service-type label. */
  predicate Dropped(name: string)
  {
    name == "__name__" || name == "__rollup__" || name == "temporal_service_type"
  }

  function KeptTest(): Label -> bool
  {
    (l: Label) => !Dropped(l.name)
  }

  function Kept(ls: LabelSet): LabelSet
  {
    Filter(ls, KeptTest())
  }

  function LabelPair(l: Label): string
  {
    l.name + "=\"" + Escape(l.value) + "\""
  }

  /** The loop over the label map: each kept label is written after the current separator
      (`{` before the first one written, `,` afterwards), and a single `}` closes. */
  function WriteLabels(ls: LabelSet, sep: char): string
  {
    if ls == [] then "}"
    else if Dropped(ls[0].name) then WriteLabels(ls[1..], sep)
    else [sep] + LabelPair(ls[0]) + WriteLabels(ls[1..], ',')
  }

  /** The label block as the program writes it: an extra `{` goes first whenever the label
      map has exactly one entry, whether or not that entry is dropped. */
  function RenderLabels(ls: LabelSet): string
  {
    (if |ls| == 1 then "{" else "") + WriteLabels(ls, '{')
  }

  /** Reference: the label block of the exposition format, `{k="v",...}`. */
  function JoinPairs(ls: LabelSet): string
  {
    if ls == [] then ""
    else if |ls| == 1 then LabelPair(ls[0])
    else LabelPair(ls[0]) + "," + JoinPairs(ls[1..])
  }

  function ExpositionLabels(ls: LabelSet): string
  {
    "{" + JoinPairs(ls) + "}"
  }

  lemma {:induction false} WriteLabelsKept(ls: LabelSet, sep: char)
    ensures Kept(ls) == [] ==> WriteLabels(ls, sep) == "}"
    ensures Kept(ls) != [] ==> WriteLabels(ls, sep) == [sep] + JoinPairs(Kept(ls)) + "}"
  {
    if ls != [] {
      var l := ls[0];
      var rest := Kept(ls[1..]);
      if Dropped(l.name) {
        assert Kept(ls) == rest;
        WriteLabelsKept(ls[1..], sep);
      } else {
        assert Kept(ls) == [l] + rest;
        WriteLabelsKept(ls[1..], ',');
        if rest == [] {
          assert JoinPairs([l] + rest) == LabelPair(l);
        } else {
          KeptLabelStep(l, rest, sep, WriteLabels(ls[1..], ','));
        }
      }
    }
  }

  /** One kept label in front of a non-empty kept tail: its pair, then the comma-led tail. */
  lemma KeptLabelStep(l: Label, rest: LabelSet, sep: char, tail: string)
    requires rest != []
    requires tail == [','] + JoinPairs(rest) + "}"
    ensures [sep] + LabelPair(l) + tail == [sep] + JoinPairs([l] + rest) + "}"
  {
    assert ([l] + rest)[1..] == rest;
    assert JoinPairs([l] + rest) == LabelPair(l) + "," + JoinPairs(rest);
  }

  /** How the written label block compares with the exposition format: it agrees when at
      least one label is kept and the map does not have exactly one entry; a lone kept
      label gets a doubled opening brace, a lone dropped label gives `{}`, and a map of
      zero or several labels that are all dropped gives a bare `}`. Dropped labels never
      reach the output: the pairs written are exactly those of `Kept(ls)`, in order. */
  lemma RenderLabelsCases(ls: LabelSet)
    ensures Kept(ls) != [] && |ls| != 1 ==> RenderLabels(ls) == ExpositionLabels(Kept(ls))
    ensures Kept(ls) != [] && |ls| == 1 ==> RenderLabels(ls) == "{" + ExpositionLabels(Kept(ls))
    ensures Kept(ls) == [] && |ls| == 1 ==> RenderLabels(ls) == "{}"
    ensures Kept(ls) == [] && |ls| != 1 ==> RenderLabels(ls) == "}"
  {
    WriteLabelsKept(ls, '{');
  }

  lemma {:induction false} JoinPairsNoNewline(ls: LabelSet)
    requires forall i :: 0 <= i < |ls| ==> NoNewline(ls[i].name)
    ensures NoNewline(JoinPairs(ls))
  {
    if ls != [] {
      EscapeNoNewline(ls[0].value);
      JoinPairsNoNewline(ls[1..]);
    }
  }

  lemma RenderLabelsNoNewline(ls: LabelSet)
    requires forall i :: 0 <= i < |ls| ==> NoNewline(ls[i].name)
    ensures NoNewline(RenderLabels(ls))
  {
    WriteLabelsKept(ls, '{');
    JoinPairsNoNewline(Kept(ls));
  }

  // ---------------------------------------------------------------- lines

  /** The documentation URL every HELP line carries, written as site and page. */
  const HelpUrlSite: string := "https://docs.temporal.io/"
  const HelpUrlPage: string := "cloud/metrics#available-metrics"
  const HelpUrl: string := HelpUrlSite + HelpUrlPage

  /** `# HELP <trimmed name> <documentation URL>` */
  function HelpLine(name: string): string
  {
    "# HELP " + TrimMetricSuffixes(name) + " " + HelpUrl
  }

  /** `# TYPE <trimmed name> <type>`; the type is that of the untrimmed name. */
  function TypeLine(name: string): string
  {
    "# TYPE " + TrimMetricSuffixes(name) + " " + GetMetricType(name)
  }

  /** One sample: full metric name, label block, a space and the value; no timestamp. */
  function SampleLine(name: string, s: Sample, formatG: real -> string): string
  {
    name + RenderLabels(s.metric) + " " + WriteFloat(s.value, formatG)
  }

  function SampleLines(name: string, samples: seq<Sample>, formatG: real -> string): (r: seq<string>)
    ensures |r| == |samples|
    ensures forall j :: 0 <= j < |samples| ==> r[j] == SampleLine(name, samples[j], formatG)
  {
    if samples == [] then []
    else [SampleLine(name, samples[0], formatG)] + SampleLines(name, samples[1..], formatG)
  }

  /** The lines of one metric: its HELP line, its TYPE line, then one line per sample. */
  function MetricLines(name: string, samples: seq<Sample>, formatG: real -> string): seq<string>
  {
    [HelpLine(name), TypeLine(name)] + SampleLines(name, samples, formatG)
  }

  /** The data to render: metric name to its samples. */
  type Data = map<string, seq<Sample>>

  /** `order` is one iteration order of the data map: every key exactly once. */
  predicate Enumerates(order: seq<string>, data: Data)
  {
    && (forall i :: 0 <= i < |order| ==> order[i] in data)
    && (forall k :: k in data ==> k in order)
    && (forall i, j :: 0 <= i < j < |order| ==> order[i] != order[j])
  }

  function RenderedLines(order: seq<string>, data: Data, formatG: real -> string): seq<string>
    requires forall x :: x in order ==> x in data
  {
    if order == [] then []
    else
      var last := order[|order| - 1];
      RenderedLines(order[..|order| - 1], data, formatG) + MetricLines(last, data[last], formatG)
  }

  lemma RenderedLinesSnoc(order: seq<string>, name: string, data: Data, formatG: real -> string)
    requires forall x :: x in order ==> x in data
    requires name in data
    ensures RenderedLines(order + [name], data, formatG)
         == RenderedLines(order, data, formatG) + MetricLines(name, data[name], formatG)
  {
    assert (order + [name])[..|order|] == order;
  }

  lemma {:induction false} RenderedLinesAppend(a: seq<string>, b: seq<string>, data: Data, formatG: real -> string)
    requires forall x :: x in a ==> x in data
    requires forall x :: x in b ==> x in data
    ensures RenderedLines(a + b, data, formatG) == RenderedLines(a, data, formatG) + RenderedLines(b, data, formatG)
    decreases |b|
  {
    if b == [] {
      assert a + b == a;
    } else {
      var init, last := b[..|b| - 1], b[|b| - 1];
      assert b == init + [last];
      RenderedLinesAppend(a, init, data, formatG);
      RenderedLinesAppendStep(a, init, last, data, formatG);
      AppendAssoc(RenderedLines(a, data, formatG), RenderedLines(init, data, formatG), MetricLines(last, data[last], formatG));
    }
  }

  /** The inductive step of `RenderedLinesAppend`: one more name at the end of `b` adds
      its block at the end of both sides. */
  lemma RenderedLinesAppendStep(a: seq<string>, init: seq<string>, last: string, data: Data, formatG: real -> string)
    requires forall x :: x in a ==> x in data
    requires forall x :: x in init ==> x in data
    requires last in data
    ensures RenderedLines(a + (init + [last]), data, formatG)
         == RenderedLines(a + init, data, formatG) + MetricLines(last, data[last], formatG)
    ensures RenderedLines(init + [last], data, formatG)
         == RenderedLines(init, data, formatG) + MetricLines(last, data[last], formatG)
  {
    AppendAssoc(a, init, [last]);
    RenderedLinesSnoc(a + init, last, data, formatG);
    RenderedLinesSnoc(init, last, data, formatG);
  }

  /** The lines of the data visited in `order` are those of the names before position `i`,
      then the block of `order[i]`, then those of the names after it. */
  lemma RenderedLinesAround(order: seq<string>, i: nat, data: Data, formatG: real -> string)
    requires forall j :: 0 <= j < |order| ==> order[j] in data
    requires i < |order|
    ensures RenderedLines(order, data, formatG)
         == RenderedLines(order[..i], data, formatG) + MetricLines(order[i], data[order[i]], formatG)
          + RenderedLines(order[i + 1..], data, formatG)
  {
    var name := order[i];
    assert order == (order[..i] + [name]) + order[i + 1..];
    assert [name][..0] == [];
    assert RenderedLines([name], data, formatG) == MetricLines(name, data[name], formatG);
    RenderedLinesAppend(order[..i], [name], data, formatG);
    RenderedLinesAppend(order[..i] + [name], order[i + 1..], data, formatG);
  }

  /** Position `i` of `order` visits `k` and nowhere else does, and the lines are those of
      the names before it, then the block of `k`, then those of the names after it. */
  predicate BlockOfKeyAt(order: seq<string>, i: int, k: string, data: Data, formatG: real -> string)
    requires forall j :: 0 <= j < |order| ==> order[j] in data
  {
    && 0 <= i < |order| && order[i] == k
    && k !in order[..i] && k !in order[i + 1..]
    && RenderedLines(order, data, formatG)
       == RenderedLines(order[..i], data, formatG) + MetricLines(k, data[k], formatG)
        + RenderedLines(order[i + 1..], data, formatG)
  }

  /** Visiting every key of the data once renders one block per key: as many blocks as
      keys, and each key's HELP, TYPE and sample lines form one block, with the key visited
      nowhere before or after it. */
  lemma OneBlockPerKey(order: seq<string>, data: Data, formatG: real -> string)
    requires Enumerates(order, data)
    ensures |order| == |data|
    ensures forall k :: k in data ==> exists i :: BlockOfKeyAt(order, i, k, data, formatG)
  {
    DistinctElements(order);
    assert (set x | x in order) == data.Keys;
    forall k | k in data
      ensures exists i :: BlockOfKeyAt(order, i, k, data, formatG)
    {
      var i :| 0 <= i < |order| && order[i] == k;
      RenderedLinesAround(order, i, data, formatG);
      assert k !in order[..i] && k !in order[i + 1..] by {
        forall j | 0 <= j < |order| && j != i ensures order[j] != k {
          if j < i { assert order[j] != order[i]; } else { assert order[i] != order[j]; }
        }
      }
      assert BlockOfKeyAt(order, i, k, data, formatG);
    }
  }

  /** The rendered exposition text for the data visited in `order`. */
  function Rendered(order: seq<string>, data: Data, formatG: real -> string): string
    requires forall i :: 0 <= i < |order| ==> order[i] in data
  {
    JoinLines(RenderedLines(order, data, formatG))
  }

  /** The number of samples in the data visited in `order`. */
  function SampleCount(order: seq<string>, data: Data): nat
    requires forall i :: 0 <= i < |order| ==> order[i] in data
  {
    if order == [] then 0 else SampleCount(order[..|order| - 1], data) + |data[order[|order| - 1]]|
  }

  /** `SamplesToString`: the string builder loop over the data map. The text it builds is,
      line by line, the HELP line, the TYPE line and one line per sample of every metric,
      in visiting order. */
  method SamplesToString(order: seq<string>, data: Data, formatG: real -> string) returns (text: string)
    requires Enumerates(order, data)
    ensures text == JoinLines(RenderedLines(order, data, formatG))
  {
    text := "";
    var i := 0;
    while i < |order|
      invariant 0 <= i <= |order|
      invariant text == JoinLines(RenderedLines(order[..i], data, formatG))
    {
      var name := order[i];
      var block := WriteMetric(name, data[name], formatG);
      RenderedStep(order, i, data, formatG);
      text := text + block;
      i := i + 1;
    }
    assert order[..i] == order;
  }

  lemma RenderedStep(order: seq<string>, i: nat, data: Data, formatG: real -> string)
    requires forall i :: 0 <= i < |order| ==> order[i] in data
    requires i < |order|
    ensures JoinLines(RenderedLines(order[..i + 1], data, formatG))
         == JoinLines(RenderedLines(order[..i], data, formatG)) + JoinLines(MetricLines(order[i], data[order[i]], formatG))
  {
    assert order[..i + 1] == order[..i] + [order[i]];
    RenderedLinesSnoc(order[..i], order[i], data, formatG);
    JoinLinesAppend(RenderedLines(order[..i], data, formatG), MetricLines(order[i], data[order[i]], formatG));
  }

  /** The body of the outer loop for one metric: HELP and TYPE lines, then the inner loop
      over its samples. */
  method WriteMetric(name: string, samples: seq<Sample>, formatG: real -> string) returns (block: string)
    ensures block == JoinLines(MetricLines(name, samples, formatG))
  {
    block := HelpLine(name) + "\n" + TypeLine(name) + "\n";
    HeaderLines(name, formatG);
    assert samples[..0] == [];
    var j := 0;
    while j < |samples|
      invariant 0 <= j <= |samples|
      invariant block == JoinLines(MetricLines(name, samples[..j], formatG))
    {
      var s := samples[j];
      MetricLinesStep(name, samples, j, formatG);
      block := block + SampleLine(name, s, formatG) + "\n";
      j := j + 1;
    }
    assert samples[..j] == samples;
  }

  lemma HeaderLines(name: string, formatG: real -> string)
    ensures JoinLines(MetricLines(name, [], formatG)) == HelpLine(name) + "\n" + TypeLine(name) + "\n"
  {
    var h := HelpLine(name);
    var t := TypeLine(name);
    assert MetricLines(name, [], formatG) == [h, t];
    JoinTwoLines(h, t);
  }

  lemma JoinTwoLines(h: string, t: string)
    ensures JoinLines([h, t]) == h + "\n" + t + "\n"
  {
    JoinLinesSnoc([], h);
    assert [h, t] == [h] + [t];
    JoinLinesSnoc([h], t);
  }

  lemma MetricLinesStep(name: string, samples: seq<Sample>, j: nat, formatG: real -> string)
    requires j < |samples|
    ensures JoinLines(MetricLines(name, samples[..j + 1], formatG))
         == JoinLines(MetricLines(name, samples[..j], formatG))
          + SampleLine(name, samples[j], formatG) + "\n"
  {
    var s := samples[j];
    var header := [HelpLine(name), TypeLine(name)];
    var done := SampleLines(name, samples[..j], formatG);
    var line := SampleLine(name, s, formatG);
    TakeSnoc(samples, j);
    SampleLinesSnoc(name, samples[..j], s, formatG);
    assert SampleLines(name, samples[..j + 1], formatG) == done + [line];
    AppendAssoc(header, done, [line]);
    JoinLinesSnoc(header + done, line);
  }

  lemma SampleLinesSnoc(name: string, samples: seq<Sample>, s: Sample, formatG: real -> string)
    ensures SampleLines(name, samples + [s], formatG) == SampleLines(name, samples, formatG) + [SampleLine(name, s, formatG)]
  {
  }

  // ---------------------------------------------------------------- reading it back

  /** Every name the data can carry and the formatter's output are free of newlines. */
  ghost predicate SingleLineInputs(order: seq<string>, data: Data, formatG: real -> string)
    requires forall i :: 0 <= i < |order| ==> order[i] in data
  {
    && (forall x: real :: NoNewline(formatG(x)))
    && (forall i :: 0 <= i < |order| ==> NoNewline(order[i]))
    && (forall i, j, k :: 0 <= i < |order| && 0 <= j < |data[order[i]]| && 0 <= k < |data[order[i]][j].metric|
          ==> NoNewline(data[order[i]][j].metric[k].name))
  }

  lemma PrefixNoNewline(s: string, p: string)
    requires NoNewline(s) && HasPrefix(s, p)
    ensures NoNewline(p)
  {
    assert forall k :: 0 <= k < |p| ==> p[k] == s[k];
  }

  lemma ConcatNoNewline(a: string, b: string)
    requires NoNewline(a) && NoNewline(b)
    ensures NoNewline(a + b)
  {
  }

  lemma HelpUrlSiteNoNewline()
    ensures NoNewline(HelpUrlSite)
  {
  }

  lemma HelpUrlPageNoNewline()
    ensures NoNewline(HelpUrlPage)
  {
  }

  lemma HelpUrlNoNewline()
    ensures NoNewline(HelpUrl)
  {
    HelpUrlSiteNoNewline();
    HelpUrlPageNoNewline();
  }

  lemma TypeNamesNoNewline()
    ensures NoNewline(MetricTypeHistogram) && NoNewline(MetricTypeCounter) && NoNewline(MetricTypeGauge)
  {
  }

  lemma HeaderNoNewline(name: string)
    requires NoNewline(name)
    ensures NoNewline(HelpLine(name)) && NoNewline(TypeLine(name))
  {
    var trimmed := TrimMetricSuffixes(name);
    PrefixNoNewline(name, trimmed);
    HelpUrlNoNewline();
    TypeNamesNoNewline();
    ConcatNoNewline("# HELP " + trimmed, " " + HelpUrl);
    ConcatNoNewline("# TYPE " + trimmed, " " + GetMetricType(name));
  }

  lemma SampleLineNoNewline(name: string, s: Sample, formatG: real -> string)
    requires forall x: real :: NoNewline(formatG(x))
    requires NoNewline(name)
    requires forall k :: 0 <= k < |s.metric| ==> NoNewline(s.metric[k].name)
    ensures NoNewline(SampleLine(name, s, formatG))
  {
    RenderLabelsNoNewline(s.metric);
    assert NoNewline(WriteFloat(s.value, formatG));
  }

  /** Each sample line is single-line when the name, the label names and the formatter are. */
  lemma SampleLinesNoNewline(name: string, samples: seq<Sample>, formatG: real -> string)
    requires forall x: real :: NoNewline(formatG(x))
    requires NoNewline(name)
    requires forall j, k :: 0 <= j < |samples| && 0 <= k < |samples[j].metric| ==> NoNewline(samples[j].metric[k].name)
    ensures forall l :: l in SampleLines(name, samples, formatG) ==> NoNewline(l)
  {
    var lines := SampleLines(name, samples, formatG);
    forall j | 0 <= j < |samples|
      ensures NoNewline(lines[j])
    {
      SampleLineNoNewline(name, samples[j], formatG);
    }
  }

  /** The inputs of all but the last metric are as single-line as those of all of them. */
  lemma SingleLineInputsInit(order: seq<string>, data: Data, formatG: real -> string)
    requires order != []
    requires forall i :: 0 <= i < |order| ==> order[i] in data
    requires SingleLineInputs(order, data, formatG)
    ensures SingleLineInputs(order[..|order| - 1], data, formatG)
  {
    var init := order[..|order| - 1];
    forall i, j, k | 0 <= i < |init| && 0 <= j < |data[init[i]]| && 0 <= k < |data[init[i]][j].metric|
      ensures NoNewline(data[init[i]][j].metric[k].name)
    {
      assert init[i] == order[i];
    }
  }

  lemma {:induction false} RenderedLinesNoNewline(order: seq<string>, data: Data, formatG: real -> string)
    requires forall i :: 0 <= i < |order| ==> order[i] in data
    requires SingleLineInputs(order, data, formatG)
    ensures forall l :: l in RenderedLines(order, data, formatG) ==> NoNewline(l)
  {
    if order != [] {
      var init, name := order[..|order| - 1], order[|order| - 1];
      SingleLineInputsInit(order, data, formatG);
      RenderedLinesNoNewline(init, data, formatG);
      HeaderNoNewline(name);
      SampleLinesNoNewline(name, data[name], formatG);
      var lines := SampleLines(name, data[name], formatG);
      assert RenderedLines(order, data, formatG)
          == RenderedLines(init, data, formatG) + ([HelpLine(name), TypeLine(name)] + lines);
    }
  }

  lemma {:induction false} RenderedLinesCount(order: seq<string>, data: Data, formatG: real -> string)
    requires forall i :: 0 <= i < |order| ==> order[i] in data
    ensures |RenderedLines(order, data, formatG)| == 2 * |order| + SampleCount(order, data)
  {
    if order != [] {
      RenderedLinesCount(order[..|order| - 1], data, formatG);
    }
  }

  /** A reader that splits the rendered text at newlines gets back exactly the HELP, TYPE
      and sample lines: two lines per metric plus one per sample, and as many newline
      characters. This holds whenever names and formatted numbers are single-line;
      label values may hold newlines, since they are escaped. */
  lemma RenderedTextLines(order: seq<string>, data: Data, formatG: real -> string)
    requires forall i :: 0 <= i < |order| ==> order[i] in data
    requires SingleLineInputs(order, data, formatG)
    ensures SplitLines(Rendered(order, data, formatG)) == RenderedLines(order, data, formatG)
    ensures Count('\n', Rendered(order, data, formatG)) == 2 * |order| + SampleCount(order, data)
  {
    var lines := RenderedLines(order, data, formatG);
    RenderedLinesNoNewline(order, data, formatG);
    assert forall i :: 0 <= i < |lines| ==> NoNewline(lines[i]) by {
      forall i | 0 <= i < |lines| ensures NoNewline(lines[i]) {
        assert lines[i] in lines;
      }
    }
    SplitJoinLines(lines);
    JoinLinesCount(lines);
    RenderedLinesCount(order, data, formatG);
  }
}

=== FILE: scrape_server.dfy ===
/** The serving side of the pull-mode translator (promql-to-scrape/internal/server.go): a
    cache of the rendered text with the time of the last successful refresh, a `/metrics`
    handler that serves only fresh data, and a refresh loop. The mutex, the HTTP server and
    the ticker become a plain state record and a sequence of events. */
module ScrapeServer {
  import opened Wrappers
  import opened ScrapeSerialize

  /** Times are nanoseconds since the Unix epoch; durations are nanoseconds. */
  const Second: int := 1_000_000_000
  const Minute: int := 60 * Second

  /** Go's zero `time.Time` (January 1 of year 1, UTC), which the cache starts with. */
  const ZeroTime: int := -62_135_596_800 * Second

  /** `time.Duration` is an int64; `Time.Sub` saturates at its bounds. */
  const MaxDuration: int := 0x7FFF_FFFF_FFFF_FFFF
  const MinDuration: int := -0x8000_0000_0000_0000

  const StaleAfter: int := 5 * Minute
  const RefreshEvery: int := 59 * Second

  const StaleReason: string := "metrics queried are stale (more than 5 minutes old)"
  const WriteReason: string := "can't serve metrics"

  /** `time.Since(last)` at time `now`. */
  function Since(now: int, last: int): (d: int)
    ensures MinDuration <= d <= MaxDuration
    ensures MinDuration <= now - last <= MaxDuration ==> d == now - last
    ensures now - last > MaxDuration ==> d == MaxDuration
    ensures now - last < MinDuration ==> d == MinDuration
  {
    var d := now - last;
    if d > MaxDuration then MaxDuration else if d < MinDuration then MinDuration else d
  }

  datatype State = State(data: string, lastSuccess: int)

  const Initial: State := State("", ZeroTime)

  /** The answer to one GET of `/metrics`: the cached text, or status 500. */
  datatype Response = Served(body: string) | InternalError(reason: string)

  /** `metricsHandler` at time `now`; `writeOk` says whether writing the body to the client
      succeeded. The handler only reads the state. The result is the handler's own action, not
      the status the client sees: once the body write has begun, status 200 has already been
      sent, so a failed write's `InternalError` only reaches the log. */
  function Handle(s: State, now: int, writeOk: bool): (resp: Response)
    ensures resp.Served? <==> Since(now, s.lastSuccess) < StaleAfter && writeOk
    ensures resp.Served? ==> resp.body == s.data
    ensures Since(now, s.lastSuccess) >= StaleAfter ==> resp == InternalError(StaleReason)
  {
    if Since(now, s.lastSuccess) < StaleAfter then
      if writeOk then Served(s.data) else InternalError(WriteReason)
    else InternalError(StaleReason)
  }

  /** `queryMetrics` finishing at time `now` with the fan-out's result. On success `order`
      is the order in which the rendering visits the map. */
  function Refresh(s: State, queried: Result<Data, string>, order: seq<string>,
                   formatG: real -> string, now: int): (s': State)
    requires queried.Success? ==> Enumerates(order, queried.value)
    ensures queried.Failure? ==> s' == s
    ensures queried.Success? ==>
      s'.lastSuccess == now && s'.data == Rendered(order, queried.value, formatG)
  {
    if queried.Failure? then s
    else State(Rendered(order, queried.value, formatG), now)
  }

  /** After a successful refresh at `t`, a scrape at `now` no earlier than `t` gets the text
      just rendered exactly when less than five minutes have passed. */
  lemma FreshForFiveMinutes(s: State, data: Data, order: seq<string>, formatG: real -> string,
                            t: int, now: int)
    requires Enumerates(order, data)
    requires t <= now
    ensures var s' := Refresh(s, Success(data), order, formatG, t);
      && (Handle(s', now, true).Served? <==> now - t < StaleAfter)
      && (now - t < StaleAfter ==> Handle(s', now, true).body == Rendered(order, data, formatG))
  {
  }

  /** What happens to the server, in the order it happens. */
  datatype Event =
    | Scrape(now: int, writeOk: bool)
    | Refreshed(now: int, queried: Result<Data, string>, order: seq<string>)

  predicate WellFormed(e: Event)
  {
    e.Refreshed? && e.queried.Success? ==> Enumerates(e.order, e.queried.value)
  }

  function Step(s: State, e: Event, formatG: real -> string): State
    requires WellFormed(e)
  {
    match e
    case Scrape(_, _) => s
    case Refreshed(now, queried, order) => Refresh(s, queried, order, formatG, now)
  }

  /** Runs the events from state `s`; gives the final state and the response to every
      scrape, in order. */
  function Run(s: State, events: seq<Event>, formatG: real -> string): (State, seq<Response>)
    requires forall i :: 0 <= i < |events| ==> WellFormed(events[i])
    decreases |events|
  {
    if events == [] then (s, [])
    else
      var e := events[0];
      var rest := Run(Step(s, e, formatG), events[1..], formatG);
      if e.Scrape? then (rest.0, [Handle(s, e.now, e.writeOk)] + rest.1) else rest
  }

  predicate SuccessfulRefresh(e: Event)
  {
    e.Refreshed? && e.queried.Success?
  }

  /** Scraping and failed refreshes never change the state. */
  lemma {:induction false} RunWithoutSuccessKeepsState(s: State, events: seq<Event>, formatG: real -> string)
    requires forall i :: 0 <= i < |events| ==> WellFormed(events[i]) && !SuccessfulRefresh(events[i])
    ensures Run(s, events, formatG).0 == s
  {
    if events != [] {
      RunWithoutSuccessKeepsState(s, events[1..], formatG);
    }
  }

  /** From the initial state, with a clock past the Unix epoch, every scrape fails until the
      first successful refresh. */
  lemma {:induction false} ErrorsUntilFirstRefresh(events: seq<Event>, formatG: real -> string)
    requires forall i :: 0 <= i < |events| ==> WellFormed(events[i]) && !SuccessfulRefresh(events[i])
    requires forall i :: 0 <= i < |events| ==> events[i].now >= 0
    ensures forall i :: 0 <= i < |Run(Initial, events, formatG).1| ==>
      Run(Initial, events, formatG).1[i] == InternalError(StaleReason)
  {
    if events != [] {
      ErrorsUntilFirstRefresh(events[1..], formatG);
      var e := events[0];
      assert Step(Initial, e, formatG) == Initial;
      if e.Scrape? {
        assert Handle(Initial, e.now, e.writeOk) == InternalError(StaleReason);
      }
    }
  }

  // ---------------------------------------------------------------- schedule

  /** A tick of the 59-second ticker started at `t1`: a whole number of periods after it. */
  predicate IsTick(t1: int, t: int)
  {
    t > t1 && (t - t1) % RefreshEvery == 0
  }

  /** The first tick after `r` of the ticker started at `t1`. */
  function NextTick(t1: int, r: int): (t: int)
    ensures IsTick(t1, t) && t > r && t >= t1 + RefreshEvery
    ensures r < t1 ==> t == t1 + RefreshEvery
    ensures r >= t1 ==> t <= r + RefreshEvery
    ensures r >= t1 && (r - t1) % RefreshEvery == 0 ==> t == r + RefreshEvery
  {
    if r < t1 then t1 + RefreshEvery else t1 + ((r - t1) / RefreshEvery + 1) * RefreshEvery
  }

  function Max(a: int, b: int): int
  {
    if a >= b then a else b
  }

  /** When the loop starts its next call, given the ticker's start `t1` and the previous
      call's start `s` and duration `d`: at the first tick after `s`, or at `s + d` when that
      tick came while the call was running (the channel holds one tick and drops the
      rest). */
  function NextStart(t1: int, s: int, d: nat): int
  {
    Max(s + d, NextTick(t1, s))
  }

  /** The times `run` starts `queryMetrics`, when it starts at `t0` and the calls take
      `durations`. The first call runs at once; the ticker starts when it returns, at
      `t0 + durations[0]`. */
  function RefreshStarts(t0: int, durations: seq<nat>): (starts: seq<int>)
    ensures |starts| == |durations|
    ensures |starts| > 0 ==> starts[0] == t0
    ensures forall i :: 0 <= i < |starts| - 1 ==> starts[i + 1] == NextStart(t0 + durations[0], starts[i], durations[i])
    decreases |durations|
  {
    if |durations| <= 1 then (if durations == [] then [] else [t0])
    else
      var init := RefreshStarts(t0, durations[..|durations| - 1]);
      var last := init[|init| - 1];
      init + [NextStart(t0 + durations[0], last, durations[|init| - 1])]
  }

  /** The calls never overlap; each starts at most one period after the previous one
      returned; each after the first starts on a tick or right when the previous one
      returned, and no earlier than the ticker's first tick. */
  lemma ScheduleShape(t0: int, durations: seq<nat>)
    ensures var starts := RefreshStarts(t0, durations);
      && (forall i :: 0 <= i < |starts| - 1 ==> starts[i] + durations[i] <= starts[i + 1])
      && (forall i :: 0 <= i < |starts| - 1 ==> starts[i + 1] <= starts[i] + durations[i] + RefreshEvery)
      && (forall i :: 1 <= i < |starts| ==>
            starts[i] == starts[i - 1] + durations[i - 1] || IsTick(t0 + durations[0], starts[i]))
      && (forall i :: 1 <= i < |starts| ==> starts[i] >= t0 + durations[0] + RefreshEvery)
  {
    var starts := RefreshStarts(t0, durations);
    forall i | 0 <= i < |starts| - 1
      ensures starts[i] + durations[i] <= starts[i + 1] <= starts[i] + durations[i] + RefreshEvery
    {
      ShapeAt(t0, durations, i);
    }
    forall i | 1 <= i < |starts|
      ensures starts[i] == starts[i - 1] + durations[i - 1] || IsTick(t0 + durations[0], starts[i])
      ensures starts[i] >= t0 + durations[0] + RefreshEvery
    {
      ShapeAt(t0, durations, i - 1);
    }
  }

  /** `ScheduleShape` at one pair of consecutive calls. */
  lemma ShapeAt(t0: int, durations: seq<nat>, i: nat)
    requires i < |durations| - 1
    ensures var starts := RefreshStarts(t0, durations);
      && starts[i] + durations[i] <= starts[i + 1] <= starts[i] + durations[i] + RefreshEvery
      && (starts[i + 1] == starts[i] + durations[i] || IsTick(t0 + durations[0], starts[i + 1]))
      && starts[i + 1] >= t0 + durations[0] + RefreshEvery
  {
    var starts := RefreshStarts(t0, durations);
    var t1 := t0 + durations[0];
    ScheduleAfterStart(t0, durations, i);
    assert starts[i + 1] == NextStart(t1, starts[i], durations[i]);
    StepShape(t1, starts[i], durations[i]);
  }

  /** One step of the schedule from a start no earlier than the first call's return minus
      its own duration: the next start is between this call's return and one period
      later, on a tick or at the return, and not before the ticker's first tick. */
  lemma StepShape(t1: int, s: int, d: nat)
    requires t1 <= s + d
    ensures s + d <= NextStart(t1, s, d) <= s + d + RefreshEvery
    ensures NextStart(t1, s, d) == s + d || IsTick(t1, NextStart(t1, s, d))
    ensures NextStart(t1, s, d) >= t1 + RefreshEvery
  {
  }

  /** No call starts before `t0`, and every call but the first starts on or after `t1`. */
  lemma {:induction false} ScheduleAfterStart(t0: int, durations: seq<nat>, i: nat)
    requires i < |durations|
    ensures RefreshStarts(t0, durations)[i] >= t0
    ensures i >= 1 ==> RefreshStarts(t0, durations)[i] >= t0 + durations[0] + RefreshEvery
  {
    if i >= 1 {
      ScheduleAfterStart(t0, durations, i - 1);
    }
  }

  /** While every call after the first returns within a period, the calls follow the
      ticker exactly: call `i` starts `i` periods after the first call returned. */
  lemma {:induction false} OnScheduleWhenQuick(t0: int, durations: seq<nat>, i: nat)
    requires 1 <= i < |durations|
    requires forall k :: 1 <= k < i ==> durations[k] <= RefreshEvery
    ensures RefreshStarts(t0, durations)[i] == t0 + durations[0] + i * RefreshEvery
  {
    var starts := RefreshStarts(t0, durations);
    var t1 := t0 + durations[0];
    if i >= 2 {
      OnScheduleWhenQuick(t0, durations, i - 1);
      NextTickOfTick(t1, i - 1);
      assert starts[i] == NextStart(t1, starts[i - 1], durations[i - 1]);
    } else {
      assert starts[1] == NextStart(t1, t0, durations[0]);
    }
  }

  /** The tick after the `k`-th tick is the `k + 1`-th. */
  lemma NextTickOfTick(t1: int, k: nat)
    ensures NextTick(t1, t1 + k * RefreshEvery) == t1 + (k + 1) * RefreshEvery
  {
    assert (k * RefreshEvery) / RefreshEvery == k;
  }

  /** A call that takes a period or longer is followed at once by the next one: the tick
      that came while it ran is waiting, and the others were dropped. */
  lemma SlowRefreshRunsNextAtOnce(t0: int, durations: seq<nat>, i: nat)
    requires 1 <= i < |durations| - 1 && durations[i] >= RefreshEvery
    ensures RefreshStarts(t0, durations)[i + 1] == RefreshStarts(t0, durations)[i] + durations[i]
  {
    ScheduleAfterStart(t0, durations, i);
  }
}

=== FILE: script_dd_ts.dfy ===
/** The TypeScript Datadog harvester (promql-to-dd-ts/promql-to-dd.ts): the two conversions
    of a range result into Datadog series and the one submission per cycle. Prometheus and
    Datadog are parameters. */
module DdTsScript {
  import opened Wrappers
  import opened Text
  import opened Seqs
  import opened PromModel
  import opened TsCommon

  const TagValueLimit: nat := 200

  /** Datadog's intake types as the script numbers them. */
  const RateType: nat := 2
  const GaugeType: nat := 3

  datatype Point = Point(timestamp: real, value: SampleValue)

  /** A `v2.MetricSeries`; `interval` is absent from gauges. */
  datatype DdSeries = DdSeries(metric: string, intake: nat, interval: Option<nat>, points: seq<Point>, tags: seq<JsString>)

  /** Every sample becomes a point, its value read by `parseFloat`: a sample that is not a
      finite number (`NaN`, `+Inf`, `-Inf`) becomes a NaN point. */
  function Points(values: seq<JsonSample>): (r: seq<Point>)
    ensures |r| == |values|
    ensures forall k :: 0 <= k < |values| ==> r[k].timestamp == values[k].timestamp
    ensures forall k :: 0 <= k < |values| ==> (r[k].value.NaN? <==> !values[k].value.Finite?)
    ensures forall k :: 0 <= k < |values| && values[k].value.Finite? ==> r[k].value == values[k].value
  {
    seq(|values|, k requires 0 <= k < |values| => Point(values[k].timestamp, ParseFloat(values[k].value)))
  }

  /** `${key}:${value.substring(0, 200)}`: the key, a colon and the value cut to its first
      200 UTF-16 code units; the cut can fall inside a surrogate pair. */
  function Tag(l: Label): JsString
  {
    Utf16(l.name + ":") + Substring(Utf16(l.value), TagValueLimit)
  }

  /** The tags of a label set: every label but `__rollup__`, in order. */
  function Tags(ls: LabelSet): (r: seq<JsString>)
    ensures |r| == |Filter(ls, NotRollup())|
    ensures forall k :: 0 <= k < |r| ==> r[k] == Tag(Filter(ls, NotRollup())[k])
  {
    var kept := Filter(ls, NotRollup());
    seq(|kept|, k requires 0 <= k < |kept| => Tag(kept[k]))
  }

  function RateSeries(prefix: string, name: string, r: RangeResult): DdSeries
  {
    DdSeries(CountSeriesName(prefix, name), RateType, Some(StepSeconds), Points(r.values), Tags(r.metric))
  }

  function GaugeSeries(prefix: string, name: string, percent: nat, r: RangeResult): DdSeries
  {
    DdSeries(GaugeSeriesName(prefix, name, percent), GaugeType, None, Points(r.values), Tags(r.metric))
  }

  /** `convertPrometheusCountToDatadogRateSeries`: one series per result entry, in order. */
  function ConvertCount(prefix: string, name: string, results: seq<RangeResult>): (r: seq<DdSeries>)
    ensures |r| == |results|
    ensures forall k :: 0 <= k < |results| ==>
      && r[k].metric == CountSeriesName(prefix, name)
      && r[k].intake == RateType && r[k].interval == Some(StepSeconds)
      && |r[k].points| == |results[k].values|
      && r[k].tags == Tags(results[k].metric)
  {
    seq(|results|, k requires 0 <= k < |results| => RateSeries(prefix, name, results[k]))
  }

  /** `convertPrometheusHistogramToDatadogGuageSeries`: one series per result entry. */
  function ConvertHistogram(prefix: string, name: string, percent: nat, results: seq<RangeResult>): (r: seq<DdSeries>)
    ensures |r| == |results|
    ensures forall k :: 0 <= k < |results| ==>
      && r[k].metric == GaugeSeriesName(prefix, name, percent)
      && r[k].intake == GaugeType && r[k].interval.None?
      && |r[k].points| == |results[k].values|
      && r[k].tags == Tags(results[k].metric)
  {
    seq(|results|, k requires 0 <= k < |results| => GaugeSeries(prefix, name, percent, results[k]))
  }

  /** The tags are exactly one per label other than `__rollup__`. */
  lemma TagsExact(ls: LabelSet, l: Label)
    requires l in ls
    ensures l.name != RollupLabel ==> Tag(l) in Tags(ls)
    ensures forall k :: 0 <= k < |Tags(ls)| ==> Filter(ls, NotRollup())[k].name != RollupLabel
  {
    if l.name != RollupLabel {
      var kept := Filter(ls, NotRollup());
      var i :| 0 <= i < |ls| && ls[i] == l;
      assert NotRollup()(ls[i]);
      var k :| 0 <= k < |kept| && kept[k] == l;
      assert Tags(ls)[k] == Tag(l);
    }
  }

  /** Only the value is cut, and by code units: a value of at most 200 code units is kept
      whole, one in the Basic Multilingual Plane loses everything after its 200th character,
      and one of characters above that plane keeps only 100 characters. */
  lemma TagValueBound(l: Label)
    ensures Tag(l)[..|Utf16(l.name + ":")|] == Utf16(l.name + ":")
    ensures |Tag(l)| <= |Utf16(l.name)| + 1 + TagValueLimit
    ensures |Utf16(l.value)| <= TagValueLimit ==> Tag(l) == Utf16(l.name + ":" + l.value)
    ensures InBmp(l.value) ==> Tag(l) == Utf16(l.name + ":" + Take(l.value, TagValueLimit))
    ensures AboveBmp(l.value) ==> Tag(l) == Utf16(l.name + ":" + Take(l.value, TagValueLimit / 2))
  {
    var key := l.name + ":";
    Utf16Append(l.name, ":");
    assert Utf16(":") == [':' as int] + Utf16([]);
    Utf16Append(key, l.value);
    CutByPlane(l.value, TagValueLimit);
    CutByPlane(l.value, TagValueLimit / 2);
    Utf16Append(key, Take(l.value, TagValueLimit));
    Utf16Append(key, Take(l.value, TagValueLimit / 2));
  }

  // ---------------------------------------------------------------- cycle

  /** The Prometheus range API: the entries `data.result` holds for a query. */
  type Query = string -> seq<RangeResult>

  /** `countSeries`: the counts in name order, flattened. */
  function CountSeries(prefix: string, names: seq<string>, query: Query): seq<DdSeries>
  {
    if names == [] then []
    else ConvertCount(prefix, names[0], query(CountPromQL(names[0]))) + CountSeries(prefix, names[1..], query)
  }

  /** The gauges of one histogram: one query per quantile, in quantile order. */
  function QuantileSeries(prefix: string, name: string, percents: seq<nat>, query: Query): seq<DdSeries>
  {
    if percents == [] then []
    else
      ConvertHistogram(prefix, name, percents[0], query(HistogramPromQL(name, percents[0])))
        + QuantileSeries(prefix, name, percents[1..], query)
  }

  /** `guageSeries`: name-major, then quantile, flattened twice. */
  function GaugeSeriesOfCycle(prefix: string, names: seq<string>, query: Query): seq<DdSeries>
  {
    if names == [] then []
    else QuantileSeries(prefix, names[0], Percents, query) + GaugeSeriesOfCycle(prefix, names[1..], query)
  }

  /** The single body a cycle submits: the count series, then the gauge series. */
  function CycleBody(prefix: string, names: MetricNames, query: Query): seq<DdSeries>
  {
    CountSeries(prefix, names.countMetricNames, query) + GaugeSeriesOfCycle(prefix, names.histogramMetricNames, query)
  }

  lemma {:induction false} CountSeriesRates(prefix: string, names: seq<string>, query: Query)
    ensures forall s :: s in CountSeries(prefix, names, query) ==> s.intake == RateType && s.interval == Some(StepSeconds)
  {
    if names != [] {
      CountSeriesRates(prefix, names[1..], query);
    }
  }

  lemma {:induction false} QuantileSeriesGauges(prefix: string, name: string, percents: seq<nat>, query: Query)
    ensures forall s :: s in QuantileSeries(prefix, name, percents, query) ==> s.intake == GaugeType && s.interval.None?
  {
    if percents != [] {
      QuantileSeriesGauges(prefix, name, percents[1..], query);
    }
  }

  lemma {:induction false} GaugeSeriesGauges(prefix: string, names: seq<string>, query: Query)
    ensures forall s :: s in GaugeSeriesOfCycle(prefix, names, query) ==> s.intake == GaugeType && s.interval.None?
  {
    if names != [] {
      QuantileSeriesGauges(prefix, names[0], Percents, query);
      GaugeSeriesGauges(prefix, names[1..], query);
    }
  }

  /** The body is the count part, all rates with the step as interval, followed by the
      gauge part, all gauges without interval. */
  lemma CycleBodyTypes(prefix: string, names: MetricNames, query: Query)
    ensures var c := CountSeries(prefix, names.countMetricNames, query);
      var body := CycleBody(prefix, names, query);
      && (forall i :: 0 <= i < |c| ==> body[i].intake == RateType)
      && (forall i :: |c| <= i < |body| ==> body[i].intake == GaugeType)
  {
    var c := CountSeries(prefix, names.countMetricNames, query);
    var g := GaugeSeriesOfCycle(prefix, names.histogramMetricNames, query);
    CountSeriesRates(prefix, names.countMetricNames, query);
    GaugeSeriesGauges(prefix, names.histogramMetricNames, query);
    ConcatParts(c, g, (s: DdSeries) => s.intake == RateType, (s: DdSeries) => s.intake == GaugeType);
  }
}

=== FILE: script_nr_ts.dfy ===
/** The TypeScript New Relic harvester (promql-to-nr-ts/promql-to-nr.ts): one New Relic
    metric per sample, counts unfiltered and gauges without NaN, all in one payload per
    cycle. The name filter, query texts and window are those of `TsCommon`. */
module NrTsScript {
  import opened Wrappers
  import opened Text
  import opened Seqs
  import opened PromModel
  import opened TsCommon

  datatype NrType = Count | Gauge

  /** A `NewRelicMetric`; only counts carry `interval.ms`. */
  datatype NrMetric = NrMetric(name: string, kind: NrType, value: SampleValue, timestamp: real,
                               intervalMs: Option<nat>, attributes: LabelSet)

  /** The one element of the posted array. */
  datatype Payload = Payload(metrics: seq<NrMetric>)

  /** `_.omit(metric, "__rollup__")`: every other label, unchanged and in order. */
  function Attributes(ls: LabelSet): LabelSet
  {
    Filter(ls, NotRollup())
  }

  /** A count metric of one sample; the value is read by `parseFloat`. */
  function CountMetric(prefix: string, name: string, r: RangeResult, v: JsonSample): NrMetric
  {
    NrMetric(CountSeriesName(prefix, name), Count, ParseFloat(v.value), v.timestamp, Some(StepSeconds * 1000), Attributes(r.metric))
  }

  /** A gauge metric of one sample; the value is read by `parseFloat`. */
  function GaugeMetric(prefix: string, name: string, percent: nat, r: RangeResult, v: JsonSample): NrMetric
  {
    NrMetric(GaugeSeriesName(prefix, name, percent), Gauge, ParseFloat(v.value), v.timestamp, None, Attributes(r.metric))
  }

  /** `v[1] !== "NaN"`: the sample's text is not `NaN`. The test is on the text, so `+Inf`
      and `-Inf` pass it. */
  function NotNaN(): JsonSample -> bool
  {
    (v: JsonSample) => !v.value.NaN?
  }

  /** The count metrics of one result entry: one per sample; a sample that is not a finite
      number gives a NaN count. */
  function CountMetricsOf(prefix: string, name: string, r: RangeResult): (ms: seq<NrMetric>)
    ensures |ms| == |r.values|
    ensures forall k :: 0 <= k < |ms| ==> ms[k] == CountMetric(prefix, name, r, r.values[k])
    ensures forall k :: 0 <= k < |ms| ==> (ms[k].value.NaN? <==> !r.values[k].value.Finite?)
  {
    seq(|r.values|, k requires 0 <= k < |r.values| => CountMetric(prefix, name, r, r.values[k]))
  }

  /** The gauge metrics of one result entry: one per sample whose text is not `NaN`, in
      order; such a sample is a finite number or an infinity, and an infinity gives a NaN
      gauge. */
  function GaugeMetricsOf(prefix: string, name: string, percent: nat, r: RangeResult): (ms: seq<NrMetric>)
    ensures |ms| == |Filter(r.values, NotNaN())|
    ensures forall k :: 0 <= k < |ms| ==> ms[k] == GaugeMetric(prefix, name, percent, r, Filter(r.values, NotNaN())[k])
    ensures forall k :: 0 <= k < |ms| ==>
      && !Filter(r.values, NotNaN())[k].value.NaN?
      && (ms[k].value.NaN? <==> !Filter(r.values, NotNaN())[k].value.Finite?)
  {
    var kept := Filter(r.values, NotNaN());
    seq(|kept|, k requires 0 <= k < |kept| => GaugeMetric(prefix, name, percent, r, kept[k]))
  }

  /** `convertPrometheusCountToNewRelicCountMetrics`, flattened: one count of 60000 ms under
      the count's name for every sample of every entry. */
  function ConvertCount(prefix: string, name: string, results: seq<RangeResult>): (ms: seq<NrMetric>)
    ensures |ms| == SampleTotal(results)
    ensures forall m :: m in ms ==>
      m.kind == Count && m.name == CountSeriesName(prefix, name) && m.intervalMs == Some(60000)
  {
    if results == [] then []
    else CountMetricsOf(prefix, name, results[0]) + ConvertCount(prefix, name, results[1..])
  }

  /** `convertPrometheusHistogramToNewRelicGaugeMetrics`, flattened: gauges under the
      quantile's name, with no interval, none of them infinite. */
  function ConvertHistogram(prefix: string, name: string, percent: nat, results: seq<RangeResult>): (ms: seq<NrMetric>)
    ensures forall m :: m in ms ==>
      && m.kind == Gauge && m.name == GaugeSeriesName(prefix, name, percent) && m.intervalMs.None?
      && !m.value.PosInf? && !m.value.NegInf?
  {
    if results == [] then []
    else GaugeMetricsOf(prefix, name, percent, results[0]) + ConvertHistogram(prefix, name, percent, results[1..])
  }

  /** The number of samples of the entries. */
  function SampleTotal(results: seq<RangeResult>): nat
  {
    if results == [] then 0 else |results[0].values| + SampleTotal(results[1..])
  }

  /** Counts are never filtered: one metric per sample of every entry. */
  lemma {:induction false} ConvertCountSize(prefix: string, name: string, results: seq<RangeResult>)
    ensures |ConvertCount(prefix, name, results)| == SampleTotal(results)
  {
    if results != [] {
      ConvertCountSize(prefix, name, results[1..]);
    }
  }

  /** No sample of the entries is an infinity. */
  predicate NoInfinity(results: seq<RangeResult>)
  {
    forall r :: r in results ==> forall v :: v in r.values ==> !v.value.PosInf? && !v.value.NegInf?
  }

  /** Every gauge is a gauge of the histogram's name, and never an infinity; it is NaN only
      when the entries hold an infinity, since samples whose text is `NaN` are dropped. */
  lemma {:induction false} ConvertHistogramNoNaN(prefix: string, name: string, percent: nat, results: seq<RangeResult>)
    ensures forall m :: m in ConvertHistogram(prefix, name, percent, results) ==>
      && m.kind == Gauge && m.name == GaugeSeriesName(prefix, name, percent) && m.intervalMs.None?
      && !m.value.PosInf? && !m.value.NegInf?
    ensures NoInfinity(results) ==> forall m :: m in ConvertHistogram(prefix, name, percent, results) ==> !m.value.NaN?
  {
    if results != [] {
      ConvertHistogramNoNaN(prefix, name, percent, results[1..]);
      assert NoInfinity(results) ==> NoInfinity(results[1..]) by {
        forall r | r in results[1..] ensures r in results {
        }
      }
      var head := GaugeMetricsOf(prefix, name, percent, results[0]);
      var kept := Filter(results[0].values, NotNaN());
      forall m | m in head
        ensures m.kind == Gauge && !m.value.PosInf? && !m.value.NegInf?
        ensures NoInfinity(results) ==> !m.value.NaN?
      {
        var k :| 0 <= k < |head| && head[k] == m;
        if NoInfinity(results) {
          assert kept[k] in results[0].values;
          assert results[0] in results;
        }
      }
    }
  }

  /** The discrepancy with the comment that NaN is filtered out: a sample `+Inf` or `-Inf`
      passes the text test and is posted as a NaN gauge. */
  lemma InfinityBecomesNaNGauge(prefix: string, name: string, percent: nat, r: RangeResult, k: nat)
    requires k < |r.values| && (r.values[k].value.PosInf? || r.values[k].value.NegInf?)
    ensures exists m :: m in GaugeMetricsOf(prefix, name, percent, r) && m.value.NaN? && m.timestamp == r.values[k].timestamp
  {
    var ms := GaugeMetricsOf(prefix, name, percent, r);
    var kept := Filter(r.values, NotNaN());
    var v := r.values[k];
    assert NotNaN()(v);
    assert v in kept;
    var j :| 0 <= j < |kept| && kept[j] == v;
    assert ms[j] in ms;
  }

  /** Every count metric is a count of 60000 ms under the count's name. */
  lemma {:induction false} ConvertCountShape(prefix: string, name: string, results: seq<RangeResult>)
    ensures forall m :: m in ConvertCount(prefix, name, results) ==>
      m.kind == Count && m.name == CountSeriesName(prefix, name) && m.intervalMs == Some(60000)
  {
    if results != [] {
      ConvertCountShape(prefix, name, results[1..]);
    }
  }

  /** The attributes are the labels without `__rollup__`: a label is kept exactly when it
      is not the rollup label. */
  lemma AttributesExact(ls: LabelSet, l: Label)
    ensures l in Attributes(ls) <==> l in ls && l.name != RollupLabel
  {
    if l in ls && l.name != RollupLabel {
      var i :| 0 <= i < |ls| && ls[i] == l;
      assert NotRollup()(ls[i]);
    }
  }

  // ---------------------------------------------------------------- cycle

  type Query = string -> seq<RangeResult>

  function CountMetrics(prefix: string, names: seq<string>, query: Query): seq<NrMetric>
  {
    if names == [] then []
    else ConvertCount(prefix, names[0], query(CountPromQL(names[0]))) + CountMetrics(prefix, names[1..], query)
  }

  function QuantileMetrics(prefix: string, name: string, percents: seq<nat>, query: Query): seq<NrMetric>
  {
    if percents == [] then []
    else
      ConvertHistogram(prefix, name, percents[0], query(HistogramPromQL(name, percents[0])))
        + QuantileMetrics(prefix, name, percents[1..], query)
  }

  function GaugeMetrics(prefix: string, names: seq<string>, query: Query): seq<NrMetric>
  {
    if names == [] then []
    else QuantileMetrics(prefix, names[0], Percents, query) + GaugeMetrics(prefix, names[1..], query)
  }

  /** The body posted to `/metric/v1`: one payload holding the counts, then the gauges. */
  function Body(prefix: string, names: MetricNames, query: Query): (b: seq<Payload>)
    ensures |b| == 1
  {
    [Payload(CountMetrics(prefix, names.countMetricNames, query) + GaugeMetrics(prefix, names.histogramMetricNames, query))]
  }

  lemma {:induction false} CountMetricsCounts(prefix: string, names: seq<string>, query: Query)
    ensures forall m :: m in CountMetrics(prefix, names, query) ==> m.kind == Count
  {
    if names != [] {
      ConvertCountShape(prefix, names[0], query(CountPromQL(names[0])));
      CountMetricsCounts(prefix, names[1..], query);
    }
  }

  /** No quantile query of the histogram `name`, for the given percentages, is answered
      with an infinite sample. */
  predicate QuantilesFinite(name: string, percents: seq<nat>, query: Query)
  {
    forall p :: p in percents ==> NoInfinity(query(HistogramPromQL(name, p)))
  }

  /** No quantile query of the listed histograms is answered with an infinite sample; the
      count queries are not constrained. */
  predicate HistogramAnswersFinite(names: seq<string>, query: Query)
  {
    forall n :: n in names ==> QuantilesFinite(n, Percents, query)
  }

  lemma {:induction false} QuantileMetricsGauges(prefix: string, name: string, percents: seq<nat>, query: Query)
    ensures forall m :: m in QuantileMetrics(prefix, name, percents, query) ==> m.kind == Gauge
    ensures QuantilesFinite(name, percents, query) ==>
      forall m :: m in QuantileMetrics(prefix, name, percents, query) ==> !m.value.NaN?
  {
    if percents != [] {
      ConvertHistogramNoNaN(prefix, name, percents[0], query(HistogramPromQL(name, percents[0])));
      QuantileMetricsGauges(prefix, name, percents[1..], query);
      if QuantilesFinite(name, percents, query) {
        assert percents[0] in percents;
        assert QuantilesFinite(name, percents[1..], query) by {
          forall p | p in percents[1..] ensures p in percents { }
        }
      }
    }
  }

  lemma {:induction false} GaugeMetricsGauges(prefix: string, names: seq<string>, query: Query)
    ensures forall m :: m in GaugeMetrics(prefix, names, query) ==> m.kind == Gauge
    ensures HistogramAnswersFinite(names, query) ==> forall m :: m in GaugeMetrics(prefix, names, query) ==> !m.value.NaN?
  {
    if names != [] {
      QuantileMetricsGauges(prefix, names[0], Percents, query);
      GaugeMetricsGauges(prefix, names[1..], query);
      if HistogramAnswersFinite(names, query) {
        assert names[0] in names;
        assert HistogramAnswersFinite(names[1..], query) by {
          forall n | n in names[1..] ensures n in names { }
        }
      }
    }
  }

  /** In the payload every count precedes every gauge; no gauge is NaN unless Prometheus
      answered a quantile query of a listed histogram with an infinite sample. What the
      count queries answer does not matter. */
  lemma BodyOrder(prefix: string, names: MetricNames, query: Query)
    ensures var ms := Body(prefix, names, query)[0].metrics;
      && (forall i, j :: 0 <= i < j < |ms| && ms[i].kind == Gauge ==> ms[j].kind == Gauge)
      && (HistogramAnswersFinite(names.histogramMetricNames, query) ==>
            forall i :: 0 <= i < |ms| && ms[i].kind == Gauge ==> !ms[i].value.NaN?)
  {
    var c := CountMetrics(prefix, names.countMetricNames, query);
    var g := GaugeMetrics(prefix, names.histogramMetricNames, query);
    var finite := HistogramAnswersFinite(names.histogramMetricNames, query);
    CountMetricsCounts(prefix, names.countMetricNames, query);
    GaugeMetricsGauges(prefix, names.histogramMetricNames, query);
    ConcatParts(c, g, (m: NrMetric) => m.kind == Count, (m: NrMetric) => m.kind == Gauge && (finite ==> !m.value.NaN?));
  }

  /** Every gauge of one entry is among the gauges of the entries. */
  lemma {:induction false} ConvertHistogramHasEntry(prefix: string, name: string, percent: nat, results: seq<RangeResult>, i: nat)
    requires i < |results|
    ensures forall m :: m in GaugeMetricsOf(prefix, name, percent, results[i]) ==> m in ConvertHistogram(prefix, name, percent, results)
  {
    if i > 0 {
      ConvertHistogramHasEntry(prefix, name, percent, results[1..], i - 1);
    }
  }

  /** Every gauge of one quantile query is in the metrics of the histogram. */
  lemma {:induction false} QuantileMetricsHasQuery(prefix: string, name: string, percents: seq<nat>, query: Query, p: nat)
    requires p in percents
    ensures forall m :: m in ConvertHistogram(prefix, name, p, query(HistogramPromQL(name, p))) ==>
      m in QuantileMetrics(prefix, name, percents, query)
  {
    if percents[0] != p {
      QuantileMetricsHasQuery(prefix, name, percents[1..], query, p);
    }
  }

  /** Every quantile metric of a listed histogram is among the gauges. */
  lemma {:induction false} GaugeMetricsHasName(prefix: string, names: seq<string>, query: Query, n: string)
    requires n in names
    ensures forall m :: m in QuantileMetrics(prefix, n, Percents, query) ==> m in GaugeMetrics(prefix, names, query)
  {
    if names[0] != n {
      GaugeMetricsHasName(prefix, names[1..], query, n);
    }
  }

  /** The converse of the NaN half of `BodyOrder`: an infinite sample in the answer to a
      quantile query of a listed histogram is posted as a NaN gauge. */
  lemma InfiniteAnswerGivesNaNGauge(prefix: string, names: MetricNames, query: Query, n: string, p: nat, i: nat, k: nat)
    requires n in names.histogramMetricNames && p in Percents
    requires i < |query(HistogramPromQL(n, p))| && k < |query(HistogramPromQL(n, p))[i].values|
    requires query(HistogramPromQL(n, p))[i].values[k].value.PosInf? || query(HistogramPromQL(n, p))[i].values[k].value.NegInf?
    ensures exists m :: m in Body(prefix, names, query)[0].metrics && m.kind == Gauge && m.value.NaN?
  {
    var results := query(HistogramPromQL(n, p));
    InfinityBecomesNaNGauge(prefix, n, p, results[i], k);
    var m :| m in GaugeMetricsOf(prefix, n, p, results[i]) && m.value.NaN? && m.timestamp == results[i].values[k].timestamp;
    ConvertHistogramHasEntry(prefix, n, p, results, i);
    QuantileMetricsHasQuery(prefix, n, Percents, query, p);
    GaugeMetricsHasName(prefix, names.histogramMetricNames, query, n);
    var c := CountMetrics(prefix, names.countMetricNames, query);
    var g := GaugeMetrics(prefix, names.histogramMetricNames, query);
    assert m in g;
    assert m in c + g;
    var kept := Filter(results[i].values, NotNaN());
    var j :| 0 <= j < |kept| && GaugeMetricsOf(prefix, n, p, results[i])[j] == m;
    assert m.kind == Gauge;
  }
}

=== FILE: script_python.dfy ===
/** The Python harvester (cloud/observability/datadog/promql-to-dd.py): name classification,
    query texts, the two series builders, the batching of submissions and the moving query
    window. Prometheus and Datadog are parameters; the retry profile around every call is not
    modelled (a call that keeps failing ends the program). */
module PythonScript {
  import opened Wrappers
  import opened Text
  import opened Seqs
  import opened PromModel

  const InitialWindowMinutes: nat := 240
  const WindowMinutes: nat := 10
  const StepSeconds: nat := 60
  const BatchSize: nat := 200
  const TagLimit: nat := 200

  /** The quantiles, in per cent. */
  const Percents: seq<nat> := [50, 75, 90, 95, 99]

  /** Datadog's intake types as the script numbers them. */
  const RateType: nat := 2
  const GaugeType: nat := 3

  /** The text of a successful Datadog response. */
  const NoErrors: string := "{'errors': []}"

  // ---------------------------------------------------------------- names

  function BucketTest(): string -> bool
  {
    (n: string) => HasSuffix(n, "_bucket")
  }

  /** Histograms: every listed name ending in `_bucket`, in listing order. */
  function HistogramNames(names: seq<string>): (r: seq<string>)
    ensures forall n :: n in r <==> n in names && HasSuffix(n, "_bucket")
  {
    var r := Filter(names, BucketTest());
    assert forall n :: n in r ==> HasSuffix(n, "_bucket") by {
      forall n | n in r ensures HasSuffix(n, "_bucket") {
        var i :| 0 <= i < |r| && r[i] == n;
        assert BucketTest()(r[i]);
      }
    }
    assert forall n :: n in names && HasSuffix(n, "_bucket") ==> n in r by {
      forall n | n in names && HasSuffix(n, "_bucket") ensures n in r {
        var i :| 0 <= i < |names| && names[i] == n;
        assert BucketTest()(names[i]);
      }
    }
    r
  }

  /** `n.rpartition("_")[0]`: everything before the last underscore, or nothing. */
  function Family(n: string): string
  {
    BeforeLast(n, '_')
  }

  function CounterTest(histograms: seq<string>): string -> bool
  {
    (n: string) => Family(n) + "_bucket" !in histograms
  }

  /** Counters: every listed name whose family has no listed bucket series. */
  function CounterNames(names: seq<string>): (r: seq<string>)
    ensures forall n :: n in r <==> n in names && Family(n) + "_bucket" !in HistogramNames(names)
  {
    var test := CounterTest(HistogramNames(names));
    var r := Filter(names, test);
    assert forall n :: n in r ==> test(n) by {
      forall n | n in r ensures test(n) {
        var i :| 0 <= i < |r| && r[i] == n;
      }
    }
    assert forall n :: n in names && test(n) ==> n in r by {
      forall n | n in names && test(n) ensures n in r {
        var i :| 0 <= i < |names| && names[i] == n;
      }
    }
    r
  }

  /** The family of a `_bucket` name is the name without the suffix. */
  lemma FamilyOfBucket(base: string)
    ensures Family(base + "_bucket") == base
  {
    var n := base + "_bucket";
    assert n[|base|] == '_';
    assert n[|base| + 1..] == "bucket";
    assert '_' in n;
  }

  /** No name is both a histogram and a counter. */
  lemma HistogramsAndCountersDisjoint(names: seq<string>, n: string)
    requires n in HistogramNames(names)
    ensures n !in CounterNames(names)
  {
    var base := n[..|n| - 7];
    assert n == base + "_bucket";
    FamilyOfBucket(base);
  }

  /** The `_sum` and `_count` companions of a listed histogram are not counters. */
  lemma CompanionsExcluded(names: seq<string>, base: string, suffix: string)
    requires base + "_bucket" in names
    requires suffix == "_sum" || suffix == "_count"
    ensures base + suffix !in CounterNames(names)
  {
    FamilyOfBucket(base);
    AppendedSuffix(base, "_bucket");
    var n := base + suffix;
    assert n[|base|] == '_';
    var tail := suffix[1..];
    assert n[|base| + 1..] == tail;
    assert '_' !in tail;
    assert Family(n) == base;
  }

  /** A listed name whose family has no bucket series is a counter. */
  lemma CounterWhenNoBucket(names: seq<string>, n: string)
    requires n in names && Family(n) + "_bucket" !in names
    ensures n in CounterNames(names)
  {
  }

  // ---------------------------------------------------------------- queries

  const QuantileOpen: string := "histogram_quantile("
  const QuantileRate: string := ", sum(rate("
  const RangeGroup: string := "[1m])) by "
  const GroupLabels: string := "(temporal_account,temporal_namespace,operation,le))"
  const RateOpen: string := "rate("
  const RateClose: string := "[1m])"

  /** The quantile's text and the metric name sit at fixed offsets between the constant
      parts of the query, so both can be read back. */
  function HistogramPromQL(name: string, percent: nat): (r: string)
    ensures var q := |QuantileOpen|; var head := q + |ShortFraction(percent)| + |QuantileRate|;
      && |r| == head + |name| + |RangeGroup| + |GroupLabels|
      && r[q..q + |ShortFraction(percent)|] == ShortFraction(percent)
      && r[head..head + |name|] == name
  {
    var fraction := ShortFraction(percent);
    SixPartSlices(QuantileOpen, fraction, QuantileRate, name, RangeGroup, GroupLabels);
    QuantileOpen + fraction + QuantileRate + name + RangeGroup + GroupLabels
  }

  /** The metric name sits between the constant parts of the query and can be read back. */
  function CounterPromQL(name: string): (r: string)
    ensures |r| == |RateOpen| + |name| + |RateClose|
    ensures r[|RateOpen|..|r| - |RateClose|] == name
  {
    RateOpen + name + RateClose
  }

  /** The metric name sits between the fixed parts of the query, so different names give
      different queries. */
  lemma HistogramPromQLInjective(a: string, b: string, percent: nat)
    requires HistogramPromQL(a, percent) == HistogramPromQL(b, percent)
    ensures a == b
  {
  }

  lemma CounterPromQLInjective(a: string, b: string)
    requires CounterPromQL(a) == CounterPromQL(b)
    ensures a == b
  {
    var qa := CounterPromQL(a);
    assert a == qa[|RateOpen|..|qa| - |RateClose|];
    assert b == qa[|RateOpen|..|qa| - |RateClose|];
  }

  // ---------------------------------------------------------------- series

  datatype Point = Point(timestamp: real, value: SampleValue)

  /** A `MetricSeries`; `interval` is absent from gauges. */
  datatype DdSeries = DdSeries(metric: string, intake: nat, interval: Option<nat>, points: seq<Point>, tags: seq<string>)

  function NotNaN(): JsonSample -> bool
  {
    (s: JsonSample) => !s.value.NaN?
  }

  /** The points of a result: NaN samples are dropped, the rest kept in order. */
  function Points(values: seq<JsonSample>): (r: seq<Point>)
    ensures |r| == |Filter(values, NotNaN())|
    ensures forall k :: 0 <= k < |r| ==>
      r[k] == Point(Filter(values, NotNaN())[k].timestamp, Filter(values, NotNaN())[k].value)
  {
    var kept := Filter(values, NotNaN());
    seq(|kept|, k requires 0 <= k < |kept| => Point(kept[k].timestamp, kept[k].value))
  }

  /** `":".join(pair)[:200]`: the tag is cut as a whole, so a long key can lose its value. */
  function Tag(l: Label): string
  {
    Take(l.name + ":" + l.value, TagLimit)
  }

  function Tags(ls: LabelSet): (r: seq<string>)
    ensures |r| == |ls|
    ensures forall k :: 0 <= k < |ls| ==> r[k] == Tag(ls[k])
  {
    seq(|ls|, k requires 0 <= k < |ls| => Tag(ls[k]))
  }

  /** `create_datadog_rate_series`: the name gets `_rate1m` appended with nothing trimmed;
      `__rollup__` is not a tag. */
  function RateSeries(name: string, result: RangeResult): (s: DdSeries)
    ensures s.metric == name + "_rate1m" && s.intake == RateType && s.interval == Some(StepSeconds)
    ensures forall p :: p in s.points ==> !p.value.NaN?
    ensures |s.tags| == |Filter(result.metric, NotRollup())|
  {
    DdSeries(name + "_rate1m", RateType, Some(StepSeconds), Points(result.values),
      Tags(Filter(result.metric, NotRollup())))
  }

  /** `create_datadog_gauge_quantile`: `_bucket` is removed and `_P` with the percentage
      appended; every label is a tag, `__rollup__` included. */
  function GaugeSeries(name: string, percent: nat, result: RangeResult): (s: DdSeries)
    ensures s.intake == GaugeType && s.interval.None?
    ensures forall p :: p in s.points ==> !p.value.NaN?
    ensures |s.tags| == |result.metric|
  {
    DdSeries(TrimSuffix(name, "_bucket") + "_P" + NatToString(percent), GaugeType, None,
      Points(result.values), Tags(result.metric))
  }

  /** A tag never exceeds 200 characters and is the start of `key:value`; it is the whole of
      it when that fits. */
  lemma TagBounds(l: Label)
    ensures |Tag(l)| <= TagLimit
    ensures HasPrefix(l.name + ":" + l.value, Tag(l))
    ensures |l.name| + 1 + |l.value| <= TagLimit ==> Tag(l) == l.name + ":" + l.value
  {
  }

  /** A rollup label appears among the gauge's tags but never among the rate series' tags. */
  lemma RollupOnlyInGauges(name: string, percent: nat, result: RangeResult, value: string)
    requires Label(RollupLabel, value) in result.metric
    ensures Tag(Label(RollupLabel, value)) in GaugeSeries(name, percent, result).tags
    ensures forall k :: 0 <= k < |RateSeries(name, result).tags| ==>
      RateSeries(name, result).tags[k] == Tag(Filter(result.metric, NotRollup())[k])
      && Filter(result.metric, NotRollup())[k].name != RollupLabel
  {
    var i :| 0 <= i < |result.metric| && result.metric[i] == Label(RollupLabel, value);
    assert GaugeSeries(name, percent, result).tags[i] == Tag(Label(RollupLabel, value));
  }

  /** The gauge name of a `_bucket` metric. */
  lemma GaugeName(base: string, percent: nat, result: RangeResult)
    ensures GaugeSeries(base + "_bucket", percent, result).metric == base + "_P" + NatToString(percent)
  {
    AppendedSuffix(base, "_bucket");
  }

  // ---------------------------------------------------------------- gathering

  /** The Prometheus range API: the results of a query over the current window. */
  type Query = string -> seq<RangeResult>

  function RateSeriesOf(name: string, results: seq<RangeResult>): (r: seq<DdSeries>)
    ensures |r| == |results|
    ensures forall k :: 0 <= k < |results| ==> r[k] == RateSeries(name, results[k])
  {
    seq(|results|, k requires 0 <= k < |results| => RateSeries(name, results[k]))
  }

  function GaugeSeriesOf(name: string, percent: nat, results: seq<RangeResult>): (r: seq<DdSeries>)
    ensures |r| == |results|
    ensures forall k :: 0 <= k < |results| ==> r[k] == GaugeSeries(name, percent, results[k])
  {
    seq(|results|, k requires 0 <= k < |results| => GaugeSeries(name, percent, results[k]))
  }

  /** `gather_counters`: one query per counter, in order. */
  function GatherCounters(names: seq<string>, query: Query): seq<DdSeries>
  {
    if names == [] then []
    else RateSeriesOf(names[0], query(CounterPromQL(names[0]))) + GatherCounters(names[1..], query)
  }

  /** The queries of one histogram, one per quantile. */
  function QuantileSeries(name: string, percents: seq<nat>, query: Query): seq<DdSeries>
  {
    if percents == [] then []
    else
      GaugeSeriesOf(name, percents[0], query(HistogramPromQL(name, percents[0])))
        + QuantileSeries(name, percents[1..], query)
  }

  /** `gather_histograms`: name-major, then quantile. */
  function GatherHistograms(names: seq<string>, percents: seq<nat>, query: Query): seq<DdSeries>
  {
    if names == [] then []
    else QuantileSeries(names[0], percents, query) + GatherHistograms(names[1..], percents, query)
  }

  /** What one cycle submits: the counter series, then the histogram series. */
  function CycleSeries(counters: seq<string>, histograms: seq<string>, query: Query): seq<DdSeries>
  {
    GatherCounters(counters, query) + GatherHistograms(histograms, Percents, query)
  }

  /** In a cycle's submission every rate series precedes every gauge. */
  lemma RatesBeforeGauges(counters: seq<string>, histograms: seq<string>, query: Query)
    ensures var s := CycleSeries(counters, histograms, query);
      forall i, j :: 0 <= i < j < |s| && s[i].intake == GaugeType ==> s[j].intake == GaugeType
  {
    var c := GatherCounters(counters, query);
    var h := GatherHistograms(histograms, Percents, query);
    GatherCountersRates(counters, query);
    GatherHistogramsGauges(histograms, Percents, query);
    var s := c + h;
    forall i, j | 0 <= i < j < |s| && s[i].intake == GaugeType
      ensures s[j].intake == GaugeType
    {
      assert s[j] == h[j - |c|];
      assert s[j] in h;
    }
  }

  /** Every series a counter query gives is a rate. */
  lemma {:induction false} GatherCountersRates(names: seq<string>, query: Query)
    ensures forall s :: s in GatherCounters(names, query) ==> s.intake == RateType
  {
    if names != [] {
      GatherCountersRates(names[1..], query);
    }
  }

  lemma {:induction false} GatherHistogramsGauges(names: seq<string>, percents: seq<nat>, query: Query)
    ensures forall s :: s in GatherHistograms(names, percents, query) ==> s.intake == GaugeType
  {
    if names != [] {
      QuantileSeriesGauges(names[0], percents, query);
      GatherHistogramsGauges(names[1..], percents, query);
    }
  }

  lemma {:induction false} QuantileSeriesGauges(name: string, percents: seq<nat>, query: Query)
    ensures forall s :: s in QuantileSeries(name, percents, query) ==> s.intake == GaugeType
  {
    if percents != [] {
      QuantileSeriesGauges(name, percents[1..], query);
    }
  }

  // ---------------------------------------------------------------- submission

  /** Datadog's answer to the `k`-th batch, as `str` renders it. */
  type Submit = (nat, seq<DdSeries>) -> string

  function NotEmptyAnswer(): string -> bool
  {
    (a: string) => a != NoErrors
  }

  /** `submit_datadog_series`: the series in groups of 200, each group sent once, and the
      answers that are not the empty error list collected in order. */
  method SubmitSeries(series: seq<DdSeries>, submit: Submit)
    returns (nonEmpty: seq<string>, batches: seq<seq<DdSeries>>)
    ensures batches == Chunks(series, BatchSize)
    ensures Flatten(batches) == series
    ensures forall b :: 0 <= b < |batches| ==> 0 < |batches[b]| <= BatchSize
    ensures nonEmpty == Filter(Answers(batches, submit), NotEmptyAnswer())
  {
    batches := Chunks(series, BatchSize);
    nonEmpty := [];
    var b := 0;
    while b < |batches|
      invariant 0 <= b <= |batches|
      invariant nonEmpty == Filter(Answers(batches[..b], submit), NotEmptyAnswer())
    {
      var answer := submit(b, batches[b]);
      assert batches[..b + 1] == batches[..b] + [batches[b]];
      AnswersSnoc(batches[..b], batches[b], submit);
      FilterSnoc(Answers(batches[..b], submit), answer, NotEmptyAnswer());
      if answer != NoErrors {
        nonEmpty := nonEmpty + [answer];
      }
      b := b + 1;
    }
    assert batches[..b] == batches;
  }

  /** The answers to the batches, the `k`-th sent as call `k`. */
  function Answers(batches: seq<seq<DdSeries>>, submit: Submit): (r: seq<string>)
    ensures |r| == |batches|
    ensures forall k :: 0 <= k < |batches| ==> r[k] == submit(k, batches[k])
  {
    seq(|batches|, k requires 0 <= k < |batches| => submit(k, batches[k]))
  }

  lemma AnswersSnoc(batches: seq<seq<DdSeries>>, last: seq<DdSeries>, submit: Submit)
    ensures Answers(batches + [last], submit) == Answers(batches, submit) + [submit(|batches|, last)]
  {
    var a := Answers(batches + [last], submit);
    var b := Answers(batches, submit) + [submit(|batches|, last)];
    assert forall k :: 0 <= k < |a| ==> a[k] == b[k];
  }

  /** Every series is submitted exactly once: a series at position `i` is in batch `i / 200`
      at position `i % 200`. */
  lemma {:induction false} BatchPosition(series: seq<DdSeries>, i: nat)
    requires i < |series|
    ensures i / BatchSize < |Chunks(series, BatchSize)|
    ensures i % BatchSize < |Chunks(series, BatchSize)[i / BatchSize]|
    ensures Chunks(series, BatchSize)[i / BatchSize][i % BatchSize] == series[i]
    decreases |series|
  {
    var c := Chunks(series, BatchSize);
    if |series| > BatchSize {
      assert c[0] == series[..BatchSize];
      if i >= BatchSize {
        BatchPosition(series[BatchSize..], i - BatchSize);
        assert (i - BatchSize) / BatchSize == i / BatchSize - 1;
        assert (i - BatchSize) % BatchSize == i % BatchSize;
        assert c[1..] == Chunks(series[BatchSize..], BatchSize);
      }
    }
  }

  // ---------------------------------------------------------------- window

  /** Python `int()` of a float: truncation toward zero. */
  function Trunc(x: real): int
  {
    if x >= 0.0 then x.Floor else -((-x).Floor)
  }

  /** The start pushed back one step onto a step boundary. */
  function AlignStart(t: real): int
  {
    Trunc(t / StepSeconds as real - 1.0) * StepSeconds
  }

  /** The end pushed on one step onto a step boundary. */
  function AlignEnd(t: real): int
  {
    Trunc(t / StepSeconds as real + 1.0) * StepSeconds
  }

  /** For times after the epoch the aligned window strictly contains the requested one,
      with less than two steps of padding on each side. */
  lemma AlignBounds(start: real, end: real)
    requires start >= StepSeconds as real && end >= 0.0
    ensures start - 2.0 * StepSeconds as real < AlignStart(start) as real <= start - StepSeconds as real
    ensures end < AlignEnd(end) as real <= end + StepSeconds as real
  {
    var a := start / 60.0 - 1.0;
    assert a >= 0.0;
    assert a.Floor as real <= a < a.Floor as real + 1.0;
    var b := end / 60.0 + 1.0;
    assert b >= 0.0;
    assert b.Floor as real <= b < b.Floor as real + 1.0;
  }

  /** The window a cycle asks for, before alignment. */
  datatype Window = Window(start: real, end: real)

  function Aligned(w: Window): Window
  {
    Window(AlignStart(w.start) as real, AlignEnd(w.end) as real)
  }

  /** The first window: the last four hours. */
  function InitialWindow(now: real): Window
  {
    Window(now - (InitialWindowMinutes * 60) as real, now)
  }

  /** After a cycle the next window starts ten minutes before the last aligned end and runs
      to the current time. */
  function NextWindow(aligned: Window, now: real): Window
  {
    Window(aligned.end - (WindowMinutes * 60) as real, now)
  }

  /** Consecutive aligned windows overlap by eleven minutes: the next aligned start is the
      previous aligned end less ten minutes and one step. */
  lemma WindowsOverlap(w: Window, now: real)
    requires AlignEnd(w.end) >= 660
    ensures Aligned(NextWindow(Aligned(w), now)).start == Aligned(w).end - 660.0
  {
    var e := AlignEnd(w.end);
    var q := Trunc(w.end / 60.0 + 1.0);
    assert e == q * 60;
    var x := (e as real - 600.0) / 60.0 - 1.0;
    assert x == (q - 11) as real;
    assert q - 11 >= 0;
    assert x.Floor == q - 11;
  }
}

=== FILE: seqs.dfy ===
/** Order-preserving sequence combinators used as reference definitions: a Go loop that
    appends the elements passing a test is specified as a `Filter`, and a loop that appends
    whole slices (`append(xs, ys...)`) as a `Flatten`. */
module Seqs {

  /** The elements of `s` satisfying `p`, in their original order. */
  function Filter<T>(s: seq<T>, p: T -> bool): (r: seq<T>)
    ensures |r| <= |s|
    ensures forall i :: 0 <= i < |r| ==> p(r[i])
    ensures forall i :: 0 <= i < |r| ==> r[i] in s
    ensures forall i :: 0 <= i < |s| && p(s[i]) ==> s[i] in r
  {
    if s == [] then []
    else (if p(s[0]) then [s[0]] else []) + Filter(s[1..], p)
  }

  lemma {:induction false} FilterAppend<T>(a: seq<T>, b: seq<T>, p: T -> bool)
    ensures Filter(a + b, p) == Filter(a, p) + Filter(b, p)
  {
    if a == [] {
      assert a + b == b;
    } else {
      assert (a + b)[1..] == a[1..] + b;
      FilterAppend(a[1..], b, p);
    }
  }

  /** An element is kept exactly when it is in the sequence and passes the test. */
  lemma FilterMembers<T>(s: seq<T>, p: T -> bool)
    ensures forall x :: x in Filter(s, p) <==> x in s && p(x)
  {
    var r := Filter(s, p);
    forall x | x in r ensures x in s && p(x) {
      var i :| 0 <= i < |r| && r[i] == x;
    }
    forall x | x in s && p(x) ensures x in r {
      var i :| 0 <= i < |s| && s[i] == x;
    }
  }

  /** Taking one more element appends it. */
  lemma TakeSnoc<T>(s: seq<T>, i: nat)
    requires i < |s|
    ensures s[..i + 1] == s[..i] + [s[i]]
  {
  }

  /** The middle part of a three-part concatenation is read back by its offsets. */
  lemma MiddleSlice<T>(a: seq<T>, b: seq<T>, c: seq<T>)
    ensures (a + b + c)[|a|..|a| + |b|] == b
  {
    assert (a + b + c)[|a|..] == b + c;
  }

  /** In a six-part concatenation, the second and fourth parts are read back by their
      offsets. */
  lemma SixPartSlices<T>(a: seq<T>, b: seq<T>, c: seq<T>, d: seq<T>, e: seq<T>, f: seq<T>)
    ensures var r := a + b + c + d + e + f; var head := |a| + |b| + |c|;
      && |r| == head + |d| + |e| + |f|
      && r[|a|..|a| + |b|] == b
      && r[head..head + |d|] == d
  {
    var front := a + b + c;
    var middle := front + d + e;
    MiddleSlice(a, b, c);
    MiddleSlice(front, d, e);
    assert (middle + f)[|a|..|a| + |b|] == front[|a|..|a| + |b|];
    assert (middle + f)[|front|..|front| + |d|] == middle[|front|..|front| + |d|];
  }

  lemma AppendAssoc<T>(a: seq<T>, b: seq<T>, c: seq<T>)
    ensures a + (b + c) == (a + b) + c
  {
  }

  /** The step of a loop that appends the elements passing `p`. */
  lemma FilterSnoc<T>(s: seq<T>, x: T, p: T -> bool)
    ensures Filter(s + [x], p) == Filter(s, p) + (if p(x) then [x] else [])
  {
    FilterAppend(s, [x], p);
    assert Filter([x], p) == (if p(x) then [x] else []) + Filter([], p);
  }

  /** A sequence without repetitions has as many distinct elements as positions. */
  lemma {:induction false} DistinctElements<T>(s: seq<T>)
    requires forall i, j :: 0 <= i < j < |s| ==> s[i] != s[j]
    ensures |set x | x in s| == |s|
  {
    if s != [] {
      var t := s[1..];
      assert forall i, j :: 0 <= i < j < |t| ==> t[i] != t[j] by {
        forall i, j | 0 <= i < j < |t| ensures t[i] != t[j] {
          assert t[i] == s[i + 1] && t[j] == s[j + 1];
        }
      }
      DistinctElements(t);
      assert (set x | x in s) == {s[0]} + (set x | x in t) by {
        assert s == [s[0]] + t;
      }
      assert s[0] !in t by {
        forall j | 0 <= j < |t| ensures t[j] != s[0] {
          assert t[j] == s[j + 1];
        }
      }
    }
  }

  /** `a` is `b` with some elements left out, the rest in their original order. */
  predicate SubsequenceOf<T(==)>(a: seq<T>, b: seq<T>)
    decreases |b|
  {
    if a == [] then true
    else if b == [] then false
    else if a[0] == b[0] then SubsequenceOf(a[1..], b[1..])
    else SubsequenceOf(a, b[1..])
  }

  lemma {:induction false} FilterSubsequence<T>(s: seq<T>, p: T -> bool)
    ensures SubsequenceOf(Filter(s, p), s)
  {
    if s != [] {
      FilterSubsequence(s[1..], p);
      if p(s[0]) {
        assert Filter(s, p)[1..] == Filter(s[1..], p);
      } else {
        assert Filter(s, p) == Filter(s[1..], p);
        SubsequenceSkip(Filter(s, p), s);
      }
    }
  }

  /** Dropping the head of the longer sequence keeps a subsequence relation that does not
      need that head. */
  lemma SubsequenceSkip<T>(a: seq<T>, b: seq<T>)
    requires b != [] && SubsequenceOf(a, b[1..])
    requires a != [] ==> a[0] != b[0]
    ensures SubsequenceOf(a, b)
  {
  }

  /** Two exclusive tests that together cover `p` split `Filter(s, p)`. */
  lemma {:induction false} FilterSplit2<T>(s: seq<T>, p: T -> bool, a: T -> bool, b: T -> bool)
    requires forall x :: p(x) == (a(x) || b(x))
    requires forall x :: !(a(x) && b(x))
    ensures multiset(Filter(s, a)) + multiset(Filter(s, b)) == multiset(Filter(s, p))
  {
    if s != [] {
      var h, t := s[0], s[1..];
      FilterSplit2(t, p, a, b);
      var ma, mb, mp := multiset(Filter(t, a)), multiset(Filter(t, b)), multiset(Filter(t, p));
      FilterHead(s, a);
      FilterHead(s, b);
      FilterHead(s, p);
      assert p(h) == (a(h) || b(h)) && !(a(h) && b(h));
      UnionRearrange(multiset{h}, ma, mb);
      if a(h) {
        assert multiset(Filter(s, a)) == multiset{h} + ma && multiset(Filter(s, b)) == mb;
      } else if b(h) {
        assert multiset(Filter(s, a)) == ma && multiset(Filter(s, b)) == multiset{h} + mb;
      } else {
        assert multiset(Filter(s, a)) == ma && multiset(Filter(s, b)) == mb && multiset(Filter(s, p)) == mp;
      }
    }
  }

  /** Three tests that are pairwise exclusive and together cover `p` split `Filter(s, p)`. */
  lemma {:induction false} FilterSplit3<T>(s: seq<T>, p: T -> bool, a: T -> bool, b: T -> bool, c: T -> bool)
    requires forall x :: p(x) == (a(x) || b(x) || c(x))
    requires forall x :: !(a(x) && b(x)) && !(a(x) && c(x)) && !(b(x) && c(x))
    ensures multiset(Filter(s, a)) + multiset(Filter(s, b)) + multiset(Filter(s, c)) == multiset(Filter(s, p))
  {
    if s != [] {
      var h, t := s[0], s[1..];
      FilterSplit3(t, p, a, b, c);
      var ma, mb, mc := multiset(Filter(t, a)), multiset(Filter(t, b)), multiset(Filter(t, c));
      var mp := multiset(Filter(t, p));
      FilterHead(s, a);
      FilterHead(s, b);
      FilterHead(s, c);
      FilterHead(s, p);
      assert p(h) == (a(h) || b(h) || c(h));
      assert !(a(h) && b(h)) && !(a(h) && c(h)) && !(b(h) && c(h));
      Union3Rearrange(multiset{h}, ma, mb, mc);
      if a(h) {
        assert multiset(Filter(s, a)) == multiset{h} + ma && multiset(Filter(s, b)) == mb && multiset(Filter(s, c)) == mc;
      } else if b(h) {
        assert multiset(Filter(s, a)) == ma && multiset(Filter(s, b)) == multiset{h} + mb && multiset(Filter(s, c)) == mc;
      } else if c(h) {
        assert multiset(Filter(s, a)) == ma && multiset(Filter(s, b)) == mb && multiset(Filter(s, c)) == multiset{h} + mc;
      } else {
        assert multiset(Filter(s, a)) == ma && multiset(Filter(s, b)) == mb && multiset(Filter(s, c)) == mc;
        assert multiset(Filter(s, p)) == mp;
      }
    }
  }

  /** Filtering with a test and with its negation splits the sequence: nothing is lost
      and nothing is duplicated. */
  lemma {:induction false} FilterSplit<T>(s: seq<T>, p: T -> bool, q: T -> bool)
    requires forall x :: q(x) == !p(x)
    ensures multiset(Filter(s, p)) + multiset(Filter(s, q)) == multiset(s)
  {
    if s != [] {
      var h, t := s[0], s[1..];
      FilterSplit(t, p, q);
      var mp, mq := multiset(Filter(t, p)), multiset(Filter(t, q));
      FilterHead(s, p);
      FilterHead(s, q);
      assert s == [h] + t;
      assert multiset(s) == multiset{h} + multiset(t);
      UnionRearrange(multiset{h}, mp, mq);
      if p(h) {
        assert multiset(Filter(s, p)) == multiset{h} + mp && multiset(Filter(s, q)) == mq;
      } else {
        assert multiset(Filter(s, p)) == mp && multiset(Filter(s, q)) == multiset{h} + mq;
      }
    }
  }

  /** Moving one part of a three-part union to the front. */
  lemma UnionRearrange<T>(h: multiset<T>, x: multiset<T>, y: multiset<T>)
    ensures (h + x) + y == h + (x + y)
    ensures x + (h + y) == h + (x + y)
  {
  }

  lemma Union3Rearrange<T>(h: multiset<T>, x: multiset<T>, y: multiset<T>, z: multiset<T>)
    ensures (h + x) + y + z == h + (x + y + z)
    ensures x + (h + y) + z == h + (x + y + z)
    ensures x + y + (h + z) == h + (x + y + z)
  {
  }

  /** `Filter` takes the head first: the multiset of the kept elements is the head's share
      plus the rest's. */
  lemma FilterHead<T>(s: seq<T>, p: T -> bool)
    requires s != []
    ensures multiset(Filter(s, p)) == (if p(s[0]) then multiset{s[0]} else multiset{}) + multiset(Filter(s[1..], p))
  {
  }

  /** Filtering twice is filtering once with the conjunction. */
  lemma {:induction false} FilterFilter<T>(s: seq<T>, p: T -> bool, q: T -> bool, pq: T -> bool)
    requires forall x :: pq(x) == (p(x) && q(x))
    ensures Filter(Filter(s, p), q) == Filter(s, pq)
  {
    if s != [] {
      FilterFilter(s[1..], p, q, pq);
      if p(s[0]) {
        assert Filter(s, p) == [s[0]] + Filter(s[1..], p);
        assert Filter(s, p)[1..] == Filter(s[1..], p);
      } else {
        assert Filter(s, p) == Filter(s[1..], p);
      }
    }
  }

  /** Two tests that agree on every element of `s` filter it identically. */
  lemma {:induction false} FilterCongruent<T>(s: seq<T>, p: T -> bool, q: T -> bool)
    requires forall i :: 0 <= i < |s| ==> p(s[i]) == q(s[i])
    ensures Filter(s, p) == Filter(s, q)
  {
    if s != [] {
      FilterCongruent(s[1..], p, q);
    }
  }

  /** The concatenation of a sequence of sequences, in order. */
  function Flatten<T>(ss: seq<seq<T>>): seq<T>
  {
    if ss == [] then [] else ss[0] + Flatten(ss[1..])
  }

  lemma {:induction false} FlattenAppend<T>(a: seq<seq<T>>, b: seq<seq<T>>)
    ensures Flatten(a + b) == Flatten(a) + Flatten(b)
  {
    if a == [] {
      assert a + b == b;
    } else {
      assert (a + b)[1..] == a[1..] + b;
      FlattenAppend(a[1..], b);
    }
  }

  /** The step of a loop that appends one more slice. */
  lemma FlattenSnoc<T>(a: seq<seq<T>>, x: seq<T>)
    ensures Flatten(a + [x]) == Flatten(a) + x
  {
    FlattenAppend(a, [x]);
    assert Flatten([x]) == x + Flatten([]);
  }

  /** When every element of `c` passes `p` and every element of `g` passes `q`, the
      concatenation passes `p` up to `|c|` and `q` from there on. */
  lemma ConcatParts<T>(c: seq<T>, g: seq<T>, p: T -> bool, q: T -> bool)
    requires forall x :: x in c ==> p(x)
    requires forall x :: x in g ==> q(x)
    ensures forall i :: 0 <= i < |c| ==> p((c + g)[i])
    ensures forall i :: |c| <= i < |c + g| ==> q((c + g)[i])
  {
    forall i | 0 <= i < |c + g|
      ensures if i < |c| then p((c + g)[i]) else q((c + g)[i])
    {
      if i < |c| {
        assert (c + g)[i] == c[i] && c[i] in c;
      } else {
        assert (c + g)[i] == g[i - |c|] && g[i - |c|] in g;
      }
    }
  }

  /** The total number of elements of a sequence of sequences. */
  function TotalLength<T>(ss: seq<seq<T>>): nat
  {
    if ss == [] then 0 else |ss[0]| + TotalLength(ss[1..])
  }

  lemma {:induction false} FlattenLength<T>(ss: seq<seq<T>>)
    ensures |Flatten(ss)| == TotalLength(ss)
  {
    if ss != [] {
      FlattenLength(ss[1..]);
    }
  }

  /** Consecutive groups of `n`, in order; only the last may be shorter, and none is empty. */
  function Chunks<T>(s: seq<T>, n: nat): (r: seq<seq<T>>)
    requires n > 0
    ensures Flatten(r) == s
    ensures forall i :: 0 <= i < |r| ==> 0 < |r[i]| <= n
    ensures forall i :: 0 <= i < |r| - 1 ==> |r[i]| == n
    decreases |s|
  {
    if |s| == 0 then []
    else if |s| <= n then
      assert Flatten([s]) == s + Flatten([]);
      [s]
    else
      var rest := Chunks(s[n..], n);
      var r := [s[..n]] + rest;
      assert r[1..] == rest;
      assert s == s[..n] + s[n..];
      r
  }
}

=== FILE: text.dfy ===
/** String operations of the standard libraries the programs call (Go `strings`, Python
    `str`, JavaScript `String`), stated on `seq<char>`. Go compares and slices bytes; every
    separator and suffix used here is ASCII, so byte and character positions agree on them. */
module Text {

  predicate HasPrefix(s: string, p: string)
  {
    |p| <= |s| && s[..|p|] == p
  }

  predicate HasSuffix(s: string, x: string)
  {
    |x| <= |s| && s[|s| - |x|..] == x
  }

  /** Go `strings.TrimSuffix` and Python `str.removesuffix`: drop one trailing `x` if present. */
  function TrimSuffix(s: string, x: string): (r: string)
    ensures HasSuffix(s, x) ==> r + x == s
    ensures !HasSuffix(s, x) ==> r == s
  {
    if HasSuffix(s, x) then s[..|s| - |x|] else s
  }

  lemma AppendedSuffix(r: string, x: string)
    ensures HasSuffix(r + x, x)
    ensures TrimSuffix(r + x, x) == r
  {
    assert (r + x)[|r + x| - |x|..] == x;
  }

  /** `sep` occurs in `s` starting at index `i`. */
  predicate OccursAt(s: string, sep: string, i: int)
  {
    0 <= i && i + |sep| <= |s| && s[i..i + |sep|] == sep
  }

  lemma OccursAtTail(s: string, sep: string, i: nat)
    requires |s| > 0
    ensures OccursAt(s, sep, i + 1) <==> OccursAt(s[1..], sep, i)
  {
    if i + 1 + |sep| <= |s| {
      assert s[1..][i..i + |sep|] == s[i + 1..i + 1 + |sep|];
    }
  }

  /** JavaScript `s.split(sep)[0]`: the text before the first occurrence of `sep`, or the
      whole of `s` when `sep` does not occur. */
  function BeforeFirst(s: string, sep: string): (r: string)
    requires sep != []
    ensures HasPrefix(s, r)
    ensures forall i :: 0 <= i < |r| ==> !OccursAt(s, sep, i)
    ensures |r| < |s| ==> OccursAt(s, sep, |r|)
    decreases |s|
  {
    if HasPrefix(s, sep) then
      assert s[0..|sep|] == s[..|sep|];
      []
    else if s == [] then []
    else
      var t := BeforeFirst(s[1..], sep);
      OccursAtTail(s, sep, |t|);
      assert !OccursAt(s, sep, 0) by {
        if |sep| <= |s| {
          assert s[0..|sep|] == s[..|sep|];
        }
      }
      assert forall i :: 0 <= i < |t| + 1 ==> !OccursAt(s, sep, i) by {
        forall i | 0 <= i < |t| + 1
          ensures !OccursAt(s, sep, i)
        {
          if i > 0 {
            OccursAtTail(s, sep, i - 1);
          }
        }
      }
      [s[0]] + t
  }

  /** Python `s.rpartition(c)[0]`: the text before the last `c`, or "" when there is none. */
  function BeforeLast(s: string, c: char): (r: string)
    ensures c in s ==> |r| < |s| && s[..|r|] == r && s[|r|] == c && c !in s[|r| + 1..]
    ensures c !in s ==> r == []
  {
    if s == [] then []
    else if s[|s| - 1] == c then s[..|s| - 1]
    else
      var t := s[..|s| - 1];
      assert s == t + [s[|s| - 1]];
      BeforeLast(t, c)
  }

  /** Python `s[:n]` on a string: at most the first `n` characters (code points). */
  function Take(s: string, n: nat): (r: string)
    ensures |r| <= n && HasPrefix(s, r)
    ensures |s| <= n ==> r == s
  {
    if |s| <= n then s else s[..n]
  }

  function DigitChar(d: nat): (c: char)
    requires d < 10
    ensures '0' <= c <= '9'
  {
    "0123456789"[d]
  }

  predicate IsDigits(s: string)
  {
    forall i :: 0 <= i < |s| ==> '0' <= s[i] <= '9'
  }

  /** Decimal rendering of a natural number without leading zeros (Go `%d`, Python `str`,
      JavaScript `toString` on an integral number). */
  function NatToString(n: nat): (r: string)
    ensures 1 <= |r| && IsDigits(r)
    ensures n < 10 <==> |r| == 1
  {
    if n < 10 then [DigitChar(n)] else NatToString(n / 10) + [DigitChar(n % 10)]
  }

  /** The value a decimal digit string denotes. */
  function DigitsValue(s: string): nat
    requires IsDigits(s)
  {
    if s == [] then 0
    else DigitsValue(s[..|s| - 1]) * 10 + ((s[|s| - 1] as int) - ('0' as int))
  }

  lemma {:induction false} NatToStringValue(n: nat)
    ensures DigitsValue(NatToString(n)) == n
  {
    var r := NatToString(n);
    if n >= 10 {
      NatToStringValue(n / 10);
      assert r[..|r| - 1] == NatToString(n / 10);
      DigitCharValue(n % 10);
      assert r[|r| - 1] == DigitChar(n % 10);
    } else {
      DigitCharValue(n);
    }
  }

  /** The digit character of `d` stands for `d`. */
  lemma DigitCharValue(d: nat)
    requires d < 10
    ensures (DigitChar(d) as int) - ('0' as int) == d
  {
  }

  /** The value of one digit and of two digits. */
  lemma DigitsValueOfDigits(a: nat, b: nat)
    requires a < 10 && b < 10
    ensures DigitsValue([DigitChar(a)]) == a
    ensures DigitsValue([DigitChar(a), DigitChar(b)]) == 10 * a + b
  {
    DigitCharValue(a);
    DigitCharValue(b);
    assert [DigitChar(a)][..0] == [];
    assert [DigitChar(a), DigitChar(b)][..1] == [DigitChar(a)];
  }

  /** The last two decimal digits of `n` are its tens digit and its units digit. */
  lemma TwoLowDigits(n: nat)
    ensures n % 100 == 10 * ((n / 10) % 10) + n % 10
  {
    var q, u := n / 10, n % 10;
    assert n == 10 * q + u;
    var t, h := q % 10, q / 10;
    assert q == 10 * h + t;
    assert n == 100 * h + (10 * t + u);
    assert 0 <= 10 * t + u < 100;
  }

  /** Right-aligns `s` in a field of `width` characters by padding with spaces (Go `%2.0f`). */
  function PadLeft(s: string, width: nat): (r: string)
    ensures |r| == if |s| < width then width else |s|
    ensures HasSuffix(r, s)
    ensures forall i :: 0 <= i < |r| - |s| ==> r[i] == ' '
  {
    if |s| < width then seq(width - |s|, _ => ' ') + s else s
  }

  /** The number of occurrences of `c` in `s`. */
  function Count(c: char, s: string): nat
  {
    if s == [] then 0 else (if s[0] == c then 1 else 0) + Count(c, s[1..])
  }

  lemma {:induction false} CountAppend(c: char, a: string, b: string)
    ensures Count(c, a + b) == Count(c, a) + Count(c, b)
  {
    if a == [] {
      assert a + b == b;
    } else {
      assert (a + b)[1..] == a[1..] + b;
      CountAppend(c, a[1..], b);
    }
  }

  lemma {:induction false} CountAbsent(c: char, s: string)
    requires c !in s
    ensures Count(c, s) == 0
  {
    if s != [] {
      assert c !in s[1..];
      CountAbsent(c, s[1..]);
    }
  }

  /** Terminates every line with a newline and concatenates them. */
  function JoinLines(lines: seq<string>): string
  {
    if lines == [] then [] else lines[0] + "\n" + JoinLines(lines[1..])
  }

  lemma {:induction false} JoinLinesAppend(a: seq<string>, b: seq<string>)
    ensures JoinLines(a + b) == JoinLines(a) + JoinLines(b)
  {
    if a == [] {
      assert a + b == b;
    } else {
      assert (a + b)[1..] == a[1..] + b;
      JoinLinesAppend(a[1..], b);
    }
  }

  lemma JoinLinesSnoc(lines: seq<string>, line: string)
    ensures JoinLines(lines + [line]) == JoinLines(lines) + line + "\n"
  {
    JoinLinesAppend(lines, [line]);
    assert JoinLines([line]) == line + "\n" + JoinLines([]);
  }

  predicate NoNewline(s: string)
  {
    '\n' !in s
  }

  /** A reader of the rendered text: cuts it at every newline. `current` is the line read so
      far; a final line without a newline is still returned. */
  function SplitLinesFrom(s: string, current: string): seq<string>
  {
    if s == [] then (if current == [] then [] else [current])
    else if s[0] == '\n' then [current] + SplitLinesFrom(s[1..], [])
    else SplitLinesFrom(s[1..], current + [s[0]])
  }

  function SplitLines(s: string): seq<string>
  {
    SplitLinesFrom(s, [])
  }

  lemma {:induction false} SplitOneLine(line: string, rest: string, current: string)
    requires NoNewline(line)
    ensures SplitLinesFrom(line + "\n" + rest, current) == [current + line] + SplitLinesFrom(rest, [])
    decreases |line|
  {
    if line == [] {
      assert line + "\n" + rest == ['\n'] + rest;
      assert current + line == current;
    } else {
      assert (line + "\n" + rest)[1..] == line[1..] + "\n" + rest;
      assert NoNewline(line[1..]) by { assert forall k :: 0 <= k < |line[1..]| ==> line[1..][k] == line[k + 1]; }
      SplitOneLine(line[1..], rest, current + [line[0]]);
      assert current + [line[0]] + line[1..] == current + line;
    }
  }

  /** Splitting joined newline-free lines gives back exactly those lines. */
  lemma {:induction false} SplitJoinLines(lines: seq<string>)
    requires forall i :: 0 <= i < |lines| ==> NoNewline(lines[i])
    ensures SplitLines(JoinLines(lines)) == lines
  {
    if lines != [] {
      SplitOneLine(lines[0], JoinLines(lines[1..]), []);
      assert [] + lines[0] == lines[0];
      SplitJoinLines(lines[1..]);
      assert lines == [lines[0]] + lines[1..];
    }
  }

  lemma {:induction false} JoinLinesCount(lines: seq<string>)
    requires forall i :: 0 <= i < |lines| ==> NoNewline(lines[i])
    ensures Count('\n', JoinLines(lines)) == |lines|
  {
    if lines != [] {
      CountAppend('\n', lines[0] + "\n", JoinLines(lines[1..]));
      CountAppend('\n', lines[0], "\n");
      CountAbsent('\n', lines[0]);
      JoinLinesCount(lines[1..]);
    }
  }

  /** The shortest decimal text of `percent / 100` with at most two fraction digits, as
      Python's `str` prints such a float: the integer part, a point, and one fraction digit
      when the hundredths are zero, two otherwise. */
  function ShortFraction(percent: nat): (r: string)
    ensures HasPrefix(r, NatToString(percent / 100) + ".")
    ensures |r| == |NatToString(percent / 100)| + (if percent % 10 == 0 then 2 else 3)
    ensures var digits := r[|NatToString(percent / 100)| + 1..];
      && IsDigits(digits)
      && (|digits| == 1 ==> DigitsValue(digits) * 10 == percent % 100)
      && (|digits| == 2 ==> DigitsValue(digits) == percent % 100 && digits[1] != '0')
  {
    var tenths := (percent / 10) % 10;
    var hundredths := percent % 10;
    TwoLowDigits(percent);
    DigitsValueOfDigits(tenths, hundredths);
    DigitCharValue(hundredths);
    NatToString(percent / 100) + "."
      + (if hundredths == 0 then [DigitChar(tenths)] else [DigitChar(tenths), DigitChar(hundredths)])
  }

  lemma ShortFractionExamples()
    ensures ShortFraction(50) == "0.5" && ShortFraction(95) == "0.95" && ShortFraction(100) == "1.0"
    ensures ShortFraction(75) == "0.75" && ShortFraction(90) == "0.9" && ShortFraction(99) == "0.99"
  {
    assert NatToString(0) == "0" && NatToString(1) == "1";
    assert DigitChar(0) == '0' && DigitChar(5) == '5' && DigitChar(7) == '7' && DigitChar(9) == '9';
    ShortFractionOf(50, 0, 5, 0);
    ShortFractionOf(95, 0, 9, 5);
    ShortFractionOf(100, 1, 0, 0);
    ShortFractionOf(75, 0, 7, 5);
    ShortFractionOf(90, 0, 9, 0);
    ShortFractionOf(99, 0, 9, 9);
  }

  /** `ShortFraction` for a percentage whose whole part and two digits are given. */
  lemma ShortFractionOf(percent: nat, whole: nat, tenths: nat, hundredths: nat)
    requires tenths < 10 && hundredths < 10 && percent == 100 * whole + 10 * tenths + hundredths
    ensures ShortFraction(percent)
         == NatToString(whole) + "." + (if hundredths == 0 then [DigitChar(tenths)] else [DigitChar(tenths), DigitChar(hundredths)])
  {
    assert percent / 100 == whole;
    assert percent / 10 == 10 * whole + tenths;
    assert (percent / 10) % 10 == tenths;
    assert percent % 10 == hundredths;
  }
}

=== FILE: ts_common.dfy ===
/** What the two TypeScript harvesters (promql-to-dd-ts/promql-to-dd.ts and
    promql-to-nr-ts/promql-to-nr.ts) share, line for line: the metric-name filter, the
    query texts and the query window aligned on the Prometheus step, and the JavaScript
    semantics they run on (`parseFloat`, UTF-16 strings, number-to-text). */
module TsCommon {
  import opened Wrappers
  import opened Text
  import opened Seqs
  import opened PromModel

  const CloudPrefix: string := "temporal_cloud"
  const StepSeconds: nat := 60
  const QueryWindowSeconds: nat := 600

  /** The quantiles, in per cent. */
  const Percents: seq<nat> := [50, 90, 95, 99]

  // ---------------------------------------------------------------- names

  function CloudTest(): string -> bool
  {
    (n: string) => HasPrefix(n, CloudPrefix)
  }

  function CountTest(): string -> bool
  {
    (n: string) => HasSuffix(n, "_count")
  }

  function HistogramTest(): string -> bool
  {
    (n: string) => HasSuffix(n, "_bucket")
  }

  datatype MetricNames = MetricNames(countMetricNames: seq<string>, histogramMetricNames: seq<string>)

  /** `getMetricNames`: the `temporal_cloud` names, then those ending in `_count` and those
      ending in `_bucket`, each in listing order. */
  function GetMetricNames(names: seq<string>): (r: MetricNames)
    ensures forall n :: n in r.countMetricNames ==> n in names && HasPrefix(n, CloudPrefix) && HasSuffix(n, "_count")
    ensures forall n :: n in r.histogramMetricNames ==> n in names && HasPrefix(n, CloudPrefix) && HasSuffix(n, "_bucket")
  {
    var cloud := Filter(names, CloudTest());
    assert forall n :: n in cloud ==> n in names && HasPrefix(n, CloudPrefix) by {
      forall n | n in cloud ensures n in names && HasPrefix(n, CloudPrefix) {
        var i :| 0 <= i < |cloud| && cloud[i] == n;
        assert CloudTest()(cloud[i]);
      }
    }
    var counts := Filter(cloud, CountTest());
    var histograms := Filter(cloud, HistogramTest());
    assert forall n :: n in counts ==> HasSuffix(n, "_count") by {
      forall n | n in counts ensures HasSuffix(n, "_count") {
        var i :| 0 <= i < |counts| && counts[i] == n;
        assert CountTest()(counts[i]);
      }
    }
    assert forall n :: n in histograms ==> HasSuffix(n, "_bucket") by {
      forall n | n in histograms ensures HasSuffix(n, "_bucket") {
        var i :| 0 <= i < |histograms| && histograms[i] == n;
        assert HistogramTest()(histograms[i]);
      }
    }
    MetricNames(counts, histograms)
  }

  /** A listed name is a count exactly when it has the prefix and the `_count` suffix, a
      histogram exactly when it has the prefix and the `_bucket` suffix; no name is both, and
      every other name (`_sum`, plain gauges, other prefixes) is dropped. */
  lemma GetMetricNamesExact(names: seq<string>, n: string)
    requires n in names
    ensures n in GetMetricNames(names).countMetricNames <==> HasPrefix(n, CloudPrefix) && HasSuffix(n, "_count")
    ensures n in GetMetricNames(names).histogramMetricNames <==> HasPrefix(n, CloudPrefix) && HasSuffix(n, "_bucket")
    ensures !(n in GetMetricNames(names).countMetricNames && n in GetMetricNames(names).histogramMetricNames)
  {
    var cloud := Filter(names, CloudTest());
    if HasPrefix(n, CloudPrefix) {
      assert n in cloud;
    }
    CountIsNotBucket(n);
  }

  /** No name ends in both `_count` and `_bucket`. */
  lemma CountIsNotBucket(n: string)
    ensures !(HasSuffix(n, "_count") && HasSuffix(n, "_bucket"))
  {
    if HasSuffix(n, "_count") {
      assert n[|n| - 2] == 'n';
    }
  }

  /** Each list keeps the listing order. */
  lemma GetMetricNamesKeepsOrder(names: seq<string>)
    ensures SubsequenceOf(GetMetricNames(names).countMetricNames, Filter(names, CloudTest()))
    ensures SubsequenceOf(GetMetricNames(names).histogramMetricNames, Filter(names, CloudTest()))
  {
    var cloud := Filter(names, CloudTest());
    FilterSubsequence(cloud, CountTest());
    FilterSubsequence(cloud, HistogramTest());
  }

  // ---------------------------------------------------------------- queries

  const QuantileOpen: string := "histogram_quantile("
  const QuantileRate: string := ", sum(rate("
  const RangeGroup: string := "[1m])) by "
  const GroupLabels: string := "(temporal_account,temporal_namespace,operation,le))"
  const RateOpen: string := "rate("
  const RateClose: string := "[1m])"

  /** The quantile as JavaScript prints the number `percent / 100`. */
  function HistogramPromQL(name: string, percent: nat): string
  {
    QuantileOpen + JsFraction(percent) + QuantileRate + name + RangeGroup + GroupLabels
  }

  function CountPromQL(name: string): string
  {
    RateOpen + name + RateClose
  }

  // ---------------------------------------------------------------- series names

  /** The series name of a count: the text before the first `_count`, then `_rate1m`. */
  function CountSeriesName(prefix: string, name: string): string
  {
    prefix + BeforeFirst(name, "_count") + "_rate1m"
  }

  /** The series name of a histogram quantile: the text before the first `_bucket`, then `_P` and the
      percentage. */
  function GaugeSeriesName(prefix: string, name: string, percent: nat): string
  {
    prefix + BeforeFirst(name, "_bucket") + "_P" + NatToString(percent)
  }

  /** The name of a `_count` metric loses exactly that suffix, provided `_count` does not
      occur earlier in it; likewise for the gauge name of a `_bucket` metric. */
  lemma NamesOfSuffixed(prefix: string, base: string, percent: nat)
    requires forall i :: 0 <= i < |base| ==> !OccursAt(base + "_count", "_count", i)
    requires forall i :: 0 <= i < |base| ==> !OccursAt(base + "_bucket", "_bucket", i)
    ensures CountSeriesName(prefix, base + "_count") == prefix + base + "_rate1m"
    ensures GaugeSeriesName(prefix, base + "_bucket", percent) == prefix + base + "_P" + NatToString(percent)
  {
    FirstAtEnd(base, "_count");
    FirstAtEnd(base, "_bucket");
  }

  /** When the only occurrence of `sep` in `base + sep` is the one at the end, the text
      before the first `sep` is `base`. */
  lemma FirstAtEnd(base: string, sep: string)
    requires sep != []
    requires forall i :: 0 <= i < |base| ==> !OccursAt(base + sep, sep, i)
    ensures BeforeFirst(base + sep, sep) == base
  {
    var s := base + sep;
    var r := BeforeFirst(s, sep);
    assert OccursAt(s, sep, |base|) by {
      assert s[|base|..|base| + |sep|] == sep;
    }
    assert |r| == |base|;
    assert s[..|base|] == base;
  }

  /** A split that finds `sep` earlier keeps less: the text before the first `_count` of a
      name holding `_count` twice is shorter than the base. */
  lemma FirstOccurrenceWins(base: string, sep: string, i: nat)
    requires sep != [] && i < |base| && OccursAt(base + sep, sep, i)
    ensures |BeforeFirst(base + sep, sep)| <= i
  {
  }

  // ---------------------------------------------------------------- window

  datatype QueryWindow = QueryWindow(startSecondsSinceEpoch: real, endSecondsSinceEpoch: real)

  /** A time in seconds that falls on a step: a whole multiple of 60. */
  predicate OnStep(t: real)
  {
    t.Floor as real == t && t.Floor % StepSeconds == 0
  }

  /** `alignQueryWindowOnPrometheusStep`: `Math.floor(t / 60 - 1) * 60` for the start and
      `Math.floor(t / 60 + 1) * 60` for the end; both ends fall on a step. */
  function Align(w: QueryWindow): (r: QueryWindow)
    ensures OnStep(r.startSecondsSinceEpoch) && OnStep(r.endSecondsSinceEpoch)
  {
    var step := StepSeconds as real;
    QueryWindow(((w.startSecondsSinceEpoch / step - 1.0).Floor * StepSeconds) as real,
                ((w.endSecondsSinceEpoch / step + 1.0).Floor * StepSeconds) as real)
  }

  /** `generateQueryWindow` at `nowSeconds`: the last ten minutes, aligned. */
  function GenerateQueryWindow(nowSeconds: real): QueryWindow
  {
    Align(QueryWindow(nowSeconds - QueryWindowSeconds as real, nowSeconds))
  }

  /** The aligned window strictly contains the requested one: it starts at least one and
      less than two steps earlier, and ends later by at most one step. */
  lemma AlignBounds(w: QueryWindow)
    ensures var r := Align(w);
      && w.startSecondsSinceEpoch - 120.0 < r.startSecondsSinceEpoch <= w.startSecondsSinceEpoch - 60.0
      && w.endSecondsSinceEpoch < r.endSecondsSinceEpoch <= w.endSecondsSinceEpoch + 60.0
  {
    var a := w.startSecondsSinceEpoch / 60.0 - 1.0;
    assert a.Floor as real <= a < a.Floor as real + 1.0;
    var b := w.endSecondsSinceEpoch / 60.0 + 1.0;
    assert b.Floor as real <= b < b.Floor as real + 1.0;
  }

  /** Whatever the clock says, the generated window is exactly twelve steps long and both
      ends fall on a step. */
  lemma GeneratedWindowWidth(nowSeconds: real)
    ensures var r := GenerateQueryWindow(nowSeconds);
      && r.endSecondsSinceEpoch - r.startSecondsSinceEpoch == 720.0
      && r.endSecondsSinceEpoch == ((nowSeconds / 60.0).Floor * 60 + 60) as real
  {
    var x := nowSeconds / 60.0;
    var f := x.Floor;
    assert (nowSeconds - 600.0) / 60.0 - 1.0 == x - 11.0;
    assert f as real - 11.0 <= x - 11.0 < f as real - 10.0;
    assert (x - 11.0).Floor == f - 11;
    assert (x + 1.0).Floor == f + 1;
  }

  // ---------------------------------------------------------------- JavaScript values

  /** `parseFloat` of a sample's text. Prometheus spells the infinities `+Inf` and `-Inf`,
      which `parseFloat` does not read (it knows only `Infinity`), so they parse as NaN, as
      `NaN` does; every finite value parses to itself. */
  function ParseFloat(v: SampleValue): (r: SampleValue)
    ensures r.NaN? <==> !v.Finite?
    ensures v.Finite? ==> r == v
  {
    if v.Finite? then v else NaN
  }

  /** JavaScript's text of the number `percent / 100`: Python's text, except that a whole
      number has no fraction part. */
  function JsFraction(percent: nat): (r: string)
  {
    if percent % 100 == 0 then NatToString(percent / 100) else ShortFraction(percent)
  }

  /** Where JavaScript and Python print a quantile differently: only on whole numbers, where
      Python adds `.0`. */
  lemma JsFractionAgainstPython(percent: nat)
    ensures percent % 100 != 0 ==> JsFraction(percent) == ShortFraction(percent)
    ensures percent % 100 == 0 ==> ShortFraction(percent) == JsFraction(percent) + ".0"
  {
    if percent % 100 == 0 {
      WholeDigits(percent);
      assert DigitChar(0) == '0';
      assert ShortFraction(percent) == NatToString(percent / 100) + "." + [DigitChar(0)];
    }
  }

  /** A whole percentage has zero tenths and hundredths. */
  lemma WholeDigits(percent: nat)
    requires percent % 100 == 0
    ensures (percent / 10) % 10 == 0 && percent % 10 == 0
  {
    var q := percent / 100;
    assert percent == 100 * q;
    assert percent == 10 * (10 * q) + 0;
    assert percent / 10 == 10 * q;
  }

  lemma JsFractionExamples()
    ensures JsFraction(50) == "0.5" && JsFraction(95) == "0.95" && JsFraction(99) == "0.99"
    ensures JsFraction(100) == "1" && JsFraction(0) == "0"
  {
    assert NatToString(0) == "0" && NatToString(1) == "1";
    ShortFractionOf(50, 0, 5, 0);
    ShortFractionOf(95, 0, 9, 5);
    ShortFractionOf(99, 0, 9, 9);
  }

  /** A UTF-16 code unit; a JavaScript string is a sequence of them. */
  type CodeUnit = x: int | 0 <= x < 0x1_0000

  type JsString = seq<CodeUnit>

  /** The code units of one character: the character itself below U+10000, a surrogate pair
      above. */
  function CharUnits(c: char): (r: JsString)
    ensures 1 <= |r| <= 2
    ensures |r| == 1 <==> (c as int) < 0x1_0000
  {
    var v := c as int;
    if v < 0x1_0000 then [v]
    else [0xD800 + (v - 0x1_0000) / 0x400, 0xDC00 + (v - 0x1_0000) % 0x400]
  }

  /** The JavaScript string holding the text `s`. */
  function Utf16(s: string): (r: JsString)
    ensures |r| >= |s|
  {
    if s == [] then [] else CharUnits(s[0]) + Utf16(s[1..])
  }

  predicate IsHighSurrogate(u: CodeUnit)
  {
    0xD800 <= u < 0xDC00
  }

  predicate IsLowSurrogate(u: CodeUnit)
  {
    0xDC00 <= u < 0xE000
  }

  /** Reads code units back as text; `None` at a surrogate without its partner. */
  function FromUtf16(u: JsString): Option<string>
  {
    if u == [] then Some([])
    else if IsHighSurrogate(u[0]) then
      if |u| >= 2 && IsLowSurrogate(u[1]) then
        match FromUtf16(u[2..])
        case None => None
        case Some(rest) => Some([(0x1_0000 + (u[0] as int - 0xD800) * 0x400 + (u[1] as int - 0xDC00)) as char] + rest)
      else None
    else if IsLowSurrogate(u[0]) then None
    else
      match FromUtf16(u[1..])
      case None => None
      case Some(rest) => Some([u[0] as char] + rest)
  }

  /** Encoding loses nothing: reading the code units back gives the text. */
  lemma {:induction false} Utf16RoundTrip(s: string)
    ensures FromUtf16(Utf16(s)) == Some(s)
  {
    if s != [] {
      Utf16RoundTrip(s[1..]);
      var c := s[0];
      assert s == [c] + s[1..];
      var u := Utf16(s);
      assert u == CharUnits(c) + Utf16(s[1..]);
      if (c as int) < 0x1_0000 {
        assert u[1..] == Utf16(s[1..]);
        assert !IsHighSurrogate(u[0]) && !IsLowSurrogate(u[0]);
        assert (u[0] as char) == c;
        assert FromUtf16(u) == Some([c] + s[1..]);
      } else {
        assert u[2..] == Utf16(s[1..]);
        var v := c as int - 0x1_0000;
        assert v == (v / 0x400) * 0x400 + v % 0x400;
        assert FromUtf16(u) == Some([c] + s[1..]);
      }
    }
  }

  lemma {:induction false} Utf16Append(a: string, b: string)
    ensures Utf16(a + b) == Utf16(a) + Utf16(b)
  {
    if a != [] {
      assert (a + b)[1..] == a[1..] + b;
      Utf16Append(a[1..], b);
    } else {
      assert a + b == b;
    }
  }

  /** Every character lies in the Basic Multilingual Plane: one code unit each. */
  predicate InBmp(s: string)
  {
    forall i :: 0 <= i < |s| ==> (s[i] as int) < 0x1_0000
  }

  /** Every character lies above it: two code units each. */
  predicate AboveBmp(s: string)
  {
    forall i :: 0 <= i < |s| ==> (s[i] as int) >= 0x1_0000
  }

  lemma {:induction false} Utf16Length(s: string)
    ensures InBmp(s) ==> |Utf16(s)| == |s|
    ensures AboveBmp(s) ==> |Utf16(s)| == 2 * |s|
  {
    if s != [] {
      assert InBmp(s) ==> InBmp(s[1..]) by {
        if InBmp(s) {
          forall i | 0 <= i < |s[1..]| ensures (s[1..][i] as int) < 0x1_0000 {
            assert s[1..][i] == s[i + 1];
          }
        }
      }
      assert AboveBmp(s) ==> AboveBmp(s[1..]) by {
        if AboveBmp(s) {
          forall i | 0 <= i < |s[1..]| ensures (s[1..][i] as int) >= 0x1_0000 {
            assert s[1..][i] == s[i + 1];
          }
        }
      }
      Utf16Length(s[1..]);
    }
  }

  /** `s.substring(0, n)`: the first `n` code units, or all of them when there are fewer;
      the cut may fall between the two halves of a surrogate pair. */
  function Substring(s: JsString, n: nat): (r: JsString)
    ensures |r| == if |s| <= n then |s| else n
    ensures r == s[..|r|]
  {
    if |s| <= n then s else s[..n]
  }

  /** Cutting a text at `n` code units keeps its first `k` characters when those take
      exactly `n` units. */
  lemma CutAtCharacters(s: string, k: nat, n: nat)
    requires k <= |s| && |Utf16(s[..k])| == n
    ensures Substring(Utf16(s), n) == Utf16(s[..k])
  {
    assert s == s[..k] + s[k..];
    Utf16Append(s[..k], s[k..]);
  }

  /** A cut at `n` code units keeps `n` characters of a text in the Basic Multilingual Plane
      but only `n / 2` characters of a text above it. */
  lemma CutByPlane(s: string, n: nat)
    ensures InBmp(s) ==> Substring(Utf16(s), n) == Utf16(Take(s, n))
    ensures AboveBmp(s) ==> Substring(Utf16(s), 2 * n) == Utf16(Take(s, n))
  {
    if InBmp(s) && |s| > n {
      assert InBmp(s[..n]) by {
        forall i | 0 <= i < n ensures (s[..n][i] as int) < 0x1_0000 {
          assert s[..n][i] == s[i];
        }
      }
      Utf16Length(s[..n]);
      CutAtCharacters(s, n, n);
    } else if InBmp(s) {
      Utf16Length(s);
    }
    if AboveBmp(s) && |s| > n {
      assert AboveBmp(s[..n]) by {
        forall i | 0 <= i < n ensures (s[..n][i] as int) >= 0x1_0000 {
          assert s[..n][i] == s[i];
        }
      }
      Utf16Length(s[..n]);
      CutAtCharacters(s, n, 2 * n);
    } else if AboveBmp(s) {
      Utf16Length(s);
    }
  }
}

=== FILE: wrappers.dfy ===
/** Failure-carrying datatypes shared by every module of the model: an optional value
    (a Go nil pointer or map) and a value-or-error result (a Go `(T, error)` pair). */
module Wrappers {

  datatype Option<+T> = None | Some(value: T)

  /** `Success(v)` is a Go return `(v, nil)`; `Failure(e)` is `(zero, e)`. */
  datatype Result<+T, +E> = Success(value: T) | Failure(error: E)
}
